=== FILE: README.md ===
# InterDead site core in Dafny

InterDead is a Hugo site with two bundles of theme JavaScript (`assets/js` and
`static/js`), a few mini-games and a Cloudflare worker (`interdead-auth`) that runs the
Discord sign-in. This project models the logic of that core as pure Dafny functions over
immutable state, and proves properties of it:

- **Worker and session.** The worker routes `/auth/discord/start`, `/auth/discord/callback`
  and `/efbd/trigger`. The session store signs values, encodes them as `<payload>.<signature>`
  tokens and builds `Set-Cookie` directives. Its byte layers are modelled exactly:
  - UTF-8 per RFC 3629, with the WHATWG decoder's byte-order-mark stripping;
  - base 64 per RFC 4648 (section 4, and the URL-safe alphabet of section 5), with the forgiving decoder `atob` uses;
  - the `application/x-www-form-urlencoded` serializer and parser `URLSearchParams` uses;
  - decimal number text.
- **Modals.** Entities, views and instances. Two modal services:
  - the `assets` one keeps a resume stack: a modal opened over another hides it and brings it back on close;
  - the `static` one keeps a single active modal.
  The document scroll lock counts contexts.
- **Slider.** Slide entities with their `mediums` score, the slider model (sorting and
  normalisation), the slider service's wrap-around navigation and scoreboard, and the DOM
  mapper reduced to `dataset` maps.
- **Auth.** The auth state service (normalising `/auth/session` answers and redacting tokens
  in the log), the auth visibility service (pending / authenticated / unauthenticated) and the
  Discord login service.
- **Small services.** Event bus, feature flags, CTA links, age mode, countdown timer, the EFBD
  scale bridge and trigger port.
- **Mini-games.** The EFBD poll mini-game and the mini-game launcher, which keeps a game's
  assets unloaded until the visitor is authenticated.

JavaScript values are the datatype `Json.Json`. Property reads, truthiness and nullishness are
modelled as the language defines them:
- `??` replaces only `null`/`undefined`;
- `||` replaces every falsy value;
- destructuring defaults replace only `undefined`.

Everything the code receives from the platform is a parameter of the model:
- HMAC-SHA-256, `JSON.stringify`/`JSON.parse`, `Number(...)` and `new URL(...)`;
- the scale library's `isAxisCode`;
- the clock, and the ids `setInterval` hands out;
- the answers of adapters and asset loaders.

Effects on the outside world are recorded in the state as data:
- cookies written;
- database rows written;
- events emitted;
- scroll-lock calls;
- storage writes;
- asset loads.

Paths below are relative to the repository root.

## Model

| member | source | states |
|---|---|---|
| Session.Sign | workers/interdead-auth/src/session.js:16-29 | there is no signature exactly when the secret is missing or empty; a signature is URL-safe base 64 and never contains the token separator `.` |
| Session.SplitToken | workers/interdead-auth/src/session.js:68 | `token.split('.')` as far as `decode` looks: the text before the first dot, and the text between the first and second dot when there is one |
| Session.SplitJoin | workers/interdead-auth/src/session.js:68 | two dot-free parts joined by `.` split back into exactly those parts |
| Session.TimingSafeEqual | workers/interdead-auth/src/session.js:159-168 | the length check plus the OR of char-code XORs is true exactly when the two strings are equal |
| Session.TimingSafeEqualLoop | workers/interdead-auth/src/session.js:159-168 | the same comparison written as the source's loop over every position returns true exactly when the strings are equal |
| Session.MismatchZero | workers/interdead-auth/src/session.js:163-167 | the accumulated XOR difference over the first n positions is zero exactly when those prefixes agree |
| Session.NewStore | workers/interdead-auth/src/session.js:33-41 | a new store holds the request's cookies, nothing pending, and state and session lifetimes defaulting to 600 and 2592000 seconds |
| Session.BuildCookie | workers/interdead-auth/src/session.js:116-118 | a directive starts with the cookie name and `=`, and reads back as the name, value and `Max-Age` it was built from when the name has no `=` and the value no `;` |
| Session.EncodeText | workers/interdead-auth/src/session.js:131-134 | the UTF-8 then URL-safe base 64 text is dot-free, unpadded and empty only for empty input |
| Session.DecodeEncodeText | workers/interdead-auth/src/session.js:131-157 | decoding the encoded text gives the original string back, unless it starts with U+FEFF |
| Session.Encode | workers/interdead-auth/src/session.js:120-128 | fails with the missing-key error exactly when there is no non-empty signature; otherwise the token is exactly the encoded payload, a `.` and its signature, and splits back into those two parts |
| Session.Payload | workers/interdead-auth/src/session.js:76-81 | an undecodable payload is an encoding error; decoded text is the parsed JSON value when it parses and the raw string otherwise |
| Session.Decode | workers/interdead-auth/src/session.js:67-82 | a malformed token is rejected as a format error and nothing else is; a signature mismatch is reported exactly when the recomputed signature differs; an accepted token carries its own signature |
| Session.DecodeWithoutSecret | workers/interdead-auth/src/session.js:17-19 | without a secret no token is accepted |
| Session.EncodeWithoutSecret | workers/interdead-auth/src/session.js:123-126 | without a secret nothing can be encoded |
| Session.DecodeOwnToken | workers/interdead-auth/src/session.js:67-82 | for a store with a signing key, a token it issued for a non-empty serialisation decodes to what `JSON.parse` makes of that serialisation, or to the raw text |
| Session.EncodeDecodeValue | workers/interdead-auth/src/session.js:120-128 | for a keyed store whose `JSON` round-trips, any well-formed non-string value (safe integers, unique keys in enumeration order) survives encode then decode unchanged |
| Session.EncodeDecodeString | workers/interdead-auth/src/session.js:120-128 | for a store with a signing key, a non-empty string that is not JSON text survives encode then decode unchanged |
| Session.EncodeDecodeJsonText | workers/interdead-auth/src/session.js:77-81 | for a store with a signing key, a string that is JSON text comes back as the value it denotes, not as the string |
| Session.EncodeDecodeEmptyString | workers/interdead-auth/src/session.js:69-71 | for a store with a signing key, the empty string encodes to a token with an empty payload, which decode rejects as malformed |
| Session.TamperedPayloadRejected | workers/interdead-auth/src/session.js:72-75 | a payload paired with a signature that is not its own is rejected |
| Session.StoreAndEncode | workers/interdead-auth/src/session.js:60-65 | fails exactly when encoding fails; otherwise the token is stored under the key, one directive with the given lifetime is queued, and nothing else changes |
| Session.Set | workers/interdead-auth/src/session.js:43-45 | stores and encodes with the state lifetime |
| Session.Get | workers/interdead-auth/src/session.js:47-53 | a value is returned exactly when the cookie exists, is non-empty and decodes, and it is the decoded value |
| Session.Delete | workers/interdead-auth/src/session.js:55-58 | the key is gone, every other cookie is untouched, and an expiring `deleted` directive is queued |
| Session.GetRaw | workers/interdead-auth/src/session.js:84-86 | the raw cookie text, present exactly when the cookie is |
| Session.ReadSession | workers/interdead-auth/src/session.js:92-98 | the session cookie's value exactly when that cookie exists, is non-empty and carries a valid signature |
| Session.CollectCookies | workers/interdead-auth/src/session.js:112-114 | a copy of the queued directives, same length, same order |
| Session.SessionPayload | workers/interdead-auth/src/session.js:100-110 | an object with unique keys, exactly `profileId`, `displayName` from the profile and `issuedAt` set to now |
| Session.PayloadKeyOrder | workers/interdead-auth/src/session.js:103-107 | the payload's keys are not array indices, so they already stand in the order a JavaScript object enumerates them |
| Session.IssueSession | workers/interdead-auth/src/session.js:100-110 | a missing profile is an error; otherwise the payload is stored under the session key with the session lifetime |
| Session.StoreThenGet | workers/interdead-auth/src/session.js:60-65 | what was stored under a key is what `get` returns for it |
| Session.SetThenGet | workers/interdead-auth/src/session.js:43-53 | `set` then `get` of the same key returns the value |
| Session.DeleteThenGet | workers/interdead-auth/src/session.js:47-58 | after `delete`, neither `get` nor `getRaw` finds the key |
| Session.PayloadWellFormed | workers/interdead-auth/src/session.js:103-107 | a well-formed profile gives a well-formed payload |
| Session.IssueThenRead | workers/interdead-auth/src/session.js:92-110 | a session issued for a profile is read back as its payload, and its cookie is the last directive collected |
| Session.OneCookiePerMutation | workers/interdead-auth/src/session.js:43-65 | every successful `set`, `delete` or session issue queues exactly one directive; `set` fails only for a missing signing key |
| Worker.StartParams | workers/interdead-auth/src/worker.js:12-19 | the authorization query holds client id, `response_type=code`, `scope=identify`, the redirect URI, and `state` only for a non-empty origin, in that order |
| Worker.BuildStartRedirect | workers/interdead-auth/src/worker.js:6-21 | a 500 text answer exactly when the client id or redirect URI is missing or empty; otherwise a redirect to Discord's authorize endpoint with the serialized query |
| Worker.StartRedirectQuery | workers/interdead-auth/src/worker.js:12-20 | parsing the redirect's query gives back each parameter the worker set |
| Worker.StartParamsLookup | workers/interdead-auth/src/worker.js:13-18 | each parameter name looks up its own value, and `state` is absent without an origin |
| Worker.StubProfile | workers/interdead-auth/src/worker.js:37-42 | a profile is returned exactly for a non-empty code, with the stub id |
| Worker.PersistProfile | workers/interdead-auth/src/worker.js:44-52 | the session id is `session-<id>` or `session-anon`; one identity row is written exactly when a database is bound and the profile has an id |
| Worker.CallbackTarget | workers/interdead-auth/src/worker.js:33 | the target is the `state` parameter when it is non-empty, `/` otherwise |
| Worker.HandleCallback | workers/interdead-auth/src/worker.js:23-35 | 400 exactly without a code, 502 exactly when the code yields no profile, no row written on either error; otherwise the profile's rows are written and the answer is a 302 to the parsed target-plus-fragment exactly when it parses as a URL, and a thrown error exactly when it does not |
| Worker.CallbackMissingCodeFirst | workers/interdead-auth/src/worker.js:24-27 | a request without a code fails the same way whatever the profile lookup would answer |
| Worker.CallbackTo | workers/interdead-auth/src/worker.js:32-34 | a linked profile with a known target and token is redirected to the parsed `<target>#session=<token>`, or the handler throws when that does not parse |
| Worker.RelativeTargetThrows | workers/interdead-auth/src/worker.js:32-34 | a target starting with `/` (the `/` default included) makes `Response.redirect` throw, after the identity row is written |
| Worker.CallbackWithoutStateThrows | workers/interdead-auth/src/worker.js:23-34 | a callback carrying a code but no `state` throws instead of redirecting |
| Worker.CallbackWithStub | workers/interdead-auth/src/worker.js:23-42 | with the stub lookup, a code and an origin give a redirect to the parsed `<origin>#session=session-discord-user`, or a throw when that does not parse |
| Worker.OAuthRoundTrip | workers/interdead-auth/src/worker.js:6-42 | the origin given to the start route comes back as `state` in the authorization URL, and a callback with a code and that `state` is redirected to the origin with the stub's token, or throws when that does not parse |
| Worker.PersistTrigger | workers/interdead-auth/src/worker.js:69-77 | one scale row exactly when a database is bound, with score `value ?? 0` and source `source \|\| 'site'` |
| Worker.HandleTrigger | workers/interdead-auth/src/worker.js:60-67 | 400 without a truthy axis and nothing written; otherwise `accepted` echoing the trigger, and the trigger persisted |
| Worker.Fetch | workers/interdead-auth/src/worker.js:81-99 | each method-and-path route answers exactly what its handler answers (the start route with the `state` query value); anything else is a 404; only the callback and trigger routes write |
| Worker.RouterNotFound | workers/interdead-auth/src/worker.js:81-99 | the answer is 404 exactly for a request no route matches, and such a request writes nothing |
| Base64.UrlEncode | workers/interdead-auth/src/session.js:136-146 | the output uses only the URL-safe alphabet, carries no padding and no dot, and is the standard encoding with `+`/`/` mapped to `-`/`_` |
| Base64.ForgivingDecode | workers/interdead-auth/src/session.js:151 | after ASCII whitespace is dropped and final padding removed, decoding fails exactly for a length of 1 mod 4 or a character outside the standard alphabet; otherwise the result is the decoded body |
| Base64.ToUrlSafe | workers/interdead-auth/src/session.js:143-144 | every `+` becomes `-` and every `/` becomes `_`, position by position; none of `+` and `/` is left |
| Base64.FromUrlSafe | workers/interdead-auth/src/session.js:149 | every `-` becomes `+` and every `_` becomes `/`, position by position; none of `-` and `_` is left |
| Base64.RePad | workers/interdead-auth/src/session.js:150 | pads with `=` to the next multiple of four, keeping the text as a prefix |
| Base64.DecodeBodyEncodeBody | workers/interdead-auth/src/session.js:142-151 | decoding the unpadded encoding of any bytes gives the bytes back (RFC 4648 section 4) |
| Base64.StripFinalPaddingOfPadded | workers/interdead-auth/src/session.js:150-151 | the decoder's padding removal undoes the re-padding |
| Base64.FromToUrlSafe | workers/interdead-auth/src/session.js:143-149 | mapping to the URL-safe alphabet and back is the identity on standard text |
| Base64.UrlRoundTrip | workers/interdead-auth/src/session.js:136-157 | URL-safe decoding of the URL-safe encoding of any bytes gives the bytes back (RFC 4648 section 5) |
| Utf8.EncodeChar | workers/interdead-auth/src/session.js:132 | a code point takes one to four bytes, one exactly for ASCII (RFC 3629 section 3) |
| Utf8.DecodeOneEncodeChar | workers/interdead-auth/src/session.js:156 | the decoder reads back each encoded code point and consumes exactly its bytes |
| Utf8.DecodeStreamEncode | workers/interdead-auth/src/session.js:156 | decoding the encoding of any string without the leading-mark rule gives the string back |
| Utf8.DecodeEncode | workers/interdead-auth/src/session.js:131-157 | `TextDecoder` applied to `TextEncoder` output is the identity unless the text starts with U+FEFF |
| Utf8.DecodeEncodeLeadingMark | workers/interdead-auth/src/session.js:156 | a leading U+FEFF is dropped by the round trip |
| FormUrlEncoded.Encode | workers/interdead-auth/src/worker.js:20 | an encoded name or value never contains `&` or `=` |
| FormUrlEncoded.DecodeEncode | workers/interdead-auth/src/worker.js:13-20 | decoding an encoded string gives it back |
| FormUrlEncoded.ParseSerialize | workers/interdead-auth/src/worker.js:12-24 | parsing a serialized parameter list gives the list back, in order |
| FormUrlEncoded.GetSpec | workers/interdead-auth/src/worker.js:24 | `get` is `null` exactly when no pair has the name, and otherwise the value of a pair with that name |
| FormUrlEncoded.SetThenGet | workers/interdead-auth/src/worker.js:13-18 | after `set`, `get` of that name gives the new value |
| FormUrlEncoded.SetOther | workers/interdead-auth/src/worker.js:13-18 | `set` does not change what other names look up |
| FormUrlEncoded.SetFresh | workers/interdead-auth/src/worker.js:13-18 | setting a new name appends one pair at the end |
| FormUrlEncoded.RemoveOther | workers/interdead-auth/src/worker.js:13-18 | removing a name leaves other names' lookups unchanged |
| Decimal.NatToStringRoundTrip | themes/InterDead/assets/js/application/timer/CountdownTimer.js:31 | `String(n)` of a natural number reads back as n |
| Decimal.IntToStringRoundTrip | themes/InterDead/assets/js/application/auth/AuthVisibilityService.js:93 | `String(n)` of an integer, sign included, parses back as n |
| Decimal.PadStart2Value | themes/InterDead/assets/js/application/timer/CountdownTimer.js:31 | `padStart(2, '0')` keeps the digits' value |
| JsText.Trim | themes/InterDead/assets/js/application/auth/AuthVisibilityService.js:101 | the result is a slice of the input with only whitespace before and after it, and with no whitespace at either of its own ends; it is empty exactly when the input is all whitespace |
| JsText.TrimOfPadded | themes/InterDead/assets/js/application/auth/AuthVisibilityService.js:101 | whitespace put around a text with no outer whitespace is exactly what trimming removes |
| JsText.TrimIdempotent | themes/InterDead/assets/js/application/auth/AuthVisibilityService.js:101 | trimming twice is trimming once |
| JsText.ReplaceAllRemovesPattern | themes/InterDead/assets/js/domain/slider/SlideEntity.js:39 | `replaceAll` with a replacement sharing no character with the pattern leaves no occurrence of the pattern |
| JsText.ReplaceAllAfterPrefix | themes/InterDead/assets/js/domain/slider/SlideEntity.js:39 | a prefix in which no occurrence starts is kept as it is |
| JsText.ReplaceAllOnce | themes/InterDead/assets/js/domain/slider/SlideEntity.js:39 | a text `a + pattern + b` with its only occurrence after `a` becomes `a + replacement + b` |
| JsText.LowerCase | themes/InterDead/assets/js/domain/modal/ModalEntity.js:12 | lower-casing maps each character on its own and keeps the length |
| Modal.NormalizeScrollSpellings | themes/InterDead/assets/js/domain/modal/ModalEntity.js:12-13 | exactly the case-insensitive spellings of `lock` select scroll locking |
| Modal.NewEntity | themes/InterDead/assets/js/domain/modal/ModalEntity.js:7-14 | defaults: no storage key, no auto-open, closing on overlay, scroll free |
| Modal.Remember | themes/InterDead/assets/js/domain/modal/ModalEntity.js:26-31 | writes `hidden` under the storage key when there is one, and touches no other key |
| Modal.AutoOpenUntilRemembered | themes/InterDead/assets/js/domain/modal/ModalEntity.js:16-31 | an auto modal opens until it has been remembered, and never after |
| Modal.RememberWithoutKey | themes/InterDead/assets/js/domain/modal/ModalEntity.js:26-29 | without a key or storage, remembering changes nothing about auto-opening |
| Modal.CreateEntity | themes/InterDead/assets/js/infrastructure/ui/ModalDomMapper.js:4-19 | no entity exactly when there is no element |
| Modal.CreateEntityFields | themes/InterDead/assets/js/infrastructure/ui/ModalDomMapper.js:4-19 | each entity field is read from its `data-modal-*` attribute: `lock`, `true`, anything but `false`, truthy id and key |
| Modal.NewView | themes/InterDead/assets/js/infrastructure/ui/ModalView.js:4-9 | a view starts open exactly when its element carries the open class |
| Modal.ViewOpen | themes/InterDead/assets/js/infrastructure/ui/ModalView.js:11-27 | opening succeeds exactly for a present closed view; a refusal changes nothing |
| Modal.ViewClose | themes/InterDead/assets/js/infrastructure/ui/ModalView.js:29-41 | closing succeeds exactly for a present open view and removes the overlay handler |
| Modal.ViewTransitions | themes/InterDead/assets/js/infrastructure/ui/ModalView.js:11-41 | open and close keep a view's invariant; the overlay handler is installed exactly when asked for |
| Modal.ViewOpenClose | themes/InterDead/assets/js/infrastructure/ui/ModalView.js:11-41 | closing after opening restores the closed view |
| Modal.NewInstance | themes/InterDead/assets/js/application/modal/ModalInstance.js:5-10 | an instance holds exactly the entity and view it was given |
| Modal.Id | themes/InterDead/assets/js/application/modal/ModalInstance.js:12-14 | an instance without an entity has no id |
| Modal.InstanceOpen | themes/InterDead/assets/js/application/modal/ModalInstance.js:16-24 | without entity or view nothing happens; otherwise the view opens with the entity's overlay setting |
| Modal.InstanceClose | themes/InterDead/assets/js/application/modal/ModalInstance.js:26-36 | succeeds exactly when the view is open; remembers only on a successful close that asks for it |
| Modal.InstanceLocksScroll | themes/InterDead/assets/js/application/modal/ModalInstance.js:38-43 | true exactly for an entity whose scroll behaviour is `lock` |
| Modal.InstanceAutoOpens | themes/InterDead/assets/js/application/modal/ModalInstance.js:45-50 | an instance opens by itself exactly when it has an auto entity and either no storage key or no truthy stored value under it |
| Modal.InstanceAutoOpenUntilRemembered | themes/InterDead/assets/js/application/modal/ModalInstance.js:26-50 | after a successful close with `remember`, the instance opens by itself again exactly when it is automatic and had no storage key or no storage |
| Modal.InstanceOpenThenClose | themes/InterDead/assets/js/application/modal/ModalInstance.js:16-36 | opening a closed instance then closing it succeeds and leaves the view closed |
| ScrollLock.NewController | themes/InterDead/static/js/infrastructure/ui/DocumentScrollController.js:4-9 | a new controller is unlocked with no contexts |
| ScrollLock.Lock | themes/InterDead/static/js/infrastructure/ui/DocumentScrollController.js:11-21 | adds the context (if given) and locks; nothing without a target |
| ScrollLock.Unlock | themes/InterDead/static/js/infrastructure/ui/DocumentScrollController.js:23-35 | removes the context (all contexts when none is given) and unlocks once none is left |
| ScrollLock.LockUnlockConsistent | themes/InterDead/static/js/infrastructure/ui/DocumentScrollController.js:11-35 | the page is locked exactly while some context holds the lock |
| ScrollLock.LockIdempotent | themes/InterDead/static/js/infrastructure/ui/DocumentScrollController.js:11-21 | locking twice for a context is locking once |
| ScrollLock.OtherContextKeepsLock | themes/InterDead/static/js/infrastructure/ui/DocumentScrollController.js:23-35 | releasing one context keeps the lock another context holds |
| ScrollLock.UnlockAllReleases | themes/InterDead/static/js/infrastructure/ui/DocumentScrollController.js:27-34 | unlocking without a context releases everything |
| ScrollLock.LockThenUnlock | themes/InterDead/static/js/infrastructure/ui/DocumentScrollController.js:11-35 | lock then unlock of one context restores the idle controller |
| Seqs.Without | themes/InterDead/assets/js/application/modal/ModalService.js:146 | the filter keeps exactly the other values, keeps a duplicate-free list duplicate-free, and changes nothing when the value is absent |
| ModalService.Register | themes/InterDead/assets/js/application/modal/ModalService.js:18-27 | nothing without entity and view; an instance with a non-empty id is stored under it |
| ModalService.NewService | themes/InterDead/assets/js/application/modal/ModalService.js:4-16 | a new service keeps its invariant: no modals, nothing active, an empty resume stack, no scroll calls, no keydown handler |
| ModalService.RemoveFromStack | themes/InterDead/assets/js/application/modal/ModalService.js:142-147 | drops every copy of a non-empty id from the resume stack |
| ModalService.CloseInstanceStep | themes/InterDead/assets/js/application/modal/ModalService.js:93-114 | closes one instance, reports whether it was the active one, adds its unlock call, and leaves everything else alone |
| ModalService.CloseInstanceStepInv | themes/InterDead/assets/js/application/modal/ModalService.js:93-114 | closing one instance keeps the service invariant: the active modal stays open and registered, the stack stays free of repeats |
| ModalService.CloseInstance | themes/InterDead/assets/js/application/modal/ModalService.js:93-127 | keeps the registry's ids and the service invariant, never grows the stack |
| ModalService.CloseInstanceOutcome | themes/InterDead/assets/js/application/modal/ModalService.js:93-127 | reports a close exactly when the instance closed or, unless resuming is skipped, was a suspended inactive one; a refused close changes nothing else; a closed active modal resumes the previous one; a closed or suspended inactive one is dropped from the stack and nothing else changes |
| ModalService.Close | themes/InterDead/assets/js/application/modal/ModalService.js:70-77 | keeps the registry's ids and the service invariant |
| ModalService.ResumePrevious | themes/InterDead/assets/js/application/modal/ModalService.js:129-140 | keeps the invariant and never grows the stack |
| ModalService.Activate | themes/InterDead/assets/js/application/modal/ModalService.js:55-67 | a successful open makes the modal active and adds its lock call; a failed one changes nothing |
| ModalService.OpenResumed | themes/InterDead/assets/js/application/modal/ModalService.js:29-68 | keeps the invariant and never grows the stack |
| ModalService.PushOnce | themes/InterDead/assets/js/application/modal/ModalService.js:44-46 | the suspended id is on the stack exactly once |
| ModalService.MakeRoom | themes/InterDead/assets/js/application/modal/ModalService.js:42-54 | keeps the registry's ids and the invariant |
| ModalService.Open | themes/InterDead/assets/js/application/modal/ModalService.js:29-68 | keeps the service invariant: unique stack, registered ids, the active modal shown |
| ModalService.HandleKeydown | themes/InterDead/assets/js/application/modal/ModalService.js:87-91 | keeps the invariant |
| ModalService.RegisterKeepsInv | themes/InterDead/assets/js/application/modal/ModalService.js:18-27 | registering a well-formed instance keeps the invariant |
| ModalService.UnknownIdDropped | themes/InterDead/assets/js/application/modal/ModalService.js:29-77 | opening or closing an unknown id fails and only removes it from the stack |
| ModalService.OpenActiveUnchanged | themes/InterDead/assets/js/application/modal/ModalService.js:38-41 | opening the active modal succeeds and changes nothing |
| ModalService.CloseActiveOnEmptyStack | themes/InterDead/assets/js/application/modal/ModalService.js:93-127 | closing the active modal with nothing suspended leaves no modal active and the others untouched |
| ModalService.OpenWithoutResumeClosesActive | themes/InterDead/assets/js/application/modal/ModalService.js:42-51 | opening without resume closes the active modal and clears the stack; the new one is active exactly when it can be shown |
| ModalService.SuspendActive | themes/InterDead/assets/js/application/modal/ModalService.js:43-47 | making room with resume suspends the active modal onto the stack, closed but showable |
| ModalService.OpenResumeSuspendsActive | themes/InterDead/assets/js/application/modal/ModalService.js:42-67 | opening with resume shows the new modal and suspends the old one, with unlock then lock calls |
| ModalService.FailedResumeRestoresActive | themes/InterDead/assets/js/application/modal/ModalService.js:55-61 | when the new modal cannot open, the suspended one comes back and the stack is as before |
| ModalService.CloseActiveResumesTop | themes/InterDead/assets/js/application/modal/ModalService.js:120-140 | closing the active modal reopens the top of the stack and pops it |
| ModalService.CloseActiveIsResume | themes/InterDead/assets/js/application/modal/ModalService.js:120-140 | that close is exactly the close step followed by activating the popped modal |
| ModalService.ResumeTopOpens | themes/InterDead/assets/js/application/modal/ModalService.js:129-140 | resuming pops the top id and opens it |
| ModalService.CloseSuspendedDropsIt | themes/InterDead/assets/js/application/modal/ModalService.js:96-124 | closing a suspended modal removes it from the stack and leaves the active one alone |
| ModalService.OpenWithNothingActive | themes/InterDead/assets/js/application/modal/ModalService.js:52-67 | with nothing active, opening a showable modal activates it with one lock call |
| ModalService.SuspendedUnder | tests/modalServiceResume.test.js:48-49 | opening A, then B with resume, shows B over A, with A alone suspended and still showable and the scroll calls of each step in order |
| ModalService.ResumeAfterClose | tests/modalServiceResume.test.js:34-57 | open A, open B with resume, close B: A is active and open again, the stack empty |
| ModalService.ResumeAfterCloseScroll | tests/modalServiceResume.test.js:34-57 | with A locking scroll and B not, the controller sees lock, unlock, lock for A |
| ModalService.NoResumeAfterRemoval | tests/modalServiceResume.test.js:59-73 | closing the suspended A, then B, leaves nothing open and nothing to resume |
| ModalService.NestedOpens | tests/modalServiceResume.test.js:75-83 | three nested opens leave A and B suspended in order and C active |
| ModalService.OpenOverSuspended | tests/modalServiceResume.test.js:81-83 | a resume open of C over B, with A suspended, leaves A then B on the stack and C on screen |
| ModalService.NestedFirstClose | tests/modalServiceResume.test.js:81-87 | closing C after the nested opens shows B again, with A still suspended beneath it |
| ModalService.CloseOverTwo | themes/InterDead/assets/js/application/modal/ModalService.js:93-140 | closing the active modal over the stack `[A, B]` shows B again and leaves A suspended and showable |
| ModalService.NestedResume | tests/modalServiceResume.test.js:75-92 | closing C resumes B, closing B resumes A |
| StaticModalService.Register | themes/InterDead/static/js/application/modal/ModalService.js:13-22 | nothing without entity and view; only the new instance is added |
| StaticModalService.NewService | themes/InterDead/static/js/application/modal/ModalService.js:4-11 | a new service keeps its invariant: no modals, nothing active, no scroll calls, no keydown handler |
| StaticModalService.Open | themes/InterDead/static/js/application/modal/ModalService.js:24-40 | an unknown id changes nothing; the invariant is kept |
| StaticModalService.Show | themes/InterDead/static/js/application/modal/ModalService.js:32-39 | a showable modal becomes the active one with its lock call; otherwise nothing changes |
| StaticModalService.Close | themes/InterDead/static/js/application/modal/ModalService.js:42-55 | only that modal changes; the active modal is cleared only when it was this one |
| StaticModalService.HandleKeydown | themes/InterDead/static/js/application/modal/ModalService.js:65-69 | any key but Escape, or no active modal, changes nothing |
| StaticModalService.RegisterKeepsInv | themes/InterDead/static/js/application/modal/ModalService.js:13-22 | registering keeps the invariant |
| StaticModalService.CloseOpenModal | themes/InterDead/static/js/application/modal/ModalService.js:42-55 | closing an open modal hides it, adds its unlock call and remembers it when asked |
| StaticModalService.CloseClosedModal | themes/InterDead/static/js/application/modal/ModalService.js:42-55 | closing a modal that is not open changes nothing |
| StaticModalService.OpenSwitches | themes/InterDead/static/js/application/modal/ModalService.js:29-39 | opening another modal closes the active one first, even when the new one then fails to open |
| StaticModalService.OpenFromIdle | themes/InterDead/static/js/application/modal/ModalService.js:24-40 | with nothing active, a showable modal opens with its lock call and anything else changes nothing |
| StaticModalService.OpenActiveUnchanged | themes/InterDead/static/js/application/modal/ModalService.js:29-33 | opening the active modal changes nothing |
| StaticModalService.EscapeClosesActive | themes/InterDead/static/js/application/modal/ModalService.js:65-69 | Escape closes the active modal and leaves none active |
| SliderModel.Trunc | themes/InterDead/assets/js/domain/slider/SlideEntity.js:15 | `Math.trunc` of a non-negative number is the largest integer not above it |
| SliderModel.SetMediums | themes/InterDead/assets/js/domain/slider/SlideEntity.js:9-16 | a positive number is kept, truncated; anything else clears the score |
| SliderModel.NewSlide | themes/InterDead/assets/js/domain/slider/SlideEntity.js:2-7 | order defaults to 0 and the score goes through `setMediums` |
| SliderModel.HasMediumsAfterSet | themes/InterDead/assets/js/domain/slider/SlideEntity.js:9-20 | a slide has a score exactly when it was set to at least 1 |
| SliderModel.MediumsOr | themes/InterDead/assets/js/domain/slider/SlideEntity.js:22-27 | the score, or the fallback (0 when missing) |
| SliderModel.DisplayCount | themes/InterDead/assets/js/domain/slider/SlideEntity.js:29-34 | empty exactly without a score; otherwise `+` followed by the score's digits |
| SliderModel.Announcement | themes/InterDead/assets/js/domain/slider/SlideEntity.js:36-46 | every `__COUNT__` in a template is replaced, so none is left; without a placeholder, the base text and the `+<score>` count are joined, and the result is empty only when both are |
| SliderModel.CountText | themes/InterDead/assets/js/domain/slider/SlideEntity.js:37 | the count a template receives is the decimal text of the score, or `0` without one |
| SliderModel.AnnouncementFillsPlaceholder | themes/InterDead/assets/js/domain/slider/SlideEntity.js:37-40 | a template `a + __COUNT__ + b` with a single placeholder announces `a`, the count and `b`, whatever the base text |
| SliderModel.CountTextForeign | themes/InterDead/assets/js/domain/slider/SlideEntity.js:37-39 | digit text shares no character with the placeholder, so it cannot recreate it |
| SliderModel.AnnouncementJoined | themes/InterDead/assets/js/domain/slider/SlideEntity.js:41-45 | a non-empty base text and a score are joined with ` — ` |
| SliderModel.FromItems | themes/InterDead/static/js/domain/slider/SliderModel.js:4-15 | entities are kept; plain items become slides with order defaulting to their 1-based position |
| SliderModel.Get | themes/InterDead/static/js/domain/slider/SliderModel.js:29-31 | the slide at an index inside the list, `null` outside |
| SliderModel.SortByMediumsPerm | themes/InterDead/static/js/domain/slider/SliderModel.js:37-43 | sorting keeps every slide, as often as it occurs |
| SliderModel.SortByMediumsSorted | themes/InterDead/static/js/domain/slider/SliderModel.js:37-43 | sorting by score (order for unscored slides) leaves the keys in order |
| SliderModel.SortByMediumsCorrect | themes/InterDead/static/js/domain/slider/SliderModel.js:37-43 | sorting by score (order for unscored slides) gives a sorted permutation |
| SliderModel.SortByMediumsStable | themes/InterDead/static/js/domain/slider/SliderModel.js:37-43 | slides with equal keys keep their relative order |
| SliderModel.NormalizeMediums | themes/InterDead/static/js/domain/slider/SliderModel.js:45-51 | every slide ends up with a score; unscored slides get their 1-based position |
| SliderModel.NormalizeIdempotent | themes/InterDead/static/js/domain/slider/SliderModel.js:45-51 | normalising twice is normalising once |
| SliderModel.NormalizedIgnoresFallback | themes/InterDead/static/js/domain/slider/SliderModel.js:45-51 | after normalising, `getMediumsOr` never uses its fallback |
| SliderService.NewSlider | themes/InterDead/assets/js/application/slider/SliderService.js:4-10 | a new slider starts at index 0 |
| SliderService.JsRem | themes/InterDead/assets/js/application/slider/SliderService.js:47 | JavaScript's `%`: the remainder truncates toward zero and takes the dividend's sign |
| SliderService.UpdateScoreboard | themes/InterDead/assets/js/application/slider/SliderService.js:57-73 | there is a scoreboard exactly for an index inside the list, showing that slide's count and announcement |
| SliderService.Init | themes/InterDead/assets/js/application/slider/SliderService.js:12-38 | nothing without view and slides; otherwise the slides are sorted then normalised, and the first render does not animate |
| SliderService.InitArrangesSlides | themes/InterDead/assets/js/application/slider/SliderService.js:19-20 | after init every slide has a score and the list is a normalised sorted permutation of the input |
| SliderService.InitStartsAtFirst | themes/InterDead/assets/js/application/slider/SliderService.js:34-36 | init renders slide 0 without animation |
| SliderService.Go | themes/InterDead/assets/js/application/slider/SliderService.js:40-55 | the index becomes `(target + length) % length` in JavaScript's arithmetic and is rendered |
| SliderService.Prev | themes/InterDead/assets/js/application/slider/SliderService.js:25 | from the first slide, previous wraps to the last |
| SliderService.Next | themes/InterDead/assets/js/application/slider/SliderService.js:26 | from the last slide, next wraps to the first |
| SliderService.GoIndexInRange | themes/InterDead/assets/js/application/slider/SliderService.js:47 | for targets at least minus the length, the index lands inside the list |
| SliderService.GoFarBelow | themes/InterDead/assets/js/application/slider/SliderService.js:47 | further below, the index is not positive and a negative one has no scoreboard |
| SliderService.AnimatesOnForwardStep | themes/InterDead/assets/js/application/slider/SliderService.js:50-53 | the scoreboard animates exactly on a step forward, including the wrap from the last slide |
| SliderService.PrevDoesNotAnimate | themes/InterDead/assets/js/application/slider/SliderService.js:25 | stepping back never animates |
| SliderService.NextAnimates | themes/InterDead/assets/js/application/slider/SliderService.js:26 | stepping forward always animates |
| SliderService.NextIndex | themes/InterDead/assets/js/application/slider/SliderService.js:26 | next moves one slide forward, wrapping at the end |
| SliderService.PrevIndex | themes/InterDead/assets/js/application/slider/SliderService.js:25 | previous moves one slide back, wrapping at the start |
| SliderService.NextPrevInverse | themes/InterDead/assets/js/application/slider/SliderService.js:25-26 | next and previous undo each other |
| SliderDomMapper.Present | themes/InterDead/assets/js/infrastructure/ui/SliderDomMapper.js:5 | no longer than the input, and holds exactly the elements that are present |
| SliderDomMapper.PresentConcat | themes/InterDead/assets/js/infrastructure/ui/SliderDomMapper.js:5 | the filter works entry by entry: it distributes over concatenation, keeps a present element and drops a missing one, so order and repeats survive |
| SliderDomMapper.SlideId | themes/InterDead/assets/js/infrastructure/ui/SliderDomMapper.js:16 | `data-slide-id`, else the element id, else `slide-<index>`; only a missing value falls through |
| SliderDomMapper.CreateEntity | themes/InterDead/assets/js/infrastructure/ui/SliderDomMapper.js:12-22 | id, order (defaulting to the 1-based position) and truncated positive score from the dataset |
| SliderDomMapper.NewMapper | themes/InterDead/assets/js/infrastructure/ui/SliderDomMapper.js:4-10 | one entity per present element, built from it at its position |
| SliderDomMapper.GetElement | themes/InterDead/assets/js/infrastructure/ui/SliderDomMapper.js:28-30 | an element exactly for an index inside the list |
| SliderDomMapper.UpdateElementMediums | themes/InterDead/assets/js/infrastructure/ui/SliderDomMapper.js:32-42 | only the addressed element changes, and an index outside the list changes nothing |
| SliderDomMapper.UpdateThenRead | themes/InterDead/assets/js/infrastructure/ui/SliderDomMapper.js:37-41 | the element's `data-mediums` holds the score exactly when the entity has one, and other attributes are kept |
| SliderDomMapper.FallbackIdsDistinct | themes/InterDead/assets/js/infrastructure/ui/SliderDomMapper.js:16 | generated ids of different positions differ |
| AuthState.InitialAssets | themes/InterDead/assets/js/application/auth/AuthStateService.js:13 | the assets service starts with `authenticated: null` |
| AuthState.InitialStatic | themes/InterDead/static/js/application/auth/AuthStateService.js:12 | the static service starts with `authenticated: false` |
| AuthState.OrNull | themes/InterDead/assets/js/application/auth/AuthStateService.js:47 | `value \|\| null`: keeps truthy values, anything else becomes `null` |
| AuthState.Normalize | themes/InterDead/assets/js/application/auth/AuthStateService.js:40-52 | the state is signed in exactly when the payload says `authenticated === true`; otherwise it is exactly `{ authenticated: false }` |
| AuthState.NormalizeFields | themes/InterDead/assets/js/application/auth/AuthStateService.js:45-51 | a signed-in state carries each session field as `value \|\| null`, each key once |
| AuthState.NormalizeSignedOutFixed | themes/InterDead/static/js/application/auth/AuthStateService.js:33-45 | normalising a signed-out state again changes nothing |
| AuthState.RedactKey | themes/InterDead/assets/js/application/auth/AuthStateService.js:60-64 | a truthy token field is replaced by the redaction marker; other keys are untouched |
| AuthState.IndexFields | themes/InterDead/assets/js/application/auth/AuthStateService.js:59 | an array is copied entry for entry |
| AuthState.SanitizePayload | themes/InterDead/assets/js/application/auth/AuthStateService.js:54-67 | an object's copy reads the marker under each token key whose value is truthy and the original value under every other key; an array becomes the object of its indices, unchanged; anything else is returned as it is |
| AuthState.IndexFieldsNotRedacted | themes/InterDead/assets/js/application/auth/AuthStateService.js:57-64 | an array spread into an object has only digit keys, so no token key is redacted in it |
| AuthState.SanitizeRedacts | themes/InterDead/assets/js/application/auth/AuthStateService.js:54-67 | every truthy token field is redacted and every other field kept |
| AuthState.Refresh | themes/InterDead/assets/js/application/auth/AuthStateService.js:20-37 | success stores and returns the normalised state and announces it; failure keeps the state, returns it with the error and `authenticated: false` and every other key unchanged, and emits the failure event |
| AuthState.RefreshSignedIn | themes/InterDead/assets/js/application/auth/AuthStateService.js:22-32 | after a refresh the state is signed in exactly when the payload authenticates |
| AuthVisibility.NormalizeText | themes/InterDead/assets/js/application/auth/AuthVisibilityService.js:99-105 | a non-blank string, trimmed; nothing otherwise |
| AuthVisibility.NormalizeTextIdempotent | themes/InterDead/assets/js/application/auth/AuthVisibilityService.js:99-105 | normalising normalised text changes nothing |
| AuthVisibility.NormalizeId | themes/InterDead/assets/js/application/auth/AuthVisibilityService.js:91-97 | strings are normalised like text, numbers become their decimal text, anything else is dropped |
| AuthVisibility.NormalizeIdNumber | themes/InterDead/assets/js/application/auth/AuthVisibilityService.js:91-97 | a numeric id becomes text that reads back as the number |
| AuthVisibility.NormalizeUrl | themes/InterDead/assets/js/application/auth/AuthVisibilityService.js:107-124 | only strings are resolved against the page, and an unparsable one is dropped |
| AuthVisibility.SanitizeSession | themes/InterDead/assets/js/application/auth/AuthVisibilityService.js:77-89 | a session exists exactly for an authenticated state, each field normalised by its own rule |
| AuthVisibility.Normalize | themes/InterDead/assets/js/application/auth/AuthVisibilityService.js:52-75 | authenticated exactly when `authenticated === true`, unauthenticated exactly when it is `false`, pending otherwise; a session only when authenticated |
| AuthVisibility.NewService | themes/InterDead/assets/js/application/auth/AuthVisibilityService.js:8-13 | starts from the normalised initial state, nothing published, not subscribed |
| AuthVisibility.Emit | themes/InterDead/assets/js/application/auth/AuthVisibilityService.js:48-50 | publishes the current visibility when there is an event bus |
| AuthVisibility.Init | themes/InterDead/assets/js/application/auth/AuthVisibilityService.js:15-20 | subscribes when there is a bus, and publishes the current visibility |
| AuthVisibility.ApplySession | themes/InterDead/assets/js/application/auth/AuthVisibilityService.js:42-46 | adopts and publishes the normalised session |
| AuthVisibility.OnSessionUpdated | themes/InterDead/assets/js/application/auth/AuthVisibilityService.js:16-18 | a session update is applied only while subscribed |
| AuthVisibility.QueriesAgree | themes/InterDead/assets/js/application/auth/AuthVisibilityService.js:34-75 | after a session is applied, `isAuthenticated` holds exactly for `authenticated: true`, `isUnauthenticated` exactly for `authenticated: false`, never both, and neither only while pending |
| AuthVisibility.IsAuthenticated | themes/InterDead/assets/js/application/auth/AuthVisibilityService.js:34-36 | the status is `authenticated`; in a snapshot `normalize` builds, that is the signed-in flag with a session |
| AuthVisibility.IsUnauthenticated | themes/InterDead/assets/js/application/auth/AuthVisibilityService.js:38-40 | the status is `unauthenticated`, never together with `isAuthenticated`, and then there is no session |
| AuthVisibility.NormalizedStateClassified | themes/InterDead/static/js/application/auth/AuthStateService.js:33-45 | a state the auth state service produced is never pending |
| AuthVisibility.InitialStates | themes/InterDead/assets/js/application/auth/AuthStateService.js:13 | the assets initial state reads as pending, the static one as unauthenticated |
| AuthVisibility.SignedOutSequence | tests/auth-visibility.service.test.js:40-56 | a signed-out page publishes unauthenticated, pending, unauthenticated and never a session |
| AuthVisibility.SignInSequence | tests/auth-visibility.service.test.js:14-38 | signing in publishes pending then authenticated, with the numeric id as text |
| EventBus.NewBus | themes/InterDead/assets/js/application/events/EventBus.js:2-4 | a new bus has no listeners |
| EventBus.On | themes/InterDead/assets/js/application/events/EventBus.js:6-14 | an empty name or non-function registers nothing; otherwise the listener is appended, even twice |
| Seqs.WithoutConcat | themes/InterDead/assets/js/application/events/EventBus.js:21-24 | filtering distributes over concatenation |
| EventBus.Off | themes/InterDead/assets/js/application/events/EventBus.js:16-25 | removes every registration of the listener for that event only |
| EventBus.Call | themes/InterDead/assets/js/application/events/EventBus.js:13 | calling an unsubscribe function is `off` for its registration |
| EventBus.Emit | themes/InterDead/assets/js/application/events/EventBus.js:27-30 | every current listener receives the payload, in registration order |
| EventBus.EmitUnheard | themes/InterDead/assets/js/application/events/EventBus.js:27-30 | an event nobody listens to reaches nobody |
| EventBus.OnThenEmit | themes/InterDead/assets/js/application/events/EventBus.js:6-14 | a new listener hears its own event last and no other event |
| EventBus.RegisteredTwiceCalledTwice | themes/InterDead/assets/js/application/events/EventBus.js:10-12 | registering twice delivers twice |
| EventBus.UnsubscribeRestores | themes/InterDead/assets/js/application/events/EventBus.js:13 | subscribing then unsubscribing a new listener restores every delivery |
| EventBus.OffUndoesOn | themes/InterDead/assets/js/application/events/EventBus.js:10-25 | removing a listener just appended to an event that lacked it gives back that event's old list |
| EventBus.UnsubscribeRemovesAll | themes/InterDead/assets/js/application/events/EventBus.js:16-25 | unsubscribing removes every registration of that listener |
| EventBus.RegistrationOrder | themes/InterDead/assets/js/application/events/EventBus.js:27-30 | listeners are called in the order they registered |
| DiscordAuth.CanLogin | themes/InterDead/static/js/application/auth/DiscordAuthService.js:16-18 | login is blocked only by an explicit `false` flag |
| DiscordAuth.BeginLogin | themes/InterDead/static/js/application/auth/DiscordAuthService.js:20-39 | disabled exactly when blocked, with the `disabled` failure event; otherwise ready exactly with a navigation that has a URL and an error in every other case, carrying the thrown value; a request event, then the completion with the navigation, the `missingNavigation` failure, or the `exception` failure with the error |
| DiscordAuth.DisabledIgnoresAdapter | themes/InterDead/static/js/application/auth/DiscordAuthService.js:21-24 | a blocked login never consults the adapter and reports `disabled` |
| DiscordAuth.ReadyCarriesNavigation | themes/InterDead/static/js/application/auth/DiscordAuthService.js:28-32 | a navigation with a URL is returned and announced as completed |
| DiscordAuth.MissingNavigationFails | themes/InterDead/static/js/application/auth/DiscordAuthService.js:33-34 | a navigation without a URL fails with `missingNavigation` |
| FeatureFlags.FlagFrom | themes/InterDead/assets/js/application/config/FeatureFlagService.js:3-4 | `?? true` then `Boolean(...)`: a missing flag is on |
| FeatureFlags.NewFlags | themes/InterDead/assets/js/application/config/FeatureFlagService.js:2-5 | construction fails exactly for a `null` argument; otherwise each flag is read from its own setting |
| FeatureFlags.IsIdentityEnabled | themes/InterDead/assets/js/application/config/FeatureFlagService.js:23-25 | always a boolean, `false` exactly when identity is off |
| FeatureFlags.IsEfbdScaleEnabled | themes/InterDead/assets/js/application/config/FeatureFlagService.js:27-29 | always a boolean, `false` exactly when the scale is off |
| FeatureFlags.QueriesFollowSettings | themes/InterDead/assets/js/application/config/FeatureFlagService.js:2-29 | a query answers `false` exactly when its setting was given and is falsy |
| FeatureFlags.FalseSettingSwitchesOff | themes/InterDead/assets/js/application/config/FeatureFlagService.js:3-4 | a setting given as `false` switches only its own feature off |
| FeatureFlags.EnableIdentity | themes/InterDead/assets/js/application/config/FeatureFlagService.js:7-9 | turns identity on and leaves the scale flag alone |
| FeatureFlags.DisableIdentity | themes/InterDead/assets/js/application/config/FeatureFlagService.js:11-13 | turns identity off and leaves the scale flag alone |
| FeatureFlags.EnableEfbdScale | themes/InterDead/assets/js/application/config/FeatureFlagService.js:15-17 | turns the scale on and leaves identity alone |
| FeatureFlags.DisableEfbdScale | themes/InterDead/assets/js/application/config/FeatureFlagService.js:19-21 | turns the scale off and leaves identity alone |
| FeatureFlags.DefaultsOn | themes/InterDead/assets/js/application/config/FeatureFlagService.js:2-5 | without settings both features are on |
| FeatureFlags.ToggleRestores | themes/InterDead/assets/js/application/config/FeatureFlagService.js:7-21 | switching a flag away and back restores the flags |
| FeatureFlags.SwitchesCommute | themes/InterDead/assets/js/application/config/FeatureFlagService.js:7-21 | the two switches are independent and commute |
| CtaLink.NewLink | themes/InterDead/assets/js/application/cta/CtaLinkService.js:2-5 | a string URL is trimmed, anything else is empty; a non-blank target is trimmed, otherwise the default; the target is never empty |
| CtaLink.Attributes | themes/InterDead/assets/js/application/cta/CtaLinkService.js:7-13 | `rel` and `target` always, `href` only for a non-empty URL |
| CtaLink.Navigation | themes/InterDead/assets/js/application/cta/CtaLinkService.js:15-17 | the navigation carries the same URL and target as the attributes; its URL is non-empty exactly when there is an `href` |
| CtaLink.NewLinkIdempotent | themes/InterDead/assets/js/application/cta/CtaLinkService.js:2-5 | rebuilding a link from its own values gives the same link |
| CtaLink.HrefIffUrl | themes/InterDead/assets/js/application/cta/CtaLinkService.js:7-13 | a link has an `href` exactly when it was given a non-blank string URL |
| EfbdBridge.Announce | themes/InterDead/static/js/application/efbd/EfbdScaleBridgeService.js:23-25 | exactly an `ok` answer is announced, with its payload |
| EfbdBridge.EmitTrigger | themes/InterDead/static/js/application/efbd/EfbdScaleBridgeService.js:15-27 | `disabled` only for an explicit `false` flag, `ignored` without a string axis; the trigger is sent exactly when it is valid and an adapter is present, and then the adapter's answer is returned and announced when ok and a bus is present; without an adapter the result is `undefined`; without a bus nothing is announced |
| EfbdBridge.FetchSummary | themes/InterDead/static/js/application/efbd/EfbdScaleBridgeService.js:29-39 | `disabled` when switched off; otherwise the adapter's answer, announced when ok and a bus is present; without a bus nothing is announced |
| EfbdBridge.Announced | themes/InterDead/static/js/application/efbd/EfbdScaleBridgeService.js:23-25 | an event exactly when there is a bus and the answer is ok, carrying the answer's payload |
| EfbdBridge.TriggerForwarded | themes/InterDead/static/js/application/efbd/EfbdScaleBridgeService.js:22-26 | a valid trigger reaches the adapter unchanged and an ok payload is announced as is when there is a bus, and not at all otherwise |
| EfbdBridge.ErrorNotAnnounced | themes/InterDead/static/js/application/efbd/EfbdScaleBridgeService.js:23-26 | an error answer emits nothing |
| EfbdBridge.SummaryAnnouncedOnce | themes/InterDead/static/js/application/efbd/EfbdScaleBridgeService.js:29-39 | the summary is returned unchanged; an ok one is announced exactly once with its payload when there is a bus, any other status nowhere |
| TriggerPort.RecordAnswer | themes/InterDead/assets/js/infrastructure/minigame/EfbdScaleTriggerPort.js:9-19 | `null` arguments throw; a blank or non-string axis is `invalid`; a valid axis is `unsupported` exactly without an emitter, and otherwise reaches the emitter, whose answer is returned, or `error` for a nullish one |
| TriggerPort.ValidAnswerForwarded | themes/InterDead/assets/js/infrastructure/minigame/EfbdScaleTriggerPort.js:18 | a valid answer reaches the emitter once, axis untrimmed |
| Countdown.Remaining | themes/InterDead/assets/js/application/timer/CountdownTimer.js:26 | the time to midnight while it is ahead, and 0 once it has passed |
| Countdown.Split | themes/InterDead/assets/js/application/timer/CountdownTimer.js:27-29 | whole hours, minutes under 60 and seconds under 60, within one second of the duration |
| Countdown.Format | themes/InterDead/assets/js/application/timer/CountdownTimer.js:30-32 | at least `HH:MM:SS` long |
| Countdown.Tick | themes/InterDead/assets/js/application/timer/CountdownTimer.js:22-34 | the text handed to `onTick` reads back as hours, minutes under 60 and seconds under 60 that add up to the time left, truncated to the second |
| Countdown.ClockShown | themes/InterDead/assets/js/application/timer/CountdownTimer.js:28-33 | a clock within the second below a duration is shown as text that reads back, field by field, as that clock |
| Countdown.FormatReadsBack | themes/InterDead/assets/js/application/timer/CountdownTimer.js:30-32 | the text reads back as the hours, minutes and seconds it shows |
| Countdown.TickShowsRemaining | themes/InterDead/assets/js/application/timer/CountdownTimer.js:22-34 | a tick shows the time left truncated to the second, and `00:00:00` once midnight has passed |
| Countdown.Stop | themes/InterDead/assets/js/application/timer/CountdownTimer.js:15-20 | clears the held interval, if any |
| Countdown.Start | themes/InterDead/assets/js/application/timer/CountdownTimer.js:9-13 | ticks at once, then replaces any running interval by a new one |
| Countdown.StopIdempotent | themes/InterDead/assets/js/application/timer/CountdownTimer.js:15-20 | stopping twice is stopping once |
| Countdown.StartKeepsOneInterval | themes/InterDead/assets/js/application/timer/CountdownTimer.js:9-20 | restarting never leaves two intervals running, and stopping leaves none |
| AgeMode.NewMode | themes/InterDead/assets/js/domain/age/AgeMode.js:7-9 | a mode has a value exactly when built from `adult` or `demo` |
| AgeMode.IsValid | themes/InterDead/assets/js/domain/age/AgeMode.js:11-13 | valid exactly for the strings `adult` and `demo` |
| AgeMode.IsAdult | themes/InterDead/assets/js/domain/age/AgeMode.js:23-25 | holds exactly for a mode holding `adult`, which has a value |
| AgeMode.IsDemo | themes/InterDead/assets/js/domain/age/AgeMode.js:27-29 | holds exactly for a mode holding `demo`, which has a value and is not adult |
| AgeMode.HasValue | themes/InterDead/assets/js/domain/age/AgeMode.js:15-17 | a value is held; for a mode holding nothing or a valid name, exactly when it is adult or demo |
| AgeMode.ModeCases | themes/InterDead/assets/js/domain/age/AgeMode.js:11-29 | a mode is adult, demo or empty, never two at once |
| AgeModeService.NewService | themes/InterDead/static/js/application/age/AgeModeService.js:4-8 | starts without a mode |
| AgeModeService.Load | themes/InterDead/static/js/application/age/AgeModeService.js:10-16 | adopts a valid stored mode and otherwise keeps the current one |
| AgeModeService.SetMode | themes/InterDead/static/js/application/age/AgeModeService.js:18-28 | an invalid mode is refused; the current mode is returned without a write; a new mode is stored once |
| AgeModeService.SetThenLoad | themes/InterDead/static/js/application/age/AgeModeService.js:10-28 | a newly chosen mode is what the next load finds |
| AgeModeService.SetModeIdempotent | themes/InterDead/static/js/application/age/AgeModeService.js:18-28 | setting the same mode again changes nothing |
| AgeModeService.LoadIdempotent | themes/InterDead/static/js/application/age/AgeModeService.js:10-16 | loading twice is loading once |
| Poll.Entry | themes/InterDead/assets/mini-games/efbd-poll/poll.js:6-10 | an option keeps its axis, shows `label \|\| axis`, and carries the entry's `i18nKey` as it is |
| Poll.Options | themes/InterDead/assets/mini-games/efbd-poll/poll.js:3-11 | only entries with an axis-code string axis are kept, in order |
| Poll.OptionsConcat | themes/InterDead/assets/mini-games/efbd-poll/poll.js:3-11 | entries are kept or dropped one by one |
| Poll.OptionsFromValid | themes/InterDead/assets/mini-games/efbd-poll/poll.js:3-11 | every option comes from a valid entry of the input |
| Poll.NormalizeOptions | themes/InterDead/assets/mini-games/efbd-poll/poll.js:3-4 | anything that is not an array gives no options |
| Poll.ResolveOptions | themes/InterDead/assets/mini-games/efbd-poll/poll.js:37-48 | a string is replaced by what it parses to, and unparsable text becomes `[]`; anything else is used as is |
| Poll.StringifiedOptions | themes/InterDead/assets/mini-games/efbd-poll/poll.js:37-48 | a stringified option list is read like the list itself |
| Poll.SetStatus | themes/InterDead/assets/mini-games/efbd-poll/poll.js:151-160 | a falsy message hides and empties the line; otherwise it is shown with its variant |
| Poll.Init | themes/InterDead/assets/mini-games/efbd-poll/poll.js:50-75 | the poll starts exactly with a root, a mount, a `recordAnswer`, a form and at least one valid option |
| Poll.Submit | themes/InterDead/assets/mini-games/efbd-poll/poll.js:162-197 | no choice or a bad axis only sets the status; a valid choice records exactly one answer and shows success or error from the reply |
| Poll.NoSelectionRecordsNothing | themes/InterDead/assets/mini-games/efbd-poll/poll.js:164-168 | submitting without a choice records nothing |
| Poll.RejectionLeavesSubmitDisabled | themes/InterDead/assets/mini-games/efbd-poll/poll.js:176-196 | a rejected `recordAnswer` leaves the button disabled and the status hidden |
| MiniGame.StripLeadingQuotes | themes/InterDead/assets/js/application/minigame/MiniGameLauncher.js:24 | drops only leading quote characters, all of them |
| MiniGame.StripTrailingQuotes | themes/InterDead/assets/js/application/minigame/MiniGameLauncher.js:25 | drops only trailing quote characters, all of them |
| MiniGame.NormalizeRootId | themes/InterDead/assets/js/application/minigame/MiniGameLauncher.js:17-26 | non-strings give the empty id; a string gives the slice of its trimmed text left after runs of quotes are cut at both ends, which neither starts nor ends with a quote |
| MiniGame.QuotedIdUnwrapped | themes/InterDead/assets/js/application/minigame/MiniGameLauncher.js:17-26 | an id wrapped in any number of quotes normalises back to the id |
| MiniGame.NewLauncher | themes/InterDead/assets/js/application/minigame/MiniGameLauncher.js:2-15 | no roots, no loads, no subscriptions |
| MiniGame.RenderFallback | themes/InterDead/assets/js/application/minigame/MiniGameLauncher.js:107-120 | a known root shows its fallback; nothing else changes |
| MiniGame.ApplyVisibility | themes/InterDead/assets/js/application/minigame/MiniGameLauncher.js:97-105 | `authenticated` renders the game, any other status (missing reads as `pending`) the fallback; only `authenticated` loads anything, at most this root once; registrations are kept |
| MiniGame.RenderGame | themes/InterDead/assets/js/application/minigame/MiniGameLauncher.js:122-234 | a started or mountless root is left alone; otherwise one load, and the game starts and is shown exactly when the initializer returns anything but `false` |
| MiniGame.BindAuth | themes/InterDead/assets/js/application/minigame/MiniGameLauncher.js:56-72 | without an auth port the fallback shows; with one, the display, the loads and the root's `initialized` flag are those the current status gives, and a port that can subscribe gives the root a fresh subscription |
| MiniGame.Register | themes/InterDead/assets/js/application/minigame/MiniGameLauncher.js:28-54 | a missing root changes nothing; otherwise the root keeps its config with the launcher's scale port as default |
| MiniGame.OnChange | themes/InterDead/assets/js/application/minigame/MiniGameLauncher.js:64-66 | a root without a subscription ignores auth changes |
| MiniGame.SetScalePort | themes/InterDead/assets/js/application/minigame/MiniGameLauncher.js:78-95 | replaces the port only in roots using none or the previous default |
| MiniGame.OnlyAuthenticatedLoads | themes/InterDead/assets/js/application/minigame/MiniGameLauncher.js:97-105 | a status other than authenticated loads nothing and shows the fallback |
| MiniGame.StartsOnce | themes/InterDead/assets/js/application/minigame/MiniGameLauncher.js:122-126 | after a completed start, a later render loads nothing and changes nothing |
| MiniGame.FailureAllowsRetry | themes/InterDead/assets/js/application/minigame/MiniGameLauncher.js:158-225 | a failed load leaves the root unstarted with the fallback shown, so a later render retries |
| MiniGame.ReRegisterResets | themes/InterDead/assets/js/application/minigame/MiniGameLauncher.js:42-52 | registering a root again drops its old subscription and resets it to unstarted |
| MiniGame.SetScalePortIdempotent | themes/InterDead/assets/js/application/minigame/MiniGameLauncher.js:78-95 | setting the same port twice is setting it once |
| MiniGame.UnauthenticatedRegistration | tests/mini-games-runtime.test.js:62-90 | registered while unauthenticated: fallback shown, nothing loaded |
| MiniGame.AuthenticatedLater | tests/mini-games-runtime.test.js:92-128 | registered while pending, then authenticated: the game loads once and is shown |

## Left out

- Network, logging and `console` output are not modelled. The Discord adapter's HTTP calls and the worker's D1 binding become parameters or recorded writes.
- The platform is a parameter throughout:
  - HMAC-SHA-256 (a function with a 32-byte tag);
  - `JSON.stringify`/`JSON.parse`, through a codec whose parse inverts stringify on well-formed values: safe integers, and objects whose unique keys stand in the order a JavaScript object enumerates them (array indices first, ascending), which is the order `JSON.parse` rebuilds;
  - `Number(...)`, `new URL(...)` and the URL parsing `Response.redirect` does, the scale library's `isAxisCode`;
  - the clock, local midnight and `setInterval` ids.
  Floating point is replaced by unbounded integers and reals.
- `JsText.LowerCase` maps only ASCII letters and the Kelvin sign. The text is code points, not UTF-16 units: `toLowerCase` outside that range and surrogate pairs are out of scope.
- Session: the worker test `tests/interdead-auth-worker.test.js:24-46` expects extra profile fields and a refresh cookie that `session.js` does not produce. The model follows `session.js`.
- Session: three behaviours of the code are proved as they are, not as intended:
  - an empty string encodes to a token that `decode` rejects (`Session.EncodeDecodeEmptyString`);
  - a string that is JSON text comes back parsed (`Session.EncodeDecodeJsonText`);
  - a leading U+FEFF is lost (`Utf8.DecodeEncodeLeadingMark`).
- Worker.HandleCallback: every database write is taken to succeed. A rejected D1 `.run()` (`worker.js:47-49`) makes the handler throw, and the model does not say so.
- Worker.HandleTrigger: the same holds for the score row's `.run()` (`worker.js:74-76`).
- Worker: the request arrives already split into method, path, query and body; `new URL(request.url)` is not modelled.
- MiniGame.StartsOnce: renders are taken to run one after another. The source checks `initialized` when a render begins (`MiniGameLauncher.js:124`) but sets it only after the loads are awaited (`MiniGameLauncher.js:230`). Two renders of one root in flight at once can therefore both start the game, and the model does not cover that.
- EfbdBridge.EmitTrigger: an adapter whose `sendTrigger` rejects is not modelled; its answer is a value.
- EfbdBridge.FetchSummary: an adapter whose `fetchSummary` rejects is not modelled; its answer is a value.
- Storage is the storage port as a map. `LocalStorageAdapter`'s empty-key guard and its swallowing of storage exceptions are not modelled.
- Modals:
  - `autoShow` is not modelled, because it iterates instances in DOM insertion order;
  - re-registering an id that is currently active replaces its instance;
  - listener installation for keydown and overlay clicks is a flag, and scroll calls are recorded as data.
- Modal test files: `tests/modalServiceResume.test.js` imports the `static` modal service, but its expectations (resume stack) are those of the `assets` service, which is what the lemmas model. The `static` bundle's `ModalInstance.js` is not part of this model; the static service uses the `assets` instance model.
- `tests/auth-visibility.service.test.js` imports the `static` path of the auth visibility service; the lemmas model the `assets` service it describes.
- Slider:
  - `SliderModel.toArray` is the sequence itself;
  - slide identity is position in the sequence;
  - `SliderService.dispose` and the view's DOM work are left out;
  - non-integer indices to `get`, and scores of 1e21 or more (whose `String` form is exponential), are out of scope.
- SliderService.GoFarBelow: for targets below minus the length it states only that the index is not positive and that a negative index renders no scoreboard, not the exact negative value.
- AuthVisibility: `dispose` and the `onChange` listener registry are left out. `normalizeUrl` resolves against a base that is a parameter.
- MiniGame:
  - `refreshAuthBindings` is left out;
  - asset and style loading are a single load outcome, so the asynchronous interleaving of `renderGame` is not modelled;
  - the logging context of `renderGame` is left out.
- MiniGame.OnChange: states only that roots without a subscription ignore changes. The authenticated path is stated by `MiniGame.AuthenticatedLater`.
- Poll:
  - the DOM building, i18n string keys and the `locale` plumbing are reduced to the status line, the submit button and the answer;
  - the timestamp is a parameter;
  - the rejection path is as written: the button stays disabled (`Poll.RejectionLeavesSubmitDisabled`).
- ModalService.Open, ModalService.Close, ModalService.ResumePrevious, ModalService.MakeRoom, ModalService.OpenResumed and ModalService.HandleKeydown: their own contracts state only invariant preservation. Their behaviour is stated by the scenario lemmas listed above.
- ModalService.CloseInstance: its own contract states only invariant preservation, so that the functions that call it stay cheap to verify. Its outcome is stated by `ModalService.CloseInstanceOutcome`.
- Modal.Id: its contract states only that an instance without an entity has no id.
- AuthState.Refresh: listeners are taken not to throw. A listener that throws inside `emit(UPDATED)` (`EventBus.js:29`) lands in the `catch` after the state was replaced. `refresh` then returns `{ ...normalized, error, authenticated: false }` and emits the failure event as well (`AuthStateService.js:30-36`). The model does not cover that.
- DiscordAuth.BeginLogin: listeners are taken not to throw. A throwing `COMPLETED` or `missingNavigation` listener gives `{ status: 'error', error }` plus the `exception` failure event (`DiscordAuthService.js:27-38`). The model does not cover that.
- TriggerPort.RecordAnswer: the emitter's answer is a value. An emitter that returns a promise passes `?? { status: 'error' }` untouched, so a promise that resolves to `undefined` makes `recordAnswer` resolve to `undefined` (`EfbdScaleTriggerPort.js:18`). The model does not cover that.

=== FILE: age_mode.dfy ===
/**
 * `AgeMode`: the visitor's chosen content mode, `adult` or `demo`, or none yet.
 * A mode value is the text it was built from, kept only when it is one of the two.
 */
module AgeMode {
  import opened Wrappers

  const Adult: string := "adult"
  const Demo: string := "demo"

  /** `AgeMode.isValid(mode)`: strict equality with one of the two names; `None` is any value that is not a string. */
  function IsValid(mode: Option<string>): (b: bool)
    ensures b <==> mode.Some? && mode.value in {Adult, Demo}
  {
    mode == Some(Adult) || mode == Some(Demo)
  }

  datatype Mode = Mode(value: Option<string>)

  /** `new AgeMode(mode)`: an invalid input leaves no value. */
  function NewMode(mode: Option<string>): (m: Mode)
    ensures m.value.Some? <==> IsValid(mode)
    ensures IsValid(mode) ==> m.value == mode
  {
    Mode(if IsValid(mode) then mode else None)
  }

  /** `isAdult()`: only a mode holding `adult`, which therefore has a value. */
  function IsAdult(m: Mode): (r: bool)
    ensures r ==> m.value.Some?
    ensures r <==> m.value == Some(Adult)
  {
    m.value == Some(Adult)
  }

  /** `isDemo()`: only a mode holding `demo`, never one that is adult. */
  function IsDemo(m: Mode): (r: bool)
    ensures r ==> m.value.Some? && !IsAdult(m)
    ensures r <==> m.value == Some(Demo)
  {
    m.value == Some(Demo)
  }

  /** `hasValue()`: `_value !== null`; for a mode holding nothing or a valid name, exactly adult or demo. */
  function HasValue(m: Mode): (r: bool)
    ensures r <==> m.value.Some?
    ensures m.value.None? || IsValid(m.value) ==> (r <==> IsAdult(m) || IsDemo(m))
  {
    m.value.Some?
  }

  /** A mode built by the constructor is adult, demo, or has no value, and exactly one of these. */
  lemma ModeCases(mode: Option<string>)
    ensures var m := NewMode(mode);
      && (HasValue(m) <==> IsAdult(m) || IsDemo(m))
      && !(IsAdult(m) && IsDemo(m))
      && (IsAdult(m) <==> mode == Some(Adult))
      && (IsDemo(m) <==> mode == Some(Demo))
  {
    assert Adult[0] != Demo[0];
  }
}

/**
 * `AgeModeService` (static bundle): the current mode, loaded from and saved to storage
 * under one key.
 */
module AgeModeService {
  import opened Wrappers
  import opened AgeMode
  import Storage

  const DefaultKey: string := "gm_age_" + "mode"

  datatype Service = Service(storage: Option<Storage.Store>, key: string, mode: Mode)

  /** `new AgeModeService(storage, storageKey)`: no mode yet. */
  function NewService(storage: Option<Storage.Store>, key: string): (st: Service)
    ensures !HasValue(st.mode) && st.storage == storage && st.key == key
  {
    Service(storage, key, NewMode(None))
  }

  /** `load()`: adopts the stored mode when it is valid, and otherwise keeps the current one. */
  function Load(st: Service): (r: (Service, Mode))
    ensures var stored := Storage.Read(st.storage, st.key);
      && (IsValid(stored) ==> r.0.mode.value == stored)
      && (!IsValid(stored) ==> r.0 == st)
    ensures r.0.storage == st.storage && r.0.key == st.key && r.1 == r.0.mode
  {
    var stored := Storage.Read(st.storage, st.key);
    var st1 := if IsValid(stored) then st.(mode := NewMode(stored)) else st;
    (st1, st1.mode)
  }

  /**
   * `setMode(mode)`: `null` for an invalid mode; the current mode, without a write, when
   * it is already set; otherwise the new mode, written to storage once.
   */
  function SetMode(st: Service, mode: Option<string>): (r: (Service, Option<Mode>))
    ensures !IsValid(mode) ==> r == (st, None)
    ensures IsValid(mode) && st.mode.value == mode ==> r == (st, Some(st.mode))
    ensures IsValid(mode) && st.mode.value != mode ==>
      && r.0 == st.(mode := r.0.mode, storage := r.0.storage)
      && r.0.mode.value == mode && r.1 == Some(r.0.mode)
      && r.0.storage == Storage.Write(st.storage, st.key, mode.value)
  {
    if !IsValid(mode) then (st, None)
    else if st.mode.value == mode then (st, Some(st.mode))
    else
      var st1 := st.(mode := NewMode(mode), storage := Storage.Write(st.storage, st.key, mode.value));
      (st1, Some(st1.mode))
  }

  /**
   * A newly chosen mode is what the next `load` from the same storage finds again. (Choosing
   * the current mode writes nothing, so storage changed behind the service stays as it is.)
   */
  lemma SetThenLoad(st: Service, mode: string)
    requires IsValid(Some(mode)) && st.storage.Some? && st.mode.value != Some(mode)
    ensures var s1 := SetMode(st, Some(mode)).0; Load(s1).1.value == Some(mode)
  {
  }

  /** Setting the same mode twice writes storage at most once: the second call changes nothing. */
  lemma SetModeIdempotent(st: Service, mode: Option<string>)
    requires IsValid(mode)
    ensures var s1 := SetMode(st, mode).0; SetMode(s1, mode) == (s1, Some(s1.mode))
  {
  }

  /** Loading twice is loading once. */
  lemma LoadIdempotent(st: Service)
    ensures Load(Load(st).0).0 == Load(st).0
  {
  }
}

=== FILE: auth_state.dfy ===
/**
 * `AuthStateService`, in both bundles: the last known session state as a plain object,
 * refreshed from a session adapter and announced on the event bus.
 *
 * The adapter's `fetchSession()` is a parameter (its payload, or the error it threw);
 * logging is left out. The two bundles differ only in the initial state and in the
 * logging of a redacted copy of the payload, modelled by `SanitizePayload`.
 */
module AuthState {
  import opened Wrappers
  import opened Json
  import Decimal

  const UpdatedEvent: string := "AUTH_SESSION_" + "UPDATED"
  const FailedEvent: string := "AUTH_SESSION_" + "FAILED"

  datatype Event = Event(name: string, payload: Json)

  /** What `await sessionAdapter?.fetchSession?.()` produced: a payload (`None` for `undefined`) or a thrown error. */
  datatype Fetch = Fetched(payload: Option<Json>) | Threw(error: Json)

  datatype Service = Service(state: Json, hasEventBus: bool)

  /** The initial state of the asset bundle's service: nothing known yet. */
  function InitialAssets(): (st: Json)
    ensures Prop(Some(st), "authenticated") == Some(JNull)
  {
    Obj([("authenticated", JNull), ("profileId", JNull), ("displayName", JNull)])
  }

  /** The initial state of the static bundle's service: signed out. */
  function InitialStatic(): (st: Json)
    ensures Prop(Some(st), "authenticated") == Some(JBool(false))
  {
    Obj([("authenticated", JBool(false)), ("profileId", JNull), ("displayName", JNull)])
  }

  /** `value || null`. */
  function OrNull(v: Option<Json>): (r: Json)
    ensures Truthy(r) <==> TruthyOpt(v)
    ensures TruthyOpt(v) ==> r == v.value
  {
    if TruthyOpt(v) then v.value else JNull
  }

  const SessionFields: seq<string> := ["profileId", "displayName", "avatarUrl", "username"]

  predicate Authenticates(payload: Option<Json>) {
    TruthyOpt(payload) && Prop(payload, "authenticated") == Some(JBool(true))
  }

  /** The object `normalize` builds for a signed-in payload. */
  function SignedIn(payload: Option<Json>): Json {
    Obj([
      ("authenticated", JBool(true)),
      (SessionFields[0], OrNull(Prop(payload, SessionFields[0]))),
      (SessionFields[1], OrNull(Prop(payload, SessionFields[1]))),
      (SessionFields[2], OrNull(Prop(payload, SessionFields[2]))),
      (SessionFields[3], OrNull(Prop(payload, SessionFields[3])))])
  }

  lemma FieldNamesDistinct()
    ensures forall i, j :: 0 <= i < j < 4 ==> SessionFields[i] != SessionFields[j]
    ensures forall i :: 0 <= i < 4 ==> SessionFields[i] != "authenticated"
  {
    assert |SessionFields[0]| == 9 && |SessionFields[1]| == 11 && |SessionFields[2]| == 9 && |SessionFields[3]| == 8;
    assert SessionFields[0][0] != SessionFields[2][0];
    assert |"authenticated"| == 13;
  }

  /**
   * `normalize(payload)`: `{ authenticated: false }` unless the payload says
   * `authenticated: true`; then the four session fields, falsy ones as `null`.
   */
  function Normalize(payload: Option<Json>): (r: Json)
    ensures r.JObj?
    ensures Prop(Some(r), "authenticated") == Some(JBool(Authenticates(payload)))
    ensures !Authenticates(payload) ==> r == Obj([("authenticated", JBool(false))])
  {
    if !Authenticates(payload) then Obj([("authenticated", JBool(false))]) else SignedIn(payload)
  }

  /** A signed-in state carries each session field once, as the payload's value or `null` when that is falsy. */
  lemma NormalizeFields(payload: Option<Json>, i: int)
    requires Authenticates(payload) && 0 <= i < 4
    ensures DistinctKeys(Normalize(payload).fields)
    ensures Prop(Some(Normalize(payload)), SessionFields[i]) == Some(OrNull(Prop(payload, SessionFields[i])))
  {
    FieldNamesDistinct();
    var fields := Normalize(payload).fields;
    assert forall j :: 1 <= j < 5 ==> fields[j].0 == SessionFields[j - 1];
    LookupDistinct(fields, i + 1);
  }

  /** Normalizing what `normalize` produced changes nothing more for a signed-out state. */
  lemma NormalizeSignedOutFixed(payload: Option<Json>)
    requires !Authenticates(payload)
    ensures Normalize(Some(Normalize(payload))) == Normalize(payload)
  {
  }

  const TokenKeys: seq<string> := ["token", "accessToken", "refreshToken", "sessionToken"]
  const Redacted: string := "[" + "redacted" + "]"

  /** Replaces a truthy value under `key` by the redaction marker. */
  function RedactKey(fields: seq<(string, Json)>, key: string): (r: seq<(string, Json)>)
    ensures TruthyOpt(Lookup(fields, key)) ==> Lookup(r, key) == Some(JStr(Redacted))
    ensures !TruthyOpt(Lookup(fields, key)) ==> r == fields
    ensures forall k :: k != key ==> Lookup(r, k) == Lookup(fields, k)
  {
    if TruthyOpt(Lookup(fields, key)) then SetField(fields, key, JStr(Redacted)) else fields
  }

  /** The own enumerable properties an array spreads into an object: its indices. */
  function IndexFields(items: seq<Json>): (r: seq<(string, Json)>)
    ensures |r| == |items|
    ensures forall i :: 0 <= i < |r| ==> Decimal.AllDigits(r[i].0) && r[i].1 == items[i]
  {
    seq(|items|, i requires 0 <= i < |items| => (Decimal.NatToString(i), items[i]))
  }

  /** What a sanitized copy holds under `k`: the marker for a truthy token field, the value itself otherwise. */
  function Redacting(k: string, v: Option<Json>): Option<Json> {
    if k in TokenKeys && TruthyOpt(v) then Some(JStr(Redacted)) else v
  }

  /**
   * `sanitizePayload(payload)` (asset bundle): a copy of an object payload whose truthy
   * token fields read `[redacted]`; anything that is not an object comes back as it is.
   */
  function SanitizePayload(payload: Option<Json>): (r: Option<Json>)
    ensures !(payload.Some? && (payload.value.JObj? || payload.value.JArr?)) ==> r == payload
    ensures payload.Some? && payload.value.JObj? ==>
      r.Some? && r.value.JObj? && forall k :: Prop(r, k) == Redacting(k, Prop(payload, k))
    ensures payload.Some? && payload.value.JArr? ==> r == Some(JObj(IndexFields(payload.value.items)))
  {
    if payload.None? then payload
    else match payload.value
      case JObj(fields) =>
        assert forall k :: Lookup(RedactAll(fields), k) == Redacting(k, Lookup(fields, k)) by {
          forall k ensures Lookup(RedactAll(fields), k) == Redacting(k, Lookup(fields, k)) {
            SanitizeRedacts(fields, k);
          }
        }
        Some(JObj(RedactAll(fields)))
      case JArr(items) =>
        IndexFieldsNotRedacted(items);
        Some(JObj(RedactAll(IndexFields(items))))
      case _ => payload
  }

  /** An array's index names are digit strings, never token keys, so redaction leaves a spread array as it is. */
  lemma IndexFieldsNotRedacted(items: seq<Json>)
    ensures RedactAll(IndexFields(items)) == IndexFields(items)
  {
    assert TokenKeys[0][0] == 't' && TokenKeys[1][0] == 'a' && TokenKeys[2][0] == 'r' && TokenKeys[3][0] == 's';
    NoIndexNamed(items, TokenKeys[0]);
    NoIndexNamed(items, TokenKeys[1]);
    NoIndexNamed(items, TokenKeys[2]);
    NoIndexNamed(items, TokenKeys[3]);
  }

  lemma NoIndexNamed(items: seq<Json>, k: string)
    requires |k| > 0 && !Decimal.IsDigit(k[0])
    ensures Lookup(IndexFields(items), k) == None
  {
    var fields := IndexFields(items);
    forall i | 0 <= i < |fields|
      ensures fields[i].0 != k
    {
      if |fields[i].0| > 0 {
        assert Decimal.IsDigit(fields[i].0[0]);
      }
    }
  }

  function RedactAll(fields: seq<(string, Json)>): (r: seq<(string, Json)>) {
    RedactKey(RedactKey(RedactKey(RedactKey(fields, TokenKeys[0]), TokenKeys[1]), TokenKeys[2]), TokenKeys[3])
  }

  lemma TokenKeysDistinct()
    ensures forall i, j :: 0 <= i < j < 4 ==> TokenKeys[i] != TokenKeys[j]
  {
    assert |TokenKeys[0]| == 5 && |TokenKeys[1]| == 11 && |TokenKeys[2]| == 12 && |TokenKeys[3]| == 12;
    assert TokenKeys[2][0] != TokenKeys[3][0];
  }

  /** After sanitizing, no token field holds a truthy value other than the marker, and every other field is as it was. */
  lemma SanitizeRedacts(fields: seq<(string, Json)>, k: string)
    ensures var r := RedactAll(fields);
      && (k in TokenKeys && TruthyOpt(Lookup(fields, k)) ==> Lookup(r, k) == Some(JStr(Redacted)))
      && (k in TokenKeys && !TruthyOpt(Lookup(fields, k)) ==> Lookup(r, k) == Lookup(fields, k))
      && (k !in TokenKeys ==> Lookup(r, k) == Lookup(fields, k))
  {
    TokenKeysDistinct();
  }

  /** The outcome of `refresh()`: the new service state, the events emitted and the value returned. */
  datatype Refreshed = Refreshed(service: Service, events: seq<Event>, result: Json)

  /**
   * `refresh()`: a fetched payload becomes the state and is announced as updated; a thrown
   * error leaves the state, is announced as a failure, and the result is the state with the
   * error and `authenticated: false`.
   */
  function Refresh(st: Service, fetch: Fetch): (r: Refreshed)
    ensures fetch.Fetched? ==> r.service.state == Normalize(fetch.payload) && r.result == r.service.state
    ensures fetch.Threw? ==> r.service == st
    ensures fetch.Threw? && st.state.JObj? ==>
      && Prop(Some(r.result), "authenticated") == Some(JBool(false))
      && Prop(Some(r.result), "error") == Some(fetch.error)
      && (forall k :: k != "error" && k != "authenticated" ==> Prop(Some(r.result), k) == Prop(Some(st.state), k))
    ensures r.service.hasEventBus == st.hasEventBus
    ensures !st.hasEventBus ==> r.events == []
    ensures st.hasEventBus ==> |r.events| == 1 && (r.events[0].name == UpdatedEvent <==> fetch.Fetched?)
    ensures st.hasEventBus && fetch.Fetched? ==> r.events[0].payload == r.result
  {
    match fetch
    case Fetched(payload) =>
      var normalized := Normalize(payload);
      Refreshed(st.(state := normalized), if st.hasEventBus then [Event(UpdatedEvent, normalized)] else [], normalized)
    case Threw(error) =>
      var fields := if st.state.JObj? then st.state.fields else [];
      var result := Obj(SetField(SetField(fields, "error", error), "authenticated", JBool(false)));
      Refreshed(st, if st.hasEventBus then [Event(FailedEvent, Obj([("error", error)]))] else [], result)
  }

  /** After a successful refresh, the state says signed in exactly when the payload did. */
  lemma RefreshSignedIn(st: Service, payload: Option<Json>)
    ensures var r := Refresh(st, Fetched(payload));
      Prop(Some(r.service.state), "authenticated") == Some(JBool(true)) <==> Authenticates(payload)
  {
  }
}

=== FILE: auth_visibility.dfy ===
/**
 * `AuthVisibilityService`: what the page may show about the visitor's session. A
 * session payload is classified as authenticated, unauthenticated or still pending,
 * and an authenticated one is reduced to four trimmed display fields.
 *
 * Resolving an avatar against the page origin (`new URL(value, base)`) is a parameter:
 * the resolved text, or `None` when the constructor throws. Every snapshot the service
 * publishes on the event bus is recorded in `published`.
 */
module AuthVisibility {
  import opened Wrappers
  import opened Json
  import opened JsText
  import Decimal
  import AuthState

  const UpdatedEvent: string := "AUTH_VISIBILITY_" + "UPDATED"

  datatype Status = Pending | Authenticated | Unauthenticated

  datatype Session = Session(profileId: Option<string>, displayName: Option<string>, avatarUrl: Option<string>, username: Option<string>)

  datatype Visibility = Visibility(status: Status, authenticated: bool, session: Option<Session>)

  /** Text with no whitespace at either end and at least one character: what the normalisers hand out. */
  predicate Trimmed(s: string) {
    |s| > 0 && !IsJsWhitespace(s[0]) && !IsJsWhitespace(s[|s| - 1])
  }

  /** Text that already has no outer whitespace is its own trim. */
  lemma TrimOfTrimmed(s: string)
    requires Trimmed(s)
    ensures Trim(s) == s
  {
    assert TrimStart(s) == s;
    assert TrimEnd(s) == s;
  }

  /** `normalizeText(value)`: a string, trimmed, or `null` when nothing is left or the value is no string. */
  function NormalizeText(v: Option<Json>): (r: Option<string>)
    ensures r.Some? <==> v.Some? && v.value.JStr? && !AllWhitespace(v.value.s)
    ensures r.Some? ==> Trimmed(r.value)
  {
    if v.Some? && v.value.JStr? && Trim(v.value.s) != "" then Some(Trim(v.value.s)) else None
  }

  /** Normalizing a normalized text changes nothing. */
  lemma NormalizeTextIdempotent(v: Option<Json>)
    requires NormalizeText(v).Some?
    ensures NormalizeText(Some(JStr(NormalizeText(v).value))) == NormalizeText(v)
  {
    TrimOfTrimmed(NormalizeText(v).value);
  }

  /** `normalizeId(value)`: strings and numbers as their trimmed text, `null` for anything else or blank text. */
  function NormalizeId(v: Option<Json>): (r: Option<string>)
    ensures v.Some? && v.value.JStr? ==> r == NormalizeText(v)
    ensures !(v.Some? && (v.value.JStr? || v.value.JNum?)) ==> r.None?
    ensures r.Some? ==> Trimmed(r.value)
  {
    if v.None? then None
    else match v.value
      case JStr(_) => NormalizeText(v)
      case JNum(n) => NormalizeText(Some(JStr(Decimal.IntToString(n))))
      case _ => None
  }

  /** A numeric id becomes its decimal text, which reads back as the same number. */
  lemma NormalizeIdNumber(n: int)
    ensures NormalizeId(Some(JNum(n))) == Some(Decimal.IntToString(n))
    ensures Decimal.ParseInt(NormalizeId(Some(JNum(n))).value) == Some(n)
  {
    var s := Decimal.IntToString(n);
    assert !IsJsWhitespace(s[0]);
    assert Decimal.IsDigit(s[|s| - 1]);
    TrimOfTrimmed(s);
    Decimal.IntToStringRoundTrip(n);
  }

  /** `normalizeUrl(value)`: a string resolved against the page origin; `null` for other values or an unparsable URL. */
  function NormalizeUrl(v: Option<Json>, resolve: string -> Option<string>): (r: Option<string>)
    ensures !(v.Some? && v.value.JStr?) ==> r.None?
    ensures v.Some? && v.value.JStr? ==> r == resolve(v.value.s)
  {
    if v.Some? && v.value.JStr? then resolve(v.value.s) else None
  }

  /** `sanitizeSession(session)`: the display fields of a session that says `authenticated: true`, else `null`. */
  function SanitizeSession(session: Option<Json>, resolve: string -> Option<string>): (r: Option<Session>)
    ensures r.Some? <==> AuthState.Authenticates(session)
    ensures r.Some? ==> (
      && r.value.displayName == NormalizeText(Prop(session, "displayName"))
      && r.value.username == NormalizeText(Prop(session, "username"))
      && r.value.profileId == NormalizeId(Prop(session, "profileId"))
      && r.value.avatarUrl == NormalizeUrl(Prop(session, "avatarUrl"), resolve))
  {
    if !AuthState.Authenticates(session) then None
    else Some(Session(
      NormalizeId(Prop(session, "profileId")),
      NormalizeText(Prop(session, "displayName")),
      NormalizeUrl(Prop(session, "avatarUrl"), resolve),
      NormalizeText(Prop(session, "username"))))
  }

  /**
   * `normalize(session)`: authenticated exactly when the session says `authenticated: true`,
   * unauthenticated when it says `authenticated: false`, and pending for anything else
   * (no session, `null`, a missing or non-boolean flag). Only an authenticated snapshot
   * carries a session.
   */
  function Normalize(session: Option<Json>, resolve: string -> Option<string>): (r: Visibility)
    ensures r.status == Authenticated <==> AuthState.Authenticates(session)
    ensures r.status == Unauthenticated <==> !AuthState.Authenticates(session) && Prop(session, "authenticated") == Some(JBool(false))
    ensures r.authenticated <==> r.status == Authenticated
    ensures r.session.Some? <==> r.status == Authenticated
    ensures r.session.Some? ==> r.session == SanitizeSession(session, resolve)
  {
    var sanitized := SanitizeSession(session, resolve);
    if sanitized.Some? then Visibility(Authenticated, true, sanitized)
    else if Prop(session, "authenticated") == Some(JBool(false)) then Visibility(Unauthenticated, false, None)
    else Visibility(Pending, false, None)
  }

  /** The service: the current snapshot, whether an event bus is present, whether `init` subscribed, and what it published. */
  datatype Service = Service(visibility: Visibility, hasEventBus: bool, subscribed: bool, published: seq<Visibility>)

  /** `new AuthVisibilityService(...)`: the snapshot of the auth state's current value; nothing published yet. */
  function NewService(state: Option<Json>, hasEventBus: bool, resolve: string -> Option<string>): (st: Service)
    ensures st.visibility == Normalize(state, resolve) && st.published == [] && !st.subscribed
  {
    Service(Normalize(state, resolve), hasEventBus, false, [])
  }

  /** `emit()`: publishes the snapshot when there is a bus. */
  function Emit(st: Service): (r: Service)
    ensures r.visibility == st.visibility && r.subscribed == st.subscribed && r.hasEventBus == st.hasEventBus
    ensures r.published == st.published + (if st.hasEventBus then [st.visibility] else [])
  {
    if st.hasEventBus then st.(published := st.published + [st.visibility]) else st
  }

  /** `init()`: listens for session updates, then publishes the current snapshot. */
  function Init(st: Service): (r: Service)
    ensures r.visibility == st.visibility && r.subscribed == st.hasEventBus && r.hasEventBus == st.hasEventBus
    ensures r.published == st.published + (if st.hasEventBus then [st.visibility] else [])
  {
    Emit(st.(subscribed := st.hasEventBus))
  }

  /** `applySession(session)`: replaces the snapshot, publishes it once and returns it. */
  function ApplySession(st: Service, session: Option<Json>, resolve: string -> Option<string>): (r: (Service, Visibility))
    ensures r.0.visibility == Normalize(session, resolve) && r.1 == r.0.visibility
    ensures r.0.published == st.published + (if st.hasEventBus then [r.1] else [])
    ensures r.0.hasEventBus == st.hasEventBus && r.0.subscribed == st.subscribed
  {
    var r := Emit(st.(visibility := Normalize(session, resolve)));
    (r, r.visibility)
  }

  /** An `AUTH_SESSION_UPDATED` event on the bus: applied once `init` has subscribed, ignored before. */
  function OnSessionUpdated(st: Service, session: Option<Json>, resolve: string -> Option<string>): (r: Service)
    ensures !st.subscribed ==> r == st
    ensures st.subscribed ==> r == ApplySession(st, session, resolve).0
  {
    if st.subscribed then ApplySession(st, session, resolve).0 else st
  }

  /** A snapshot as `normalize` builds them: the flag and the session go with the authenticated status. */
  predicate Consistent(v: Visibility) {
    && (v.authenticated <==> v.status == Authenticated)
    && (v.session.Some? <==> v.status == Authenticated)
  }

  /** `isAuthenticated()`: the status is `authenticated`; in a consistent snapshot, it says signed in and carries a session. */
  function IsAuthenticated(st: Service): (r: bool)
    ensures r <==> st.visibility.status == Authenticated
    ensures Consistent(st.visibility) ==> (r <==> st.visibility.authenticated && st.visibility.session.Some?)
  {
    st.visibility.status == Authenticated
  }

  /** `isUnauthenticated()`: the status is `unauthenticated`, which never holds together with `isAuthenticated()`. */
  function IsUnauthenticated(st: Service): (r: bool)
    ensures r <==> st.visibility.status == Unauthenticated
    ensures r ==> !IsAuthenticated(st)
    ensures Consistent(st.visibility) && r ==> !st.visibility.authenticated && st.visibility.session.None?
  {
    st.visibility.status == Unauthenticated
  }

  /** The two queries agree with the snapshot's flag and with the session applied, and never hold together. */
  lemma QueriesAgree(st: Service, session: Option<Json>, resolve: string -> Option<string>)
    ensures var r := ApplySession(st, session, resolve).0;
      && (IsAuthenticated(r) <==> r.visibility.authenticated)
      && !(IsAuthenticated(r) && IsUnauthenticated(r))
      && (IsAuthenticated(r) || IsUnauthenticated(r) || r.visibility == Visibility(Pending, false, None))
      && (IsAuthenticated(r) <==> AuthState.Authenticates(session))
      && (IsUnauthenticated(r) <==> !AuthState.Authenticates(session) && Prop(session, "authenticated") == Some(JBool(false)))
  {
  }

  function Statuses(vs: seq<Visibility>): (r: seq<Status>)
    ensures |r| == |vs| && forall i :: 0 <= i < |vs| ==> r[i] == vs[i].status
  {
    seq(|vs|, i requires 0 <= i < |vs| => vs[i].status)
  }

  /**
   * A state published by either bundle's `AuthStateService` is always classified: signed in
   * when the payload it normalized was, signed out otherwise; it is never pending.
   */
  lemma NormalizedStateClassified(payload: Option<Json>, resolve: string -> Option<string>)
    ensures Normalize(Some(AuthState.Normalize(payload)), resolve).status
      == if AuthState.Authenticates(payload) then Authenticated else Unauthenticated
  {
  }

  /** The asset bundle's initial auth state reads as pending, the static bundle's as unauthenticated. */
  lemma InitialStates(resolve: string -> Option<string>)
    ensures Normalize(Some(AuthState.InitialAssets()), resolve).status == Pending
    ensures Normalize(Some(AuthState.InitialStatic()), resolve).status == Unauthenticated
  {
  }

  /**
   * A signed-out service that sees an empty payload and then `authenticated: false`
   * publishes unauthenticated, pending, unauthenticated, and ends without a session.
   */
  lemma SignedOutSequence(resolve: string -> Option<string>)
    ensures var s0 := Init(NewService(Some(Obj([("authenticated", JBool(false))])), true, resolve));
      var s1 := OnSessionUpdated(s0, Some(Obj([])), resolve);
      var s2 := OnSessionUpdated(s1, Some(Obj([("authenticated", JBool(false))])), resolve);
      && Statuses(s2.published) == [Unauthenticated, Pending, Unauthenticated]
      && s2.visibility.session.None?
  {
  }

  /**
   * A pending service that receives a signed-in payload with a numeric id publishes pending,
   * then authenticated, with the id as its decimal text.
   */
  lemma SignInSequence(resolve: string -> Option<string>)
    ensures var s0 := Init(NewService(Some(Obj([("authenticated", JNull)])), true, resolve));
      var s1 := OnSessionUpdated(s0, Some(Obj([("authenticated", JBool(true)), ("profileId", JNum(42))])), resolve);
      && Statuses(s1.published) == [Pending, Authenticated]
      && s1.visibility.session.value.profileId == Some("42")
  {
    var n0 := Normalize(Some(Obj([("authenticated", JNull)])), resolve);
    var p := Some(Obj([("authenticated", JBool(true)), ("profileId", JNum(42))]));
    var v := Normalize(p, resolve);
    assert n0.status == Pending by {
      NullIsPending(resolve);
    }
    assert v.status == Authenticated && v.session.value.profileId == Some("42") by {
      SignedInWithNumericId(resolve);
    }
    UpdateAfterInit(NewService(Some(Obj([("authenticated", JNull)])), true, resolve), p, resolve);
    StatusesOfTwo(n0, v);
  }

  lemma StatusesOfTwo(x: Visibility, y: Visibility)
    ensures Statuses([x, y]) == [x.status, y.status]
  {
  }

  lemma NullIsPending(resolve: string -> Option<string>)
    ensures Normalize(Some(Obj([("authenticated", JNull)])), resolve).status == Pending
  {
    var p := Some(Obj([("authenticated", JNull)]));
    assert Prop(p, "authenticated") == Some(JNull);
    assert !AuthState.Authenticates(p);
  }

  /** A session update after `init` on a bus publishes the new snapshot after the initial one. */
  lemma UpdateAfterInit(st: Service, p: Option<Json>, resolve: string -> Option<string>)
    requires st.hasEventBus && st.published == []
    ensures var s1 := OnSessionUpdated(Init(st), p, resolve);
      s1.published == [st.visibility, Normalize(p, resolve)] && s1.visibility == Normalize(p, resolve)
  {
  }

  lemma SignedInWithNumericId(resolve: string -> Option<string>)
    ensures var v := Normalize(Some(Obj([("authenticated", JBool(true)), ("profileId", JNum(42))])), resolve);
      v.status == Authenticated && v.session.value.profileId == Some("42")
  {
    var p := Some(Obj([("authenticated", JBool(true)), ("profileId", JNum(42))]));
    assert "profileId"[0] != "authenticated"[0];
    assert Prop(p, "profileId") == Some(JNum(42));
    assert AuthState.Authenticates(p);
    var v := Normalize(p, resolve);
    assert v.session.value.profileId == NormalizeId(Some(JNum(42)));
    NumericIdFortyTwo();
  }

  lemma NumericIdFortyTwo()
    ensures NormalizeId(Some(JNum(42))) == Some("42")
  {
    NormalizeIdNumber(42);
    FortyTwo();
  }

  lemma FortyTwo()
    ensures Decimal.IntToString(42) == "42"
  {
    assert Decimal.NatToString(4) == ['4'];
  }
}

=== FILE: base64.dfy ===
/**
 * Base 64 over bytes: the padded standard alphabet produced by `btoa` (section 4
 * of RFC 4648), the URL- and filename-safe variant with padding stripped
 * (section 5, padding per section 3.2) used for session tokens, and the
 * forgiving decoder behind `atob` (WHATWG Infra Standard).
 */
module Base64 {
  import opened Wrappers
  import opened Bytes

  predicate IsStdChar(c: char) {
    ('A' <= c <= 'Z') || ('a' <= c <= 'z') || ('0' <= c <= '9') || c == '+' || c == '/'
  }

  /** Characters of the URL-safe alphabet (section 5 of RFC 4648). */
  predicate IsUrlChar(c: char) {
    ('A' <= c <= 'Z') || ('a' <= c <= 'z') || ('0' <= c <= '9') || c == '-' || c == '_'
  }

  predicate AllStd(s: string) {
    forall i :: 0 <= i < |s| ==> IsStdChar(s[i])
  }

  predicate AllUrl(s: string) {
    forall i :: 0 <= i < |s| ==> IsUrlChar(s[i])
  }

  function Sextet(i: int): (c: char)
    requires 0 <= i < 64
    ensures IsStdChar(c)
  {
    if i < 26 then ('A' as int + i) as char
    else if i < 52 then ('a' as int + i - 26) as char
    else if i < 62 then ('0' as int + i - 52) as char
    else if i == 62 then '+'
    else '/'
  }

  function SextetValue(c: char): (v: nat)
    requires IsStdChar(c)
    ensures v < 64 && Sextet(v) == c
  {
    if 'A' <= c <= 'Z' then c as int - 'A' as int
    else if 'a' <= c <= 'z' then c as int - 'a' as int + 26
    else if '0' <= c <= '9' then c as int - '0' as int + 52
    else if c == '+' then 62
    else 63
  }

  /** Four characters for three bytes: each character carries six bits, most significant first. */
  function EncodeGroup(x: byte, y: byte, z: byte): (s: string)
    ensures |s| == 4 && AllStd(s)
  {
    [Sextet(x / 4), Sextet((x % 4) * 16 + y / 16), Sextet((y % 16) * 4 + z / 64), Sextet(z % 64)]
  }

  /** The alphabet characters of the standard encoding, without `=` padding. */
  function EncodeBody(b: seq<byte>): (s: string)
    ensures AllStd(s)
    ensures |s| == (4 * |b| + 2) / 3
    decreases |b|
  {
    if |b| == 0 then ""
    else if |b| == 1 then EncodeGroup(b[0], 0, 0)[..2]
    else if |b| == 2 then EncodeGroup(b[0], b[1], 0)[..3]
    else EncodeGroup(b[0], b[1], b[2]) + EncodeBody(b[3..])
  }

  /** `btoa` of the bytes as a binary string: the body padded with `=` to a multiple of four. */
  function EncodeStd(b: seq<byte>): (s: string)
    ensures |s| % 4 == 0
  {
    var body := EncodeBody(b);
    var n := |b|;
    assert n == 3 * (n / 3) + n % 3;
    assert |body| == 4 * (n / 3) + (if n % 3 == 0 then 0 else n % 3 + 1);
    body + (if |b| % 3 == 1 then "==" else if |b| % 3 == 2 then "=" else "")
  }

  /**
   * Two global single-character `.replace` calls in a row: every `a` becomes `a2`, then
   * every `b` becomes `b2`. As long as the first never produces a `b`, each character is
   * rewritten on its own.
   */
  function ReplaceTwo(s: string, a: char, a2: char, b: char, b2: char): (r: string)
    requires a != b && a2 != b
    ensures |r| == |s|
    ensures forall i :: 0 <= i < |s| ==> r[i] == (if s[i] == a then a2 else if s[i] == b then b2 else s[i])
  {
    if |s| == 0 then "" else [if s[0] == a then a2 else if s[0] == b then b2 else s[0]] + ReplaceTwo(s[1..], a, a2, b, b2)
  }

  /** `.replace(/\+/g, '-').replace(/\//g, '_')`: no `+` or `/` is left. */
  function ToUrlSafe(s: string): (r: string)
    ensures |r| == |s|
    ensures forall i :: 0 <= i < |s| ==> r[i] == (if s[i] == '+' then '-' else if s[i] == '/' then '_' else s[i])
    ensures forall i :: 0 <= i < |r| ==> r[i] != '+' && r[i] != '/'
  {
    ReplaceTwo(s, '+', '-', '/', '_')
  }

  /** `.replace(/-/g, '+').replace(/_/g, '/')`: no `-` or `_` is left. */
  function FromUrlSafe(s: string): (r: string)
    ensures |r| == |s|
    ensures forall i :: 0 <= i < |s| ==> r[i] == (if s[i] == '-' then '+' else if s[i] == '_' then '/' else s[i])
    ensures forall i :: 0 <= i < |r| ==> r[i] != '-' && r[i] != '_'
  {
    ReplaceTwo(s, '-', '+', '_', '/')
  }

  /** `.replace(/=+$/, '')`: removes the trailing run of `=`. */
  function StripPadding(s: string): (r: string)
    ensures |r| <= |s| && r == s[..|r|]
    ensures forall i :: |r| <= i < |s| ==> s[i] == '='
    ensures |r| > 0 ==> r[|r| - 1] != '='
    decreases |s|
  {
    if |s| > 0 && s[|s| - 1] == '=' then StripPadding(s[..|s| - 1]) else s
  }

  /** `base64UrlEncodeBuffer`: URL-safe alphabet, padding stripped. */
  function UrlEncode(b: seq<byte>): (s: string)
    ensures AllUrl(s)
    ensures forall i :: 0 <= i < |s| ==> s[i] != '=' && s[i] != '.'
    ensures s == ToUrlSafe(EncodeBody(b))
  {
    var body := EncodeBody(b);
    var padded := EncodeStd(b);
    assert padded[..|body|] == body;
    assert StripPadding(padded) == body by {
      StripPaddingOfBody(body, padded[|body|..]);
      assert padded == body + padded[|body|..];
    }
    ToUrlSafeStripCommute(padded);
    ToUrlSafe(StripPadding(padded))
  }

  lemma StripPaddingOfBody(body: string, pad: string)
    requires AllStd(body)
    requires forall i :: 0 <= i < |pad| ==> pad[i] == '='
    ensures StripPadding(body + pad) == body
    decreases |pad|
  {
    if |pad| > 0 {
      assert (body + pad)[..|body + pad| - 1] == body + pad[..|pad| - 1];
      StripPaddingOfBody(body, pad[..|pad| - 1]);
    } else {
      assert body + pad == body;
    }
  }

  /** The URL-safe mapping does not create or remove `=`, so it commutes with stripping. */
  lemma ToUrlSafeStripCommute(s: string)
    ensures StripPadding(ToUrlSafe(s)) == ToUrlSafe(StripPadding(s))
    decreases |s|
  {
    var t := ToUrlSafe(s);
    if |s| > 0 && s[|s| - 1] == '=' {
      assert ToUrlSafe(s[..|s| - 1]) == t[..|t| - 1];
      ToUrlSafeStripCommute(s[..|s| - 1]);
    } else if |s| > 0 {
      assert t[|t| - 1] != '=';
    }
  }

  predicate IsAsciiWhitespace(c: char) {
    c == '\t' || c == '\n' || c == '\U{000C}' || c == '\r' || c == ' '
  }

  function RemoveAsciiWhitespace(s: string): (r: string)
    ensures |r| <= |s|
    ensures forall i :: 0 <= i < |r| ==> !IsAsciiWhitespace(r[i])
  {
    if |s| == 0 then ""
    else (if IsAsciiWhitespace(s[0]) then "" else [s[0]]) + RemoveAsciiWhitespace(s[1..])
  }

  /** The three bytes a group of four alphabet characters stands for. */
  function DecodeGroup(c: string): (b: seq<byte>)
    requires |c| == 4 && AllStd(c)
    ensures |b| == 3
  {
    var v0 := SextetValue(c[0]);
    var v1 := SextetValue(c[1]);
    var v2 := SextetValue(c[2]);
    var v3 := SextetValue(c[3]);
    [v0 * 4 + v1 / 16, (v1 % 16) * 16 + v2 / 4, (v2 % 4) * 64 + v3]
  }

  /** Only a final group of a single character is malformed. */
  predicate ShortGroupOk(s: string) {
    |s| % 4 != 1
  }

  /**
   * Full groups decode to three bytes each; a final group of two or three characters
   * is completed with `A` and yields one or two bytes, the leftover bits discarded.
   */
  function DecodeBody(s: string): (b: seq<byte>)
    requires AllStd(s) && ShortGroupOk(s)
    decreases |s|
  {
    if |s| == 0 then []
    else if |s| == 2 then DecodeGroup(s + "AA")[..1]
    else if |s| == 3 then DecodeGroup(s + "A")[..2]
    else DecodeGroup(s[..4]) + DecodeBody(s[4..])
  }

  /** One or two `=` at the end of a text whose length is a multiple of four are removed. */
  function StripFinalPadding(d: string): string {
    if |d| % 4 == 0 && |d| >= 2 && d[|d| - 2..] == "==" then d[..|d| - 2]
    else if |d| % 4 == 0 && |d| >= 1 && d[|d| - 1] == '=' then d[..|d| - 1]
    else d
  }

  /**
   * `atob` (the WHATWG forgiving-base64 decode): drops ASCII whitespace, removes one or
   * two trailing `=` from a length that is a multiple of four, fails on a length of
   * 1 mod 4 or a character outside the alphabet, and discards leftover bits.
   */
  function ForgivingDecode(s: string): (r: Option<seq<byte>>)
    ensures var d := StripFinalPadding(RemoveAsciiWhitespace(s));
      && (r.None? <==> !ShortGroupOk(d) || !AllStd(d))
      && (r.Some? ==> r.value == DecodeBody(d))
  {
    var d := StripFinalPadding(RemoveAsciiWhitespace(s));
    if !ShortGroupOk(d) || !AllStd(d) then None else Some(DecodeBody(d))
  }

  /** `'='.repeat((4 - (s.length % 4 || 4)) % 4)` appended: the text is brought to a multiple of four. */
  function RePad(s: string): (r: string)
    ensures |r| % 4 == 0
    ensures |s| <= |r| < |s| + 4 && r[..|s|] == s
    ensures forall i :: |s| <= i < |r| ==> r[i] == '='
  {
    var rem := if |s| % 4 == 0 then 4 else |s| % 4;
    var count := (4 - rem) % 4;
    s + (if count == 3 then "===" else if count == 2 then "==" else if count == 1 then "=" else "")
  }

  /** `base64UrlDecode` up to the text decoding: `None` where `atob` throws. */
  function UrlDecode(s: string): Option<seq<byte>> {
    ForgivingDecode(RePad(FromUrlSafe(s)))
  }

  /** The sextets of a byte pair recombine into the pair. */
  lemma SplitPair(x: int, y: int)
    requires 0 <= x < 256 && 0 <= y < 256
    ensures ((x % 4) * 16 + y / 16) / 16 == x % 4
    ensures ((x % 4) * 16 + y / 16) % 16 == y / 16
    ensures (x / 4) * 4 + x % 4 == x
  {
  }

  lemma SplitLow(y: int, z: int)
    requires 0 <= y < 256 && 0 <= z < 256
    ensures ((y % 16) * 4 + z / 64) / 4 == y % 16
    ensures ((y % 16) * 4 + z / 64) % 4 == z / 64
    ensures (y / 16) * 16 + y % 16 == y
    ensures (z / 64) * 64 + z % 64 == z
  {
  }

  /** The four sextets of three bytes are each below 64 and recombine into the bytes. */
  lemma Recombine(x: int, y: int, z: int)
    requires 0 <= x < 256 && 0 <= y < 256 && 0 <= z < 256
    ensures var a, b, c, d := x / 4, (x % 4) * 16 + y / 16, (y % 16) * 4 + z / 64, z % 64;
      && 0 <= a < 64 && 0 <= b < 64 && 0 <= c < 64 && 0 <= d < 64
      && a * 4 + b / 16 == x && (b % 16) * 16 + c / 4 == y && (c % 4) * 64 + d == z
  {
    SplitPair(x, y);
    SplitLow(y, z);
  }

  lemma SextetInverse(v: int)
    requires 0 <= v < 64
    ensures SextetValue(Sextet(v)) == v
  {
  }

  /** A group of three bytes survives encoding and decoding. */
  lemma GroupRoundTrip(x: byte, y: byte, z: byte)
    ensures DecodeGroup(EncodeGroup(x, y, z)) == [x, y, z]
  {
    var a, b, c, d := x / 4, (x % 4) * 16 + y / 16, (y % 16) * 4 + z / 64, z % 64;
    Recombine(x, y, z);
    SextetInverse(a);
    SextetInverse(b);
    SextetInverse(c);
    SextetInverse(d);
    var s := EncodeGroup(x, y, z);
    assert s == [Sextet(a), Sextet(b), Sextet(c), Sextet(d)];
    assert DecodeGroup(s) == [a * 4 + b / 16, (b % 16) * 16 + c / 4, (c % 4) * 64 + d];
  }

  /** Completing a short final group with `A` gives back the zero bits the encoder filled in. */
  lemma CompleteShortGroup(x: byte, y: byte)
    ensures EncodeGroup(x, 0, 0)[..2] + "AA" == EncodeGroup(x, 0, 0)
    ensures EncodeGroup(x, y, 0)[..3] + "A" == EncodeGroup(x, y, 0)
  {
    assert Sextet(0) == 'A';
  }

  /** Encoded lengths are 0, 2 or 3 modulo four, never 1. */
  lemma {:induction false} EncodeBodyShape(b: seq<byte>)
    ensures ShortGroupOk(EncodeBody(b))
    decreases |b|
  {
    if |b| >= 3 {
      EncodeBodyShape(b[3..]);
      assert |EncodeBody(b)| == 4 + |EncodeBody(b[3..])|;
    }
  }

  lemma DecodeBodyOne(x: byte)
    ensures ShortGroupOk(EncodeBody([x]))
    ensures DecodeBody(EncodeBody([x])) == [x]
  {
    var s := EncodeBody([x]);
    var g := EncodeGroup(x, 0, 0);
    assert s == g[..2];
    CompleteShortGroup(x, 0);
    assert s + "AA" == g;
    GroupRoundTrip(x, 0, 0);
    assert DecodeBody(s) == DecodeGroup(g)[..1];
  }

  lemma DecodeBodyTwo(x: byte, y: byte)
    ensures ShortGroupOk(EncodeBody([x, y]))
    ensures DecodeBody(EncodeBody([x, y])) == [x, y]
  {
    var s := EncodeBody([x, y]);
    var g := EncodeGroup(x, y, 0);
    assert s == g[..3];
    CompleteShortGroup(x, y);
    assert s + "A" == g;
    GroupRoundTrip(x, y, 0);
    assert DecodeBody(s) == DecodeGroup(g)[..2];
  }

  lemma EncodeBodyStep(b: seq<byte>)
    requires |b| >= 3
    ensures EncodeBody(b) == EncodeGroup(b[0], b[1], b[2]) + EncodeBody(b[3..])
  {
  }

  lemma DecodeBodyStep(s: string)
    requires AllStd(s) && ShortGroupOk(s) && |s| >= 4
    ensures AllStd(s[4..]) && ShortGroupOk(s[4..])
    ensures DecodeBody(s) == DecodeGroup(s[..4]) + DecodeBody(s[4..])
  {
  }

  lemma GroupThenRest(g: string, rest: string)
    requires |g| == 4 && AllStd(g) && AllStd(rest) && ShortGroupOk(rest)
    ensures AllStd(g + rest) && ShortGroupOk(g + rest)
    ensures DecodeBody(g + rest) == DecodeGroup(g) + DecodeBody(rest)
  {
    var s := g + rest;
    assert s[..4] == g && s[4..] == rest;
    DecodeBodyStep(s);
  }

  lemma FirstThree(b: seq<byte>)
    requires |b| >= 3
    ensures [b[0], b[1], b[2]] + b[3..] == b
  {
    assert b == b[..3] + b[3..];
  }

  /** One more group in front: a round trip for the tail extends to the whole. */
  lemma DecodeBodyCons(b: seq<byte>)
    requires |b| >= 3
    requires ShortGroupOk(EncodeBody(b[3..])) && DecodeBody(EncodeBody(b[3..])) == b[3..]
    ensures ShortGroupOk(EncodeBody(b))
    ensures DecodeBody(EncodeBody(b)) == b
  {
    var rest := EncodeBody(b[3..]);
    var g := EncodeGroup(b[0], b[1], b[2]);
    EncodeBodyStep(b);
    GroupThenRest(g, rest);
    calc {
      DecodeBody(EncodeBody(b));
      DecodeGroup(g) + DecodeBody(rest);
      { GroupRoundTrip(b[0], b[1], b[2]); }
      [b[0], b[1], b[2]] + b[3..];
      { FirstThree(b); }
      b;
    }
  }

  /** Decoding the body of an encoding returns the encoded bytes. */
  lemma {:induction false} DecodeBodyEncodeBody(b: seq<byte>)
    ensures ShortGroupOk(EncodeBody(b))
    ensures DecodeBody(EncodeBody(b)) == b
    decreases |b|
  {
    if |b| == 0 {
      assert EncodeBody(b) == "";
    } else if |b| == 1 {
      DecodeBodyOne(b[0]);
      assert b == [b[0]];
    } else if |b| == 2 {
      DecodeBodyTwo(b[0], b[1]);
      assert b == [b[0], b[1]];
    } else {
      DecodeBodyEncodeBody(b[3..]);
      DecodeBodyCons(b);
    }
  }

  lemma FromToUrlSafe(s: string)
    requires AllStd(s)
    ensures FromUrlSafe(ToUrlSafe(s)) == s
  {
  }

  lemma RemoveWhitespaceIdentity(s: string)
    requires forall i :: 0 <= i < |s| ==> !IsAsciiWhitespace(s[i])
    ensures RemoveAsciiWhitespace(s) == s
    decreases |s|
  {
    if |s| > 0 {
      RemoveWhitespaceIdentity(s[1..]);
      assert s == [s[0]] + s[1..];
    }
  }

  /** Alphabet text followed by `=` padding contains no ASCII whitespace. */
  lemma PaddedHasNoWhitespace(body: string, pad: string)
    requires AllStd(body)
    requires forall i :: 0 <= i < |pad| ==> pad[i] == '='
    ensures RemoveAsciiWhitespace(body + pad) == body + pad
  {
    var p := body + pad;
    forall i | 0 <= i < |p|
      ensures !IsAsciiWhitespace(p[i])
    {
      if i < |body| {
        assert p[i] == body[i];
      } else {
        assert p[i] == pad[i - |body|];
      }
    }
    RemoveWhitespaceIdentity(p);
  }

  /** The padding the encoder adds is exactly what the decoder strips. */
  lemma StripFinalPaddingOfPadded(body: string)
    requires AllStd(body) && ShortGroupOk(body)
    ensures StripFinalPadding(RePad(body)) == body
  {
    if |body| % 4 == 2 {
      StripTwo(body);
    } else {
      if |body| > 0 {
        assert IsStdChar(body[|body| - 1]);
      }
      StripNoneOrOne(body);
    }
  }

  lemma StripTwo(body: string)
    requires |body| % 4 == 2
    ensures StripFinalPadding(RePad(body)) == body
  {
    var p := body + "==";
    assert RePad(body) == p;
    assert p[|p| - 2..] == "==";
    assert p[..|p| - 2] == body;
  }

  /** Without padding, or with one `=`, a body whose last character is in the alphabet comes back whole. */
  lemma StripNoneOrOne(body: string)
    requires |body| % 4 == 0 || |body| % 4 == 3
    requires |body| > 0 ==> IsStdChar(body[|body| - 1])
    ensures StripFinalPadding(RePad(body)) == body
  {
    if |body| % 4 == 3 {
      var p := body + "=";
      assert RePad(body) == p;
      assert p[|p| - 2] == body[|body| - 1];
      assert p[|p| - 2..] != "==";
      assert p[..|p| - 1] == body;
    } else {
      assert RePad(body) == body;
    }
  }

  /** Re-padding and decoding the body of an encoding returns the encoded bytes. */
  lemma DecodeRePaddedBody(b: seq<byte>)
    ensures ForgivingDecode(RePad(EncodeBody(b))) == Some(b)
  {
    var body := EncodeBody(b);
    DecodeBodyEncodeBody(b);
    PaddedHasNoWhitespace(body, RePad(body)[|body|..]);
    assert body + RePad(body)[|body|..] == RePad(body);
    StripFinalPaddingOfPadded(body);
  }

  /** Decoding the URL-safe encoding of any bytes gives back those bytes. */
  lemma UrlRoundTrip(b: seq<byte>)
    ensures UrlDecode(UrlEncode(b)) == Some(b)
  {
    FromToUrlSafe(EncodeBody(b));
    DecodeRePaddedBody(b);
  }
}

=== FILE: countdown.dfy ===
/**
 * `CountdownTimer`: the time left until the next local midnight as `HH:MM:SS`, and the
 * single repeating interval that refreshes it.
 *
 * The clock is a parameter: `now` and the next midnight as millisecond timestamps
 * (computing local midnight is the platform's `Date`). `setInterval` is a parameter too:
 * the id it hands out.
 */
module Countdown {
  import opened Wrappers
  import Decimal

  const MsPerHour: nat := 3_600_000
  const MsPerMinute: nat := 60_000
  const MsPerSecond: nat := 1000

  /** `Math.max(0, nextMidnight - now)`. */
  function Remaining(now: int, nextMidnight: int): (r: nat)
    ensures r >= nextMidnight - now
    ensures nextMidnight >= now ==> r == nextMidnight - now
    ensures nextMidnight <= now ==> r == 0
  {
    if nextMidnight - now > 0 then nextMidnight - now else 0
  }

  datatype Clock = Clock(hours: nat, minutes: nat, seconds: nat)

  /** The whole hours, minutes and seconds of a non-negative duration (`Math.floor` of the quotients). */
  function Split(remaining: nat): (c: Clock)
    ensures c.minutes < 60 && c.seconds < 60
    ensures Ms(c) <= remaining < Ms(c) + MsPerSecond
  {
    var c := Clock(remaining / MsPerHour, (remaining % MsPerHour) / MsPerMinute, (remaining % MsPerMinute) / MsPerSecond);
    SplitParts(remaining);
    c
  }

  /** The three quotients add back up to the duration, less the milliseconds under a second. */
  lemma SplitParts(remaining: nat)
    ensures var h, m, sec := remaining / MsPerHour, (remaining % MsPerHour) / MsPerMinute, (remaining % MsPerMinute) / MsPerSecond;
      && m < 60 && sec < 60
      && h * MsPerHour + m * MsPerMinute + sec * MsPerSecond <= remaining
      && remaining < h * MsPerHour + m * MsPerMinute + sec * MsPerSecond + MsPerSecond
  {
    var h, rh := remaining / MsPerHour, remaining % MsPerHour;
    var m, rm := rh / MsPerMinute, rh % MsPerMinute;
    var sec := rm / MsPerSecond;
    assert remaining == h * MsPerHour + rh;
    assert rh == m * MsPerMinute + rm;
    assert remaining == (h * 60 + m) * MsPerMinute + rm;
    MinuteRemainder(h * 60 + m, rm);
    assert rm == sec * MsPerSecond + rm % MsPerSecond;
  }

  /** Whole minutes plus a remainder under a minute leave that remainder. */
  lemma MinuteRemainder(q: nat, r: nat)
    requires r < MsPerMinute
    ensures (q * MsPerMinute + r) % MsPerMinute == r
  {
    var x := q * MsPerMinute + r;
    var k := x / MsPerMinute;
    assert x == k * MsPerMinute + x % MsPerMinute;
    assert (q - k) * MsPerMinute == x % MsPerMinute - r;
  }

  function Ms(c: Clock): nat {
    c.hours * MsPerHour + c.minutes * MsPerMinute + c.seconds * MsPerSecond
  }

  function Field(n: nat): string {
    Decimal.PadStart2(Decimal.NatToString(n))
  }

  /** `[hours, minutes, seconds].map(v => String(v).padStart(2, '0')).join(':')`. */
  function Format(c: Clock): (s: string)
    ensures |s| >= 8
  {
    Field(c.hours) + ":" + Field(c.minutes) + ":" + Field(c.seconds)
  }

  /**
   * `s` reads as `hours:mm:ss`, with all-digit fields and minutes and seconds under 60,
   * and the clock it shows is within the second below `ms`.
   */
  ghost predicate ShowsWithinSecond(s: string, ms: int) {
    && |s| >= 8 && s[|s| - 3] == ':' && s[|s| - 6] == ':'
    && Decimal.AllDigits(s[..|s| - 6]) && Decimal.AllDigits(s[|s| - 5..|s| - 3]) && Decimal.AllDigits(s[|s| - 2..])
    && var h, m, sec := Decimal.DigitsValue(s[..|s| - 6]), Decimal.DigitsValue(s[|s| - 5..|s| - 3]), Decimal.DigitsValue(s[|s| - 2..]);
      && m < 60 && sec < 60
      && Ms(Clock(h, m, sec)) <= ms < Ms(Clock(h, m, sec)) + MsPerSecond
  }

  /**
   * `tick()`: the text handed to `onTick`. Read back as hours, minutes and seconds, it is
   * the time left until midnight (none once it has passed), truncated to the second.
   */
  function Tick(now: int, nextMidnight: int): (s: string)
    ensures ShowsWithinSecond(s, Remaining(now, nextMidnight))
  {
    var c := Split(Remaining(now, nextMidnight));
    ClockShown(c, Remaining(now, nextMidnight));
    Format(c)
  }

  /** A clock within the second below `ms` is shown as text that reads back as it. */
  lemma ClockShown(c: Clock, ms: int)
    requires c.minutes < 60 && c.seconds < 60 && Ms(c) <= ms < Ms(c) + MsPerSecond
    ensures ShowsWithinSecond(Format(c), ms)
  {
    FormatReadsBack(c);
    var s := Format(c);
    assert Clock(Decimal.DigitsValue(s[..|s| - 6]), Decimal.DigitsValue(s[|s| - 5..|s| - 3]), Decimal.DigitsValue(s[|s| - 2..])) == c;
  }

  lemma FieldValue(n: nat)
    requires n < 100
    ensures |Field(n)| == 2 && Decimal.AllDigits(Field(n)) && Decimal.DigitsValue(Field(n)) == n
  {
    Decimal.PadStart2Value(n);
  }

  /**
   * The displayed text reads back as the clock it shows: the hours before the first colon,
   * then two digits of minutes and two of seconds, each the value of its field.
   */
  lemma FormatReadsBack(c: Clock)
    requires c.minutes < 60 && c.seconds < 60
    ensures var s := Format(c);
      && s[|s| - 3] == ':' && s[|s| - 6] == ':'
      && Decimal.AllDigits(s[..|s| - 6]) && Decimal.DigitsValue(s[..|s| - 6]) == c.hours
      && Decimal.AllDigits(s[|s| - 5..|s| - 3]) && Decimal.DigitsValue(s[|s| - 5..|s| - 3]) == c.minutes
      && Decimal.AllDigits(s[|s| - 2..]) && Decimal.DigitsValue(s[|s| - 2..]) == c.seconds
  {
    var s := Format(c);
    FieldValue(c.minutes);
    FieldValue(c.seconds);
    Decimal.PadStart2Value(c.hours);
    var h := Field(c.hours);
    assert s == h + ":" + Field(c.minutes) + ":" + Field(c.seconds);
    assert s[..|s| - 6] == h;
    assert s[|s| - 5..|s| - 3] == Field(c.minutes);
    assert s[|s| - 2..] == Field(c.seconds);
  }

  /** What a tick shows is the time left, truncated to the second; a time already past shows zero. */
  lemma TickShowsRemaining(now: int, nextMidnight: int)
    ensures var c := Split(Remaining(now, nextMidnight));
      && Tick(now, nextMidnight) == Format(c)
      && Ms(c) <= Remaining(now, nextMidnight) < Ms(c) + MsPerSecond
      && (nextMidnight <= now ==> Tick(now, nextMidnight) == "00:00:00")
  {
    if nextMidnight <= now {
      assert Split(0) == Clock(0, 0, 0);
      assert Field(0) == "00";
    }
  }

  /** The timer: the interval id it holds, the intervals registered with the window, and what it showed. */
  datatype Timer = Timer(intervalId: Option<nat>, registered: set<nat>, shown: seq<string>)

  /** The timer's own bookkeeping: it holds an interval exactly when the window has one registered for it. */
  predicate Owned(t: Timer) {
    t.registered == if t.intervalId.Some? then {t.intervalId.value} else {}
  }

  /** `stop()`: clears the held interval, if any. */
  function Stop(t: Timer): (r: Timer)
    ensures r.intervalId.None? && r.shown == t.shown
    ensures r.registered == t.registered - (if t.intervalId.Some? then {t.intervalId.value} else {})
  {
    if t.intervalId.Some? then Timer(None, t.registered - {t.intervalId.value}, t.shown) else t
  }

  /** `start()`: one tick at once, then any running interval is cleared and a new one (`newId`) registered. */
  function Start(t: Timer, now: int, nextMidnight: int, newId: nat): (r: Timer)
    ensures r.shown == t.shown + [Tick(now, nextMidnight)]
    ensures r.intervalId == Some(newId)
    ensures Owned(t) ==> r.registered == {newId}
  {
    var ticked := t.(shown := t.shown + [Tick(now, nextMidnight)]);
    var stopped := Stop(ticked);
    stopped.(intervalId := Some(newId), registered := stopped.registered + {newId})
  }

  /** Stopping twice is stopping once. */
  lemma StopIdempotent(t: Timer)
    ensures Stop(Stop(t)) == Stop(t)
  {
  }

  /** Starting any number of times keeps exactly one interval registered, and stopping leaves none. */
  lemma StartKeepsOneInterval(t: Timer, now: int, nextMidnight: int, newId: nat)
    requires Owned(t)
    ensures Owned(Start(t, now, nextMidnight, newId))
    ensures Owned(Stop(t)) && Stop(t).registered == {}
  {
  }
}

=== FILE: cta_link.dfy ===
/**
 * `CtaLinkService`: the call-to-action link's URL and target, and the attributes and
 * navigation built from them.
 */
module CtaLink {
  import opened Wrappers
  import opened Json
  import opened JsText

  const DefaultTarget: string := "_" + "blank"
  const Rel: string := "no" + "opener"

  datatype Link = Link(url: string, target: string)

  /**
   * `new CtaLinkService({ url, target })`: the trimmed URL, or `''` when it is no string;
   * the trimmed target, or `_blank` when it is blank or no string (also when absent).
   */
  function NewLink(url: Option<Json>, target: Option<Json>): (l: Link)
    ensures url.Some? && url.value.JStr? ==> l.url == Trim(url.value.s)
    ensures !(url.Some? && url.value.JStr?) ==> l.url == ""
    ensures target.Some? && target.value.JStr? && !AllWhitespace(target.value.s) ==> l.target == Trim(target.value.s)
    ensures !(target.Some? && target.value.JStr? && !AllWhitespace(target.value.s)) ==> l.target == DefaultTarget
    ensures l.target != ""
  {
    Link(UrlOf(url), TargetOf(target))
  }

  function UrlOf(url: Option<Json>): string {
    if url.Some? && url.value.JStr? then Trim(url.value.s) else ""
  }

  function TargetOf(target: Option<Json>): string {
    if target.Some? && target.value.JStr? then TargetText(target.value.s) else DefaultTarget
  }

  function TargetText(s: string): string {
    if Trim(s) != "" then Trim(s) else DefaultTarget
  }

  /** `getAttributes()`: `rel` and `target` always, `href` only for a non-empty URL. */
  function Attributes(l: Link): (r: seq<(string, string)>)
    ensures |r| == if l.url != "" then 3 else 2
    ensures r[0] == ("rel", Rel) && r[1] == ("target", l.target)
    ensures l.url != "" ==> r[2] == ("href", l.url)
  {
    [("rel", Rel), ("target", l.target)] + if l.url != "" then [("href", l.url)] else []
  }

  /** `getNavigation()`: the same URL and target the link's attributes carry. */
  function Navigation(l: Link): (r: (string, string))
    ensures r.0 != "" <==> |Attributes(l)| == 3
    ensures r.0 != "" ==> Attributes(l)[2] == ("href", r.0)
    ensures Attributes(l)[1] == ("target", r.1)
  {
    (l.url, l.target)
  }

  /** Building a link from an existing link's values gives the same link: the normalization is idempotent. */
  lemma NewLinkIdempotent(url: Option<Json>, target: Option<Json>)
    ensures var l := NewLink(url, target); NewLink(Some(JStr(l.url)), Some(JStr(l.target))) == l
  {
    var l := NewLink(url, target);
    UrlIdempotent(url);
    TargetIdempotent(target);
  }

  lemma UrlIdempotent(url: Option<Json>)
    ensures UrlOf(Some(JStr(UrlOf(url)))) == UrlOf(url)
  {
    if url.Some? && url.value.JStr? {
      TrimIdempotent(url.value.s);
    } else {
      assert Trim("") == "";
    }
  }

  lemma TargetIdempotent(target: Option<Json>)
    ensures TargetOf(Some(JStr(TargetOf(target)))) == TargetOf(target)
  {
    var t := TargetOf(target);
    StringTarget(t);
    if target.Some? && target.value.JStr? {
      TargetTextIdempotent(target.value.s);
    } else {
      DefaultTargetTrimmed();
    }
  }

  lemma StringTarget(t: string)
    ensures TargetOf(Some(JStr(t))) == TargetText(t)
  {
  }

  lemma TargetTextIdempotent(s: string)
    ensures TargetText(TargetText(s)) == TargetText(s)
  {
    if Trim(s) != "" {
      TrimIdempotent(s);
    } else {
      DefaultTargetTrimmed();
    }
  }

  lemma DefaultTargetTrimmed()
    ensures Trim(DefaultTarget) == DefaultTarget
  {
    var d := DefaultTarget;
    assert d[0] == '_' && d[|d| - 1] == 'k';
    assert TrimStart(d) == d;
    assert TrimEnd(d) == d;
  }

  /** The link carries an `href` exactly when the given URL has non-blank text. */
  lemma HrefIffUrl(url: Option<Json>, target: Option<Json>)
    ensures |Attributes(NewLink(url, target))| == 3 <==> url.Some? && url.value.JStr? && !AllWhitespace(url.value.s)
  {
  }
}

=== FILE: decimal.dfy ===
/**
 * Decimal text of integers, as produced by JavaScript's `String(n)` for integral
 * numbers, and its inverse.  Used for cookie `Max-Age` values, slide counts,
 * array-index keys and the countdown clock.
 */
module Decimal {
  import opened Wrappers

  predicate IsDigit(c: char) {
    '0' <= c <= '9'
  }

  predicate AllDigits(s: string) {
    forall i :: 0 <= i < |s| ==> IsDigit(s[i])
  }

  function DigitChar(d: nat): (c: char)
    requires d < 10
    ensures IsDigit(c)
  {
    (('0' as int) + d) as char
  }

  function DigitValue(c: char): (d: nat)
    requires IsDigit(c)
    ensures d < 10
    ensures DigitChar(d) == c
  {
    (c as int) - ('0' as int)
  }

  /** `String(n)` for a non-negative integer: canonical decimal digits. */
  function NatToString(n: nat): (s: string)
    ensures |s| >= 1
    ensures AllDigits(s)
    ensures |s| > 1 ==> s[0] != '0'
    ensures n < 10 <==> |s| == 1
    decreases n
  {
    if n < 10 then [DigitChar(n)] else NatToString(n / 10) + [DigitChar(n % 10)]
  }

  /** `String(i)` for any integer: a `-` sign before the magnitude of a negative value. */
  function IntToString(i: int): (s: string)
    ensures |s| >= 1
    ensures i >= 0 ==> AllDigits(s)
    ensures i < 0 ==> s[0] == '-' && AllDigits(s[1..])
  {
    if i >= 0 then NatToString(i) else "-" + NatToString(-i)
  }

  /** The value of a string of decimal digits (leading zeros allowed, as in `Number("07")`). */
  function DigitsValue(s: string): nat
    requires AllDigits(s)
    decreases |s|
  {
    if |s| == 0 then 0 else DigitsValue(s[..|s| - 1]) * 10 + DigitValue(s[|s| - 1])
  }

  /** Reading back the decimal text of `n` gives `n`: the text is a faithful encoding. */
  lemma {:induction false} NatToStringRoundTrip(n: nat)
    ensures DigitsValue(NatToString(n)) == n
    decreases n
  {
    if n >= 10 {
      var s := NatToString(n);
      NatToStringRoundTrip(n / 10);
      assert s[..|s| - 1] == NatToString(n / 10);
      assert s[|s| - 1] == DigitChar(n % 10);
    } else {
      assert NatToString(n) == [DigitChar(n)];
    }
  }

  /** Different numbers have different decimal texts. */
  lemma NatToStringInjective(m: nat, n: nat)
    requires NatToString(m) == NatToString(n)
    ensures m == n
  {
    NatToStringRoundTrip(m);
    NatToStringRoundTrip(n);
  }

  /** Leading zeros do not change a digit string's value. */
  lemma {:induction false} LeadingZeroValue(s: string)
    requires AllDigits(s)
    ensures AllDigits("0" + s)
    ensures DigitsValue("0" + s) == DigitsValue(s)
    decreases |s|
  {
    var z := "0" + s;
    if |s| == 0 {
      assert z[..|z| - 1] == "";
    } else {
      assert z[..|z| - 1] == "0" + s[..|s| - 1];
      assert z[|z| - 1] == s[|s| - 1];
      LeadingZeroValue(s[..|s| - 1]);
    }
  }

  /** `String(v).padStart(2, '0')`: at least two characters, zeros on the left. */
  function PadStart2(s: string): (r: string)
    ensures |r| >= 2
    ensures |s| >= 2 ==> r == s
    ensures |s| < 2 ==> |r| == 2 && r[2 - |s|..] == s && forall i :: 0 <= i < 2 - |s| ==> r[i] == '0'
  {
    if |s| >= 2 then s else if |s| == 1 then "0" + s else "00"
  }

  /** Two-digit padding of a number's decimal text still reads back as that number. */
  lemma PadStart2Value(n: nat)
    ensures AllDigits(PadStart2(NatToString(n)))
    ensures DigitsValue(PadStart2(NatToString(n))) == n
  {
    NatToStringRoundTrip(n);
    var s := NatToString(n);
    if |s| < 2 {
      LeadingZeroValue(s);
      assert PadStart2(s) == "0" + s;
    }
  }

  /** Reads an optional `-` followed by at least one decimal digit. */
  function ParseInt(s: string): (r: Option<int>)
    ensures r.Some? ==> |s| > 0
  {
    if |s| > 0 && s[0] == '-' then
      (if |s| > 1 && AllDigits(s[1..]) then Some(-(DigitsValue(s[1..]) as int)) else None)
    else if |s| > 0 && AllDigits(s) then Some(DigitsValue(s))
    else None
  }

  /** The decimal text of every integer reads back as that integer. */
  lemma IntToStringRoundTrip(i: int)
    ensures ParseInt(IntToString(i)) == Some(i)
  {
    var s := IntToString(i);
    if i >= 0 {
      NatToStringRoundTrip(i);
      assert s == NatToString(i);
      assert IsDigit(s[0]);
    } else {
      var t := NatToString(-i);
      NatToStringRoundTrip(-i);
      assert s == "-" + t;
      assert s[1..] == t;
      assert ParseInt(s) == Some(-(DigitsValue(t) as int));
    }
  }
}

=== FILE: discord_auth.dfy ===
/**
 * `DiscordAuthService` (static bundle): whether login may start, and the events and
 * result of starting it. The feature-flag answer and the adapter's navigation are
 * parameters; the events the service emits are recorded when there is an event bus.
 */
module DiscordAuth {
  import opened Wrappers
  import opened Json

  const RequestedEvent: string := "DISCORD_LOGIN_" + "REQUESTED"
  const CompletedEvent: string := "DISCORD_LOGIN_" + "COMPLETED"
  const FailedEvent: string := "DISCORD_LOGIN_" + "FAILED"

  datatype Event = Event(name: string, payload: Json)

  /**
   * What `await this.authAdapter?.getDiscordLoginNavigation?.()` produced: a value
   * (`None` for `undefined`, which is also what a missing adapter or method gives) or a
   * thrown error.
   */
  datatype Navigation = Navigated(value: Option<Json>) | Threw(error: Json)

  /** `{ status: 'disabled' }`, `{ status: 'ready', navigation }`, or `{ status: 'error' }` with the error when one was thrown. */
  datatype LoginResult = Disabled | Ready(navigation: Json) | Error(error: Option<Json>)

  /**
   * `canLogin()`: `identityEnabled` is what `featureFlags?.isIdentityEnabled?.()` returned,
   * `None` when there are no flags. Only an explicit `false` forbids login.
   */
  function CanLogin(identityEnabled: Option<Json>): (b: bool)
    ensures !b <==> identityEnabled == Some(JBool(false))
  {
    identityEnabled != Some(JBool(false))
  }

  function Reason(reason: string): Json {
    Obj([("reason", JStr(reason))])
  }

  /** `beginLogin()`: the result and the events emitted, in order. */
  function BeginLogin(identityEnabled: Option<Json>, hasEventBus: bool, nav: Navigation): (r: (LoginResult, seq<Event>))
    ensures !CanLogin(identityEnabled) ==> r.0 == Disabled
    ensures CanLogin(identityEnabled) ==> (r.0.Ready? <==> nav.Navigated? && TruthyOpt(Prop(nav.value, "url")))
    ensures r.0.Ready? ==> Some(r.0.navigation) == nav.value
    ensures r.0.Error? ==> CanLogin(identityEnabled) && (r.0.error.Some? <==> nav.Threw?)
    ensures !hasEventBus ==> r.1 == []
    ensures hasEventBus && CanLogin(identityEnabled) ==> |r.1| == 2 && r.1[0] == Event(RequestedEvent, Obj([]))
    ensures hasEventBus && !CanLogin(identityEnabled) ==> |r.1| == 1
    ensures hasEventBus ==> |r.1| > 0 && r.1[|r.1| - 1].name == (if r.0.Ready? then CompletedEvent else FailedEvent)
    ensures CanLogin(identityEnabled) ==> r.0.Ready? || r.0.Error?
    ensures CanLogin(identityEnabled) && nav.Threw? ==> r.0 == Error(Some(nav.error))
    ensures hasEventBus && !CanLogin(identityEnabled) ==> r.1 == [Event(FailedEvent, Reason("disabled"))]
    ensures hasEventBus && CanLogin(identityEnabled) && nav.Threw? ==>
      r.1[1] == Event(FailedEvent, Obj([("reason", JStr("exception")), ("error", nav.error)]))
    ensures hasEventBus && r.0.Ready? ==> r.1[1] == Event(CompletedEvent, r.0.navigation)
    ensures hasEventBus && CanLogin(identityEnabled) && nav.Navigated? && !r.0.Ready? ==>
      r.1[1] == Event(FailedEvent, Reason("missing" + "Navigation"))
  {
    if !CanLogin(identityEnabled) then
      (Disabled, if hasEventBus then [Event(FailedEvent, Reason("disabled"))] else [])
    else
      var requested := if hasEventBus then [Event(RequestedEvent, Obj([]))] else [];
      match nav
      case Navigated(value) =>
        if TruthyOpt(Prop(value, "url")) then
          (Ready(value.value), requested + if hasEventBus then [Event(CompletedEvent, value.value)] else [])
        else
          (Error(None), requested + if hasEventBus then [Event(FailedEvent, Reason("missing" + "Navigation"))] else [])
      case Threw(error) =>
        (Error(Some(error)), requested + if hasEventBus then [Event(FailedEvent, Obj([("reason", JStr("exception")), ("error", error)]))] else [])
  }

  /** With login disabled the adapter is never asked: the outcome does not depend on what it would have answered. */
  lemma DisabledIgnoresAdapter(identityEnabled: Option<Json>, hasEventBus: bool, nav1: Navigation, nav2: Navigation)
    requires !CanLogin(identityEnabled)
    ensures BeginLogin(identityEnabled, hasEventBus, nav1) == BeginLogin(identityEnabled, hasEventBus, nav2)
    ensures hasEventBus ==> BeginLogin(identityEnabled, hasEventBus, nav1).1 == [Event(FailedEvent, Reason("disabled"))]
  {
  }

  /** A navigation with a URL completes login with that very navigation, announced as completed. */
  lemma ReadyCarriesNavigation(identityEnabled: Option<Json>, url: string)
    requires CanLogin(identityEnabled) && url != ""
    ensures var navigation := Obj([("url", JStr(url))]);
      BeginLogin(identityEnabled, true, Navigated(Some(navigation)))
        == (Ready(navigation), [Event(RequestedEvent, Obj([])), Event(CompletedEvent, navigation)])
  {
    var navigation := Obj([("url", JStr(url))]);
    assert Prop(Some(navigation), "url") == Some(JStr(url));
    assert [Event(RequestedEvent, Obj([]))] + [Event(CompletedEvent, navigation)]
      == [Event(RequestedEvent, Obj([])), Event(CompletedEvent, navigation)];
  }

  /** A navigation with no URL, or none at all, fails the login as `missingNavigation`. */
  lemma MissingNavigationFails(identityEnabled: Option<Json>, value: Option<Json>)
    requires CanLogin(identityEnabled) && !TruthyOpt(Prop(value, "url"))
    ensures BeginLogin(identityEnabled, true, Navigated(value)).0 == Error(None)
    ensures BeginLogin(identityEnabled, true, Navigated(value)).1[1] == Event(FailedEvent, Reason("missing" + "Navigation"))
  {
  }
}

=== FILE: efbd.dfy ===
/**
 * `EfbdScaleBridgeService` (static bundle): forwards scale triggers and summary requests
 * to the EFBD adapter unless the feature is off, and announces successful answers.
 *
 * Whether an adapter is present and its answer are parameters (`None` for `undefined`);
 * the calls made to it and the events emitted are recorded.
 */
module EfbdBridge {
  import opened Wrappers
  import opened Json

  const UpdatedEvent: string := "EFBD_SCALE_" + "UPDATED"
  const SummaryLoadedEvent: string := "EFBD_SUMMARY_" + "LOADED"

  datatype Event = Event(name: string, payload: Json)

  /** What one call did: the value returned, what was sent to the adapter, and the events emitted. */
  datatype Outcome = Outcome(result: Option<Json>, sent: seq<Json>, events: seq<Event>)

  function Status(status: string): Json {
    Obj([("status", JStr(status))])
  }

  /** `featureFlags?.isEfbdScaleEnabled?.() === false`: only an explicit `false` switches the bridge off. */
  predicate SwitchedOff(enabled: Option<Json>) {
    enabled == Some(JBool(false))
  }

  /** `response?.status === 'ok'`. */
  predicate IsOk(response: Option<Json>) {
    Prop(response, "status") == Some(JStr("ok"))
  }

  /** `response?.payload ?? {}`. */
  function PayloadOf(response: Option<Json>): (p: Json)
    ensures !Nullish(Prop(response, "payload")) ==> Some(p) == Prop(response, "payload")
    ensures Nullish(Prop(response, "payload")) ==> p == Obj([])
  {
    var p := Prop(response, "payload");
    if Nullish(p) then Obj([]) else p.value
  }

  /** The event announcing an ok response; nothing for any other response. */
  function Announce(name: string, response: Option<Json>): (r: seq<Event>)
    ensures IsOk(response) <==> |r| == 1
    ensures IsOk(response) ==> r[0] == Event(name, PayloadOf(response))
    ensures !IsOk(response) ==> r == []
  {
    if IsOk(response) then [Event(name, PayloadOf(response))] else []
  }

  /** `!trigger || typeof trigger.axis !== 'string'` fails. */
  predicate HasStringAxis(trigger: Option<Json>) {
    TruthyOpt(trigger) && Prop(trigger, "axis").Some? && Prop(trigger, "axis").value.JStr?
  }

  /** `this.eventBus?.emit?.(name, response?.payload ?? {})` for an ok answer: nothing is emitted without a bus. */
  function Announced(hasEventBus: bool, name: string, response: Option<Json>): (r: seq<Event>)
    ensures r != [] <==> hasEventBus && IsOk(response)
    ensures r != [] ==> r == [Event(name, PayloadOf(response))]
  {
    if hasEventBus then Announce(name, response) else []
  }

  /**
   * `emitTrigger(trigger)`: `disabled`, `ignored` for a trigger without a string axis, or the
   * adapter's response; without an adapter (`this.adapter?.sendTrigger?.`) nothing is sent
   * and the result is `undefined`.
   */
  function EmitTrigger(enabled: Option<Json>, trigger: Option<Json>, hasAdapter: bool, hasEventBus: bool, response: Option<Json>): (r: Outcome)
    ensures SwitchedOff(enabled) ==> r == Outcome(Some(Status("disabled")), [], [])
    ensures !SwitchedOff(enabled) && !HasStringAxis(trigger) ==> r == Outcome(Some(Status("ignored")), [], [])
    ensures r.sent != [] <==> !SwitchedOff(enabled) && HasStringAxis(trigger) && hasAdapter
    ensures r.sent != [] ==> r.sent == [trigger.value] && r.result == response && r.events == Announced(hasEventBus, UpdatedEvent, response)
    ensures !SwitchedOff(enabled) && HasStringAxis(trigger) && !hasAdapter ==> r == Outcome(None, [], [])
    ensures !hasEventBus ==> r.events == []
  {
    if SwitchedOff(enabled) then Outcome(Some(Status("disabled")), [], [])
    else if !HasStringAxis(trigger) then Outcome(Some(Status("ignored")), [], [])
    else if !hasAdapter then Outcome(None, [], [])
    else Outcome(response, [trigger.value], Announced(hasEventBus, UpdatedEvent, response))
  }

  /**
   * `fetchSummary()`: `disabled`, or the adapter's summary response (`undefined` without an
   * adapter), announced when ok and a bus is present.
   */
  function FetchSummary(enabled: Option<Json>, hasEventBus: bool, response: Option<Json>): (r: (Option<Json>, seq<Event>))
    ensures SwitchedOff(enabled) ==> r == (Some(Status("disabled")), [])
    ensures !SwitchedOff(enabled) ==> r.0 == response && r.1 == Announced(hasEventBus, SummaryLoadedEvent, response)
    ensures !hasEventBus ==> r.1 == []
  {
    if SwitchedOff(enabled) then (Some(Status("disabled")), []) else (response, Announced(hasEventBus, SummaryLoadedEvent, response))
  }

  /** The answer `{ status, payload }` of the EFBD adapter. */
  function Answer(status: string, payload: Json): Json {
    Obj([("status", JStr(status)), ("payload", payload)])
  }

  lemma AnswerFields(status: string, payload: Json)
    ensures Prop(Some(Answer(status, payload)), "status") == Some(JStr(status))
    ensures Prop(Some(Answer(status, payload)), "payload") == Some(payload)
  {
    assert "payload"[0] != "status"[0];
    var fields := [("status", JStr(status)), ("payload", payload)];
    assert Lookup(fields[1..], "payload") == Some(payload);
  }

  /**
   * A trigger with a string axis reaches the adapter unchanged, and an ok answer carrying a
   * payload is announced with exactly that payload when there is a bus, and not at all otherwise.
   */
  lemma TriggerForwarded(trigger: Json, axis: string, payload: Json, hasEventBus: bool)
    requires trigger.JObj? && Lookup(trigger.fields, "axis") == Some(JStr(axis))
    requires payload != JNull
    ensures var response := Some(Answer("ok", payload));
      EmitTrigger(Some(JBool(true)), Some(trigger), true, hasEventBus, response)
        == Outcome(response, [trigger], if hasEventBus then [Event(UpdatedEvent, payload)] else [])
  {
    AnswerFields("ok", payload);
  }

  /**
   * The summary is returned as the adapter gave it: an ok summary is announced exactly once,
   * with its payload, when there is a bus; any other status is announced nowhere.
   */
  lemma SummaryAnnouncedOnce(status: string, payload: Json, hasEventBus: bool)
    requires payload != JNull
    ensures var response := Some(Answer(status, payload));
      FetchSummary(Some(JBool(true)), hasEventBus, response)
        == (response, if hasEventBus && status == "ok" then [Event(SummaryLoadedEvent, payload)] else [])
  {
    AnswerFields(status, payload);
  }

  /** Only an `ok` answer is announced; an error answer is returned as it is, silently. */
  lemma ErrorNotAnnounced(enabled: Option<Json>, trigger: Option<Json>, hasAdapter: bool, hasEventBus: bool)
    ensures EmitTrigger(enabled, trigger, hasAdapter, hasEventBus, Some(Status("error"))).events == []
  {
    assert "error" != "ok";
  }
}

/**
 * `EfbdScaleTriggerPort`: the mini-games' way to record an answer on the scale, through
 * the emitter the page provides.
 */
module TriggerPort {
  import opened Wrappers
  import opened Json
  import opened JsText

  /** The emitter call `emitScaleTrigger(axis, value, context)`. */
  datatype Call = Call(axis: string, value: Json, context: Json)

  /** What `recordAnswer` did: the value it resolved to (or the `TypeError` destructuring `null` throws) and the emitter call it made. */
  datatype Recorded = Returned(result: Json, call: Option<Call>) | DestructuringError

  function Status(status: string): Json {
    Obj([("status", JStr(status))])
  }

  /** `{ axis, value = 1, context = {} } = {}`: a default replaces `undefined` only. */
  function ValueOf(args: Option<Json>): (v: Json)
    ensures Prop(args, "value").Some? ==> v == Prop(args, "value").value
    ensures Prop(args, "value").None? ==> v == JNum(1)
  {
    Prop(args, "value").GetOr(JNum(1))
  }

  function ContextOf(args: Option<Json>): (c: Json)
    ensures Prop(args, "context").Some? ==> c == Prop(args, "context").value
    ensures Prop(args, "context").None? ==> c == Obj([])
  {
    Prop(args, "context").GetOr(Obj([]))
  }

  /**
   * `recordAnswer(args)`: `invalid` without a non-blank string axis, `unsupported` without
   * an emitter, otherwise what the emitter returned (`emitted`), with `{ status: 'error' }`
   * for a nullish answer.
   */
  function RecordAnswer(args: Option<Json>, hasEmitter: bool, emitted: Option<Json>): (r: Recorded)
    ensures args == Some(JNull) <==> r.DestructuringError?
    ensures args != Some(JNull) && !(Prop(args, "axis").Some? && Prop(args, "axis").value.JStr? && !AllWhitespace(Prop(args, "axis").value.s)) ==>
      r == Returned(Status("invalid"), None)
    ensures r.Returned? && r.call.Some? ==>
      && hasEmitter
      && r.call.value == Call(Prop(args, "axis").value.s, ValueOf(args), ContextOf(args))
      && (Nullish(emitted) ==> r.result == Status("error"))
      && (!Nullish(emitted) ==> r.result == emitted.value)
    ensures r.Returned? && r.call.None? ==> r.result == Status("invalid") || (r.result == Status("unsupported") && !hasEmitter)
    ensures args != Some(JNull) && Prop(args, "axis").Some? && Prop(args, "axis").value.JStr? && !AllWhitespace(Prop(args, "axis").value.s) ==>
      (r.Returned? && (r.call.Some? <==> hasEmitter) && (!hasEmitter ==> r.result == Status("unsupported")))
  {
    if args == Some(JNull) then DestructuringError
    else
      var axis := Prop(args, "axis");
      if axis.None? || !axis.value.JStr? || |Trim(axis.value.s)| == 0 then Returned(Status("invalid"), None)
      else if !hasEmitter then Returned(Status("unsupported"), None)
      else
        var call := Call(axis.value.s, ValueOf(args), ContextOf(args));
        Returned(if Nullish(emitted) then Status("error") else emitted.value, Some(call))
  }

  /** A valid answer reaches an available emitter exactly once, with its axis untouched (not trimmed). */
  lemma ValidAnswerForwarded(args: Option<Json>, emitted: Option<Json>)
    requires args != Some(JNull)
    requires Prop(args, "axis").Some? && Prop(args, "axis").value.JStr? && !AllWhitespace(Prop(args, "axis").value.s)
    ensures RecordAnswer(args, true, emitted).Returned?
    ensures RecordAnswer(args, true, emitted).call == Some(Call(Prop(args, "axis").value.s, ValueOf(args), ContextOf(args)))
  {
  }
}

=== FILE: event_bus.dfy ===
/**
 * `EventBus`: listeners kept per event name in registration order. A listener is
 * identified by the function object it is (`Listener`); what a listener does when
 * called is outside the bus, so `emit` yields the calls it makes, in order.
 */
module EventBus {
  import opened Wrappers
  import opened Json
  import opened Seqs

  datatype Listener = Listener(id: nat)

  datatype Bus = Bus(listeners: map<string, seq<Listener>>)

  /** The function `on` returns: a no-op, or `() => this.off(eventName, listener)`. */
  datatype Unsubscribe = Noop | OffCall(name: string, listener: Listener)

  /** One call `listener(payload)` made by `emit`. */
  datatype Delivery = Delivery(listener: Listener, payload: Json)

  function NewBus(): (b: Bus)
    ensures b.listeners == map[]
  {
    Bus(map[])
  }

  /** `this.listeners.get(eventName) ?? []`. */
  function Current(b: Bus, name: string): seq<Listener> {
    if name in b.listeners then b.listeners[name] else []
  }

  /**
   * `on(eventName, listener)`: an empty name or a value that is not a function (`None`)
   * registers nothing; otherwise the listener is appended, even if already present.
   */
  function On(b: Bus, name: string, listener: Option<Listener>): (r: (Bus, Unsubscribe))
    ensures name == "" || listener.None? ==> r == (b, Noop)
    ensures name != "" && listener.Some? ==>
      && r.0.listeners == b.listeners[name := Current(b, name) + [listener.value]]
      && r.1 == OffCall(name, listener.value)
  {
    if name == "" || listener.None? then (b, Noop)
    else (Bus(b.listeners[name := Current(b, name) + [listener.value]]), OffCall(name, listener.value))
  }

  /** `off(eventName, listener)`: every copy of the listener goes from that event's list; nothing else changes. */
  function Off(b: Bus, name: string, l: Listener): (r: Bus)
    ensures name !in b.listeners ==> r == b
    ensures name in b.listeners ==> r.listeners == b.listeners[name := Without(b.listeners[name], l)]
    ensures l !in Current(r, name)
  {
    if name !in b.listeners then b else Bus(b.listeners[name := Without(b.listeners[name], l)])
  }

  /** Calling the function `on` returned. */
  function Call(b: Bus, u: Unsubscribe): (r: Bus)
    ensures u.Noop? ==> r == b
    ensures u.OffCall? ==> r == Off(b, u.name, u.listener)
  {
    match u
    case Noop => b
    case OffCall(name, l) => Off(b, name, l)
  }

  /** `emit(eventName, payload)`: each listener of the event, in registration order, with the payload. */
  function Emit(b: Bus, name: string, payload: Json): (r: seq<Delivery>)
    ensures |r| == |Current(b, name)|
    ensures forall i :: 0 <= i < |r| ==> r[i] == Delivery(Current(b, name)[i], payload)
  {
    var current := Current(b, name);
    seq(|current|, i requires 0 <= i < |current| => Delivery(current[i], payload))
  }

  /** An event nobody listens to has no effect. */
  lemma EmitUnheard(b: Bus, name: string, payload: Json)
    requires name !in b.listeners
    ensures Emit(b, name, payload) == []
  {
  }

  /** Registering a listener adds exactly one call to its event's emits, at the end, and none to other events. */
  lemma OnThenEmit(b: Bus, name: string, l: Listener, other: string, payload: Json)
    requires name != ""
    ensures Emit(On(b, name, Some(l)).0, name, payload) == Emit(b, name, payload) + [Delivery(l, payload)]
    ensures other != name ==> Emit(On(b, name, Some(l)).0, other, payload) == Emit(b, other, payload)
  {
  }

  /** A listener registered twice is called twice. */
  lemma RegisteredTwiceCalledTwice(b: Bus, name: string, l: Listener, payload: Json)
    requires name != ""
    ensures var b2 := On(On(b, name, Some(l)).0, name, Some(l)).0;
      Emit(b2, name, payload) == Emit(b, name, payload) + [Delivery(l, payload), Delivery(l, payload)]
  {
  }

  /** A listener that was not yet registered for an event is fully removed by the unsubscribe `on` returns. */
  lemma UnsubscribeRestores(b: Bus, name: string, l: Listener, other: string, payload: Json)
    requires name != "" && l !in Current(b, name)
    ensures var (b1, u) := On(b, name, Some(l));
      Emit(Call(b1, u), other, payload) == Emit(b, other, payload)
  {
    var (b1, u) := On(b, name, Some(l));
    var b2 := Call(b1, u);
    if other == name {
      OffUndoesOn(b, name, l);
    } else {
      assert Current(b2, other) == Current(b, other);
    }
    EmitFollowsCurrent(b2, b, other, payload);
  }

  /** Removing a listener just appended to an event that lacked it gives back the event's old list. */
  lemma OffUndoesOn(b: Bus, name: string, l: Listener)
    requires l !in Current(b, name)
    ensures Current(Off(Bus(b.listeners[name := Current(b, name) + [l]]), name, l), name) == Current(b, name)
  {
    WithoutConcat(Current(b, name), [l], l);
    assert Without([l], l) == [];
  }

  /** What an emit delivers depends only on the event's current listeners. */
  lemma EmitFollowsCurrent(b: Bus, c: Bus, name: string, payload: Json)
    requires Current(b, name) == Current(c, name)
    ensures Emit(b, name, payload) == Emit(c, name, payload)
  {
  }

  /** Unsubscribing removes every registration of the listener for that event, including earlier ones. */
  lemma UnsubscribeRemovesAll(b: Bus, name: string, l: Listener, payload: Json)
    requires name != ""
    ensures var (b1, u) := On(b, name, Some(l));
      forall d :: d in Emit(Call(b1, u), name, payload) ==> d.listener != l
  {
  }

  /** Listeners registered on a fresh bus are called in the order they were registered. */
  lemma RegistrationOrder(name: string, a: Listener, c: Listener, payload: Json)
    requires name != ""
    ensures var b := On(On(NewBus(), name, Some(a)).0, name, Some(c)).0;
      Emit(b, name, payload) == [Delivery(a, payload), Delivery(c, payload)]
  {
  }
}

=== FILE: feature_flags.dfy ===
/**
 * `FeatureFlagService`: two switches, identity login and the EFBD scale, each on unless
 * configured otherwise.
 */
module FeatureFlags {
  import opened Wrappers
  import opened Json

  datatype Flags = Flags(identityCoreEnabled: bool, efbdScaleEnabled: bool)

  /** `Boolean(value ?? true)`: a missing or `null` setting switches the feature on. */
  function FlagFrom(v: Option<Json>): (b: bool)
    ensures Nullish(v) ==> b
    ensures !Nullish(v) ==> (b <==> Truthy(v.value))
  {
    if Nullish(v) then true else Truthy(v.value)
  }

  /**
   * `new FeatureFlagService(flags)`: each setting read as `flags.<name>`, with `{}` for a
   * missing argument; reading a property of `null` throws, which is `None` here.
   */
  function NewFlags(flags: Option<Json>): (f: Option<Flags>)
    ensures f.None? <==> flags == Some(JNull)
    ensures f.Some? ==> f.value.identityCoreEnabled == FlagFrom(Prop(flags, "identityCoreEnabled"))
    ensures f.Some? ==> f.value.efbdScaleEnabled == FlagFrom(Prop(flags, "efbdScaleEnabled"))
  {
    if flags == Some(JNull) then None
    else Some(Flags(FlagFrom(Prop(flags, "identityCoreEnabled")), FlagFrom(Prop(flags, "efbdScaleEnabled"))))
  }

  function EnableIdentity(f: Flags): (r: Flags)
    ensures r.identityCoreEnabled && r.efbdScaleEnabled == f.efbdScaleEnabled
  {
    f.(identityCoreEnabled := true)
  }

  function DisableIdentity(f: Flags): (r: Flags)
    ensures !r.identityCoreEnabled && r.efbdScaleEnabled == f.efbdScaleEnabled
  {
    f.(identityCoreEnabled := false)
  }

  function EnableEfbdScale(f: Flags): (r: Flags)
    ensures r.efbdScaleEnabled && r.identityCoreEnabled == f.identityCoreEnabled
  {
    f.(efbdScaleEnabled := true)
  }

  function DisableEfbdScale(f: Flags): (r: Flags)
    ensures !r.efbdScaleEnabled && r.identityCoreEnabled == f.identityCoreEnabled
  {
    f.(efbdScaleEnabled := false)
  }

  /**
   * `isIdentityEnabled()`, as the JSON value other services receive from it: always a
   * boolean, so a caller's `=== false` test is false exactly when the feature is on.
   */
  function IsIdentityEnabled(f: Flags): (r: Json)
    ensures r.JBool?
    ensures r == JBool(false) <==> !f.identityCoreEnabled
  {
    JBool(f.identityCoreEnabled)
  }

  /** `isEfbdScaleEnabled()`: always a boolean, `false` exactly when the scale is off. */
  function IsEfbdScaleEnabled(f: Flags): (r: Json)
    ensures r.JBool?
    ensures r == JBool(false) <==> !f.efbdScaleEnabled
  {
    JBool(f.efbdScaleEnabled)
  }

  /** What the queries answer is what the settings said, through `Boolean(x ?? true)`. */
  lemma QueriesFollowSettings(flags: Option<Json>)
    requires flags != Some(JNull)
    ensures var f := NewFlags(flags).value;
      && (IsIdentityEnabled(f) == JBool(false) <==> !Nullish(Prop(flags, "identityCoreEnabled")) && !Truthy(Prop(flags, "identityCoreEnabled").value))
      && (IsEfbdScaleEnabled(f) == JBool(false) <==> !Nullish(Prop(flags, "efbdScaleEnabled")) && !Truthy(Prop(flags, "efbdScaleEnabled").value))
  {
  }

  /** Without settings, both features are on. */
  lemma DefaultsOn()
    ensures NewFlags(None) == Some(Flags(true, true))
    ensures NewFlags(Some(Obj([]))) == Some(Flags(true, true))
  {
  }

  /** A setting given as `false` switches its feature off and leaves the other on. */
  lemma FalseSettingSwitchesOff(name: string)
    requires name == "identityCoreEnabled" || name == "efbdScaleEnabled"
    ensures var f := NewFlags(Some(Obj([(name, JBool(false))])));
      && f.Some?
      && f.value.identityCoreEnabled == (name != "identityCoreEnabled")
      && f.value.efbdScaleEnabled == (name != "efbdScaleEnabled")
  {
  }

  /** Switching a feature off and on again restores the flags, whatever they were. */
  lemma ToggleRestores(f: Flags)
    ensures f.identityCoreEnabled ==> EnableIdentity(DisableIdentity(f)) == f
    ensures f.efbdScaleEnabled ==> EnableEfbdScale(DisableEfbdScale(f)) == f
    ensures !f.identityCoreEnabled ==> DisableIdentity(EnableIdentity(f)) == f
    ensures !f.efbdScaleEnabled ==> DisableEfbdScale(EnableEfbdScale(f)) == f
  {
  }

  /** The two switches commute: the order of operations on different features does not matter. */
  lemma SwitchesCommute(f: Flags, identity: bool, efbd: bool)
    ensures var i := if identity then EnableIdentity else DisableIdentity;
      var e := if efbd then EnableEfbdScale else DisableEfbdScale;
      i(e(f)) == e(i(f)) && i(e(f)) == Flags(identity, efbd)
  {
  }
}

=== FILE: formurl.dfy ===
/**
 * `URLSearchParams` as the worker uses it: the `application/x-www-form-urlencoded`
 * serializer and parser of the WHATWG URL Standard (section 5), over a list of
 * name/value pairs.
 *
 * The parser works on characters rather than on the UTF-8 bytes of the query: the
 * characters it looks at (`&`, `=`, `+`, `%` and hex digits) are ASCII, and no byte
 * of a multi-byte UTF-8 sequence is ASCII, so both views split and decode alike.
 */
module FormUrlEncoded {
  import opened Bytes
  import opened Wrappers
  import opened JsText
  import Utf8

  type Params = seq<(string, string)>

  /** Bytes the serializer leaves as they are: `*`, `-`, `.`, digits, letters and `_`. */
  predicate IsUnreserved(b: byte) {
    b == 0x2A || b == 0x2D || b == 0x2E || (0x30 <= b <= 0x39) || (0x41 <= b <= 0x5A) || b == 0x5F || (0x61 <= b <= 0x7A)
  }

  function HexDigit(d: nat): (c: char)
    requires d < 16
    ensures IsHex(c) && HexValue(c) == d
  {
    if d < 10 then ('0' as int + d) as char else ('A' as int + d - 10) as char
  }

  predicate IsHex(c: char) {
    ('0' <= c <= '9') || ('A' <= c <= 'F') || ('a' <= c <= 'f')
  }

  function HexValue(c: char): (d: nat)
    requires IsHex(c)
    ensures d < 16
  {
    if '0' <= c <= '9' then c as int - '0' as int
    else if 'A' <= c <= 'F' then c as int - 'A' as int + 10
    else c as int - 'a' as int + 10
  }

  /** One byte of output: itself, `+` for a space, or `%` and two upper-case hex digits. */
  function EncodeByte(b: byte): (s: string)
    ensures 1 <= |s| <= 3
    ensures forall i :: 0 <= i < |s| ==> s[i] != '&' && s[i] != '='
  {
    if IsUnreserved(b) then [b as char]
    else if b == 0x20 then "+"
    else ['%', HexDigit(b / 16), HexDigit(b % 16)]
  }

  function EncodeBytes(bs: seq<byte>): (s: string)
    ensures !Contains(s, '&') && !Contains(s, '=')
    ensures |s| == 0 <==> |bs| == 0
  {
    if |bs| == 0 then "" else EncodeByte(bs[0]) + EncodeBytes(bs[1..])
  }

  /** The urlencoded byte serializer applied to the UTF-8 encoding of `s`. */
  function Encode(s: string): (r: string)
    ensures !Contains(r, '&') && !Contains(r, '=')
  {
    EncodeBytes(Utf8.Encode(s))
  }

  /** `+` read as a space, then percent-decoding; other characters stand for their UTF-8 bytes. */
  function PercentDecode(s: string): seq<byte>
    decreases |s|
  {
    if |s| == 0 then []
    else if s[0] == '%' && |s| >= 3 && IsHex(s[1]) && IsHex(s[2]) then
      [HexValue(s[1]) * 16 + HexValue(s[2])] + PercentDecode(s[3..])
    else if s[0] == '+' then [0x20] + PercentDecode(s[1..])
    else Utf8.EncodeChar(s[0]) + PercentDecode(s[1..])
  }

  /** A name or value as the parser yields it: UTF-8 decoding without byte-order-mark removal. */
  function Decode(s: string): string {
    Utf8.DecodeStream(PercentDecode(s))
  }

  lemma PercentDecodeByte(b: byte, rest: string)
    ensures PercentDecode(EncodeByte(b) + rest) == [b] + PercentDecode(rest)
  {
    var e := EncodeByte(b);
    if IsUnreserved(b) {
      assert (e + rest)[1..] == rest;
      assert Utf8.EncodeChar(b as char) == [b];
    } else if b == 0x20 {
      assert (e + rest)[1..] == rest;
    } else {
      assert (e + rest)[3..] == rest;
      assert HexValue(e[1]) * 16 + HexValue(e[2]) == b;
    }
  }

  lemma {:induction false} PercentDecodeEncodeBytes(bs: seq<byte>)
    ensures PercentDecode(EncodeBytes(bs)) == bs
    decreases |bs|
  {
    if |bs| > 0 {
      PercentDecodeByte(bs[0], EncodeBytes(bs[1..]));
      PercentDecodeEncodeBytes(bs[1..]);
      assert bs == [bs[0]] + bs[1..];
    }
  }

  /** Every string survives serialization and parsing as a name or a value. */
  lemma DecodeEncode(s: string)
    ensures Decode(Encode(s)) == s
  {
    PercentDecodeEncodeBytes(Utf8.Encode(s));
    Utf8.DecodeStreamEncode(s);
  }

  /** `URLSearchParams.prototype.toString`: `name=value` pairs joined with `&`. */
  function Serialize(ps: Params): string
    decreases |ps|
  {
    if |ps| == 0 then ""
    else
      var pair := Encode(ps[0].0) + "=" + Encode(ps[0].1);
      if |ps| == 1 then pair else pair + "&" + Serialize(ps[1..])
  }

  /** One `name=value` piece; without `=`, the whole piece is the name and the value is empty. */
  function ParsePair(piece: string): (string, string) {
    var name := UpTo(piece, '=');
    var value := if |name| == |piece| then "" else piece[|name| + 1..];
    (Decode(name), Decode(value))
  }

  /** The urlencoded parser: pieces between `&`, empty pieces skipped. */
  function Parse(q: string): Params
    decreases |q|
  {
    var piece := UpTo(q, '&');
    var head := if piece == "" then [] else [ParsePair(piece)];
    if |piece| == |q| then head else head + Parse(q[|piece| + 1..])
  }

  lemma ParsePairOf(n: string, v: string)
    ensures ParsePair(Encode(n) + "=" + Encode(v)) == (n, v)
  {
    var piece := Encode(n) + "=" + Encode(v);
    assert piece[..|Encode(n)|] == Encode(n);
    UpToNoChar(piece, Encode(n), '=');
    assert piece[|Encode(n)| + 1..] == Encode(v);
    DecodeEncode(n);
    DecodeEncode(v);
  }

  /** The serialized form of one pair: free of `&`, non-empty, and parsed back into the pair. */
  lemma PairShape(n: string, v: string)
    ensures var pair := Encode(n) + "=" + Encode(v);
      !Contains(pair, '&') && pair != "" && ParsePair(pair) == (n, v)
  {
    var pair := Encode(n) + "=" + Encode(v);
    assert pair == Encode(n) + ("=" + Encode(v));
    NoCharConcat("=", Encode(v), '&');
    NoCharConcat(Encode(n), "=" + Encode(v), '&');
    assert pair[|Encode(n)|] == '=';
    ParsePairOf(n, v);
  }

  lemma ParseSingle(pair: string)
    requires !Contains(pair, '&') && pair != ""
    ensures Parse(pair) == [ParsePair(pair)]
  {
    UpToNoChar(pair, pair, '&');
  }

  lemma ParseCons(pair: string, rest: string)
    requires !Contains(pair, '&') && pair != ""
    ensures Parse(pair + "&" + rest) == [ParsePair(pair)] + Parse(rest)
  {
    var q := pair + "&" + rest;
    assert q[..|pair|] == pair && q[|pair|] == '&';
    UpToNoChar(q, pair, '&');
    assert q[|pair| + 1..] == rest;
  }

  lemma FirstAndRest<T>(s: seq<T>)
    requires |s| > 0
    ensures [s[0]] + s[1..] == s
  {
  }

  /** Parsing what was serialized gives back the pairs. */
  lemma {:induction false} ParseSerialize(ps: Params)
    ensures Parse(Serialize(ps)) == ps
    decreases |ps|
  {
    if |ps| > 0 {
      var pair := Encode(ps[0].0) + "=" + Encode(ps[0].1);
      PairShape(ps[0].0, ps[0].1);
      if |ps| == 1 {
        ParseSingle(pair);
      } else {
        var rest := Serialize(ps[1..]);
        calc {
          Parse(Serialize(ps));
          Parse(pair + "&" + rest);
          { ParseCons(pair, rest); }
          [ParsePair(pair)] + Parse(rest);
          { ParseSerialize(ps[1..]); }
          [ps[0]] + ps[1..];
          { FirstAndRest(ps); }
          ps;
        }
      }
    }
  }

  /** `searchParams.get(name)`: the value of the first pair with that name, `null` without one. */
  function Get(ps: Params, name: string): Option<string> {
    if |ps| == 0 then None
    else if ps[0].0 == name then Some(ps[0].1)
    else Get(ps[1..], name)
  }

  /** `get` answers `null` exactly when no pair has the name, and otherwise the value of a pair with it. */
  lemma {:induction false} GetSpec(ps: Params, name: string)
    ensures Get(ps, name).None? <==> forall i :: 0 <= i < |ps| ==> ps[i].0 != name
    ensures Get(ps, name).Some? ==> exists i :: 0 <= i < |ps| && ps[i] == (name, Get(ps, name).value)
    decreases |ps|
  {
    if |ps| > 0 && ps[0].0 != name {
      GetSpec(ps[1..], name);
      if Get(ps, name).Some? {
        var i :| 0 <= i < |ps[1..]| && ps[1..][i] == (name, Get(ps, name).value);
        assert ps[i + 1] == (name, Get(ps, name).value);
      }
      if Get(ps, name).None? {
        forall i | 0 <= i < |ps|
          ensures ps[i].0 != name
        {
          if i > 0 {
            assert ps[i] == ps[1..][i - 1];
          }
        }
      }
    }
  }

  /** Every pair but those named `name`, in order. */
  function Remove(ps: Params, name: string): (r: Params)
    ensures forall i :: 0 <= i < |r| ==> r[i].0 != name
  {
    if |ps| == 0 then []
    else if ps[0].0 == name then Remove(ps[1..], name)
    else [ps[0]] + Remove(ps[1..], name)
  }

  /** Removing one name leaves `get` of every other name as it was. */
  lemma {:induction false} RemoveOther(ps: Params, name: string, k: string)
    requires k != name
    ensures Get(Remove(ps, name), k) == Get(ps, k)
    decreases |ps|
  {
    if |ps| > 0 {
      RemoveOther(ps[1..], name, k);
    }
  }

  /** `searchParams.set(name, value)`: replaces the first pair of that name and drops the rest, or appends. */
  function Set(ps: Params, name: string, value: string): Params {
    if |ps| == 0 then [(name, value)]
    else if ps[0].0 == name then [(name, value)] + Remove(ps[1..], name)
    else [ps[0]] + Set(ps[1..], name, value)
  }

  /** After `set`, `get` of that name gives the new value. */
  lemma {:induction false} SetThenGet(ps: Params, name: string, value: string)
    ensures Get(Set(ps, name, value), name) == Some(value)
    decreases |ps|
  {
    if |ps| > 0 && ps[0].0 != name {
      SetThenGet(ps[1..], name, value);
    }
  }

  /** `set` leaves `get` of every other name as it was. */
  lemma {:induction false} SetOther(ps: Params, name: string, value: string, k: string)
    requires k != name
    ensures Get(Set(ps, name, value), k) == Get(ps, k)
    decreases |ps|
  {
    if |ps| > 0 {
      if ps[0].0 == name {
        RemoveOther(ps[1..], name, k);
      } else {
        SetOther(ps[1..], name, value, k);
      }
    }
  }

  /** `set` of a name not yet present appends the pair at the end. */
  lemma {:induction false} SetFresh(ps: Params, name: string, value: string)
    requires forall i :: 0 <= i < |ps| ==> ps[i].0 != name
    ensures Set(ps, name, value) == ps + [(name, value)]
    decreases |ps|
  {
    if |ps| > 0 {
      assert ps[0].0 != name;
      SetFresh(ps[1..], name, value);
      assert ps == [ps[0]] + ps[1..];
    }
  }
}

=== FILE: json.dfy ===
/**
 * JavaScript values as they flow through the core: `null`, booleans, safe-integer
 * numbers, strings, arrays and plain objects (`undefined` is an absent `Option`).
 * `JSON.stringify`/`JSON.parse` are platform functions and enter the model as a
 * `JsonCodec` parameter together with the round-trip law they obey.
 */
module Json {
  import opened Wrappers
  import Decimal

  datatype Json =
    | JNull
    | JBool(b: bool)
    | JNum(n: int)
    | JStr(s: string)
    | JArr(items: seq<Json>)
    | JObj(fields: seq<(string, Json)>)

  const MaxSafeInteger: int := 0x1F_FFFF_FFFF_FFFF

  /** JavaScript's ToBoolean: `null`, `false`, `0` and `""` are falsy, everything else truthy. */
  predicate Truthy(v: Json) {
    match v
    case JNull => false
    case JBool(b) => b
    case JNum(n) => n != 0
    case JStr(s) => s != ""
    case _ => true
  }

  /** ToBoolean of a possibly-`undefined` value. */
  predicate TruthyOpt(v: Option<Json>) {
    v.Some? && Truthy(v.value)
  }

  /** `v ?? fallback` is taken for `undefined` and `null`. */
  predicate Nullish(v: Option<Json>) {
    v.None? || v.value.JNull?
  }

  function Keys(fields: seq<(string, Json)>): seq<string> {
    seq(|fields|, i requires 0 <= i < |fields| => fields[i].0)
  }

  /**
   * Values the JSON round trip preserves: numbers within the safe-integer range, and
   * objects with unique keys listed in the order a JavaScript object enumerates them.
   */
  predicate WellFormed(v: Json) {
    match v
    case JNum(n) => -MaxSafeInteger <= n <= MaxSafeInteger
    case JArr(items) => forall i :: 0 <= i < |items| ==> WellFormed(items[i])
    case JObj(fields) =>
      && DistinctKeys(fields)
      && InJsKeyOrder(fields)
      && (forall i :: 0 <= i < |fields| ==> WellFormed(fields[i].1))
    case _ => true
  }

  const MaxArrayIndex: nat := 0xFFFF_FFFE

  /** An array index (section 6.1.7 of ECMA-262): the canonical decimal text of an integer up to 2^32 - 2. */
  predicate IsArrayIndex(k: string) {
    && |k| > 0
    && Decimal.AllDigits(k)
    && (k[0] != '0' || |k| == 1)
    && Decimal.DigitsValue(k) <= MaxArrayIndex
  }

  /**
   * The order of an ordinary object's own keys (section 10.1.11.1 of ECMA-262): array
   * indices first, ascending, then the other keys in insertion order. `JSON.parse`
   * inserts keys in text order, so only lists in this order come back unchanged.
   */
  predicate InJsKeyOrder(fields: seq<(string, Json)>) {
    forall i, j :: 0 <= i < j < |fields| && IsArrayIndex(fields[j].0) ==>
      IsArrayIndex(fields[i].0) && Decimal.DigitsValue(fields[i].0) < Decimal.DigitsValue(fields[j].0)
  }

  /** A key whose first character is not a digit is never an array index. */
  lemma NotArrayIndex(k: string)
    requires |k| > 0 && !Decimal.IsDigit(k[0])
    ensures !IsArrayIndex(k)
  {
  }

  function Lookup(fields: seq<(string, Json)>, key: string): (r: Option<Json>)
    ensures r.None? <==> forall i :: 0 <= i < |fields| ==> fields[i].0 != key
    ensures r.Some? ==> exists i :: 0 <= i < |fields| && fields[i] == (key, r.value)
  {
    if |fields| == 0 then None
    else if fields[0].0 == key then Some(fields[0].1)
    else Lookup(fields[1..], key)
  }

  predicate DistinctKeys(fields: seq<(string, Json)>) {
    forall i, j :: 0 <= i < j < |fields| ==> fields[i].0 != fields[j].0
  }

  /** With distinct keys, a key is bound to the value stored next to it. */
  lemma LookupDistinct(fields: seq<(string, Json)>, i: int)
    requires DistinctKeys(fields) && 0 <= i < |fields|
    ensures Lookup(fields, fields[i].0) == Some(fields[i].1)
  {
    var r := Lookup(fields, fields[i].0);
    if r.Some? {
      var j :| 0 <= j < |fields| && fields[j] == (fields[i].0, r.value);
      assert j == i;
    }
  }

  /** A key is looked up in the first part, then in the second. */
  lemma {:induction false} LookupConcat(a: seq<(string, Json)>, b: seq<(string, Json)>, key: string)
    ensures Lookup(a + b, key) == if Lookup(a, key).Some? then Lookup(a, key) else Lookup(b, key)
    decreases |a|
  {
    if |a| == 0 {
      assert a + b == b;
    } else {
      assert (a + b)[1..] == a[1..] + b;
      LookupConcat(a[1..], b, key);
    }
  }

  /** The property read `v?.key`: `undefined` unless `v` is an object holding `key`. */
  function Prop(v: Option<Json>, key: string): Option<Json> {
    if v.Some? && v.value.JObj? then Lookup(v.value.fields, key) else None
  }

  /** A property of a well-formed value is well-formed. */
  lemma PropWellFormed(v: Json, key: string)
    requires WellFormed(v)
    ensures Prop(Some(v), key).Some? ==> WellFormed(Prop(Some(v), key).value)
  {
    if Prop(Some(v), key).Some? {
      var i :| 0 <= i < |v.fields| && v.fields[i] == (key, Prop(Some(v), key).value);
    }
  }

  /** An object literal's `key: value` after a spread: overwrites in place, or appends a new key. */
  function SetField(fields: seq<(string, Json)>, key: string, value: Json): (r: seq<(string, Json)>)
    ensures Lookup(r, key) == Some(value)
    ensures forall k :: k != key ==> Lookup(r, k) == Lookup(fields, k)
  {
    if |fields| == 0 then [(key, value)]
    else if fields[0].0 == key then [(key, value)] + fields[1..]
    else [fields[0]] + SetField(fields[1..], key, value)
  }

  function Obj(fields: seq<(string, Json)>): Json {
    JObj(fields)
  }

  /** The platform's `JSON.stringify` (for non-string values) and `JSON.parse` (`None` when it throws). */
  datatype JsonCodec = JsonCodec(stringify: Json -> string, parse: string -> Option<Json>)

  const ByteOrderMark: char := 0xFEFF as char

  /**
   * The round-trip law of the platform's JSON: parsing the text of a well-formed
   * non-string value yields that value, and that text never starts with a byte
   * order mark (it starts with `{`, `[`, a digit, `-`, `t`, `f` or `n`). Well-formed
   * objects list their keys as `JSON.parse` enumerates them, so the law is one the
   * platform's `JSON` obeys.
   */
  ghost predicate Lawful(c: JsonCodec) {
    forall v: Json {:trigger c.stringify(v)} :: WellFormed(v) && !v.JStr? ==>
      && c.parse(c.stringify(v)) == Some(v)
      && |c.stringify(v)| > 0
      && c.stringify(v)[0] != ByteOrderMark
  }

  /** `String(v)`, as a template literal converts a value. */
  function ToText(v: Json): string
    decreases v
  {
    match v
    case JNull => "null"
    case JBool(b) => if b then "true" else "false"
    case JNum(n) => Decimal.IntToString(n)
    case JStr(s) => s
    case JArr(items) => JoinText(items)
    case JObj(_) => "[object Object]"
  }

  /** `Array.prototype.join(',')`: `null` elements become empty. */
  function JoinText(items: seq<Json>): string
    decreases items
  {
    if |items| == 0 then ""
    else
      var first := if items[0].JNull? then "" else ToText(items[0]);
      if |items| == 1 then first else first + "," + JoinText(items[1..])
  }
}

=== FILE: jstext.dfy ===
/**
 * The JavaScript string operations the core relies on: `trim` (ECMAScript
 * WhiteSpace and LineTerminator code points), `includes`, and the global
 * `replace(/pattern/g, text)`.
 */
module JsText {

  /** ECMAScript WhiteSpace (TAB, VT, FF, SP, NBSP, ZWNBSP, Unicode Zs) and LineTerminator. */
  predicate IsJsWhitespace(c: char) {
    var n := c as int;
    || n == 0x09 || n == 0x0B || n == 0x0C || n == 0x20 || n == 0xA0 || n == 0xFEFF
    || n == 0x1680 || (0x2000 <= n <= 0x200A) || n == 0x202F || n == 0x205F || n == 0x3000
    || n == 0x0A || n == 0x0D || n == 0x2028 || n == 0x2029
  }

  predicate AllWhitespace(s: string) {
    forall i :: 0 <= i < |s| ==> IsJsWhitespace(s[i])
  }

  /** Drops the leading whitespace run: the result is the longest suffix not starting with whitespace. */
  function TrimStart(s: string): (r: string)
    ensures |r| <= |s| && r == s[|s| - |r|..]
    ensures AllWhitespace(s[..|s| - |r|])
    ensures |r| > 0 ==> !IsJsWhitespace(r[0])
    decreases |s|
  {
    if |s| > 0 && IsJsWhitespace(s[0]) then TrimStart(s[1..]) else s
  }

  /** Drops the trailing whitespace run: the result is the longest prefix not ending with whitespace. */
  function TrimEnd(s: string): (r: string)
    ensures |r| <= |s| && r == s[..|r|]
    ensures AllWhitespace(s[|r|..])
    ensures |r| > 0 ==> !IsJsWhitespace(r[|r| - 1])
    decreases |s|
  {
    if |s| > 0 && IsJsWhitespace(s[|s| - 1]) then TrimEnd(s[..|s| - 1]) else s
  }

  /** `s.trim()`: the middle of `s` left once whitespace runs at both ends are cut. */
  function Trim(s: string): (r: string)
    ensures exists a, b | 0 <= a <= b <= |s| ::
      r == s[a..b] && AllWhitespace(s[..a]) && AllWhitespace(s[b..])
    ensures |r| > 0 ==> !IsJsWhitespace(r[0]) && !IsJsWhitespace(r[|r| - 1])
    ensures r == "" <==> AllWhitespace(s)
  {
    var a := TrimStart(s);
    var e := TrimEnd(a);
    TrimCutsEnds(s, a, e);
    e
  }

  /** The two cuts `trim` makes: `e` sits in `s` between two whitespace runs. */
  lemma TrimCutsEnds(s: string, a: string, e: string)
    requires |a| <= |s| && a == s[|s| - |a|..] && AllWhitespace(s[..|s| - |a|])
    requires |e| <= |a| && e == a[..|e|] && AllWhitespace(a[|e|..])
    requires |e| > 0 ==> !IsJsWhitespace(e[0])
    ensures exists lo, hi | 0 <= lo <= hi <= |s| ::
      e == s[lo..hi] && AllWhitespace(s[..lo]) && AllWhitespace(s[hi..])
    ensures e == "" <==> AllWhitespace(s)
  {
    var lo := |s| - |a|;
    assert a[|e|..] == s[lo + |e|..];
    assert e == s[lo..lo + |e|];
    if e == "" {
      assert s == s[..lo] + a[|e|..];
    } else {
      assert s[lo] == e[0];
    }
  }

  lemma {:induction false} TrimStartPadded(w: string, x: string)
    requires AllWhitespace(w)
    requires |x| > 0 ==> !IsJsWhitespace(x[0])
    ensures TrimStart(w + x) == x
    decreases |w|
  {
    if |w| > 0 {
      assert (w + x)[0] == w[0];
      assert (w + x)[1..] == w[1..] + x;
      TrimStartPadded(w[1..], x);
    } else {
      assert w + x == x;
    }
  }

  lemma {:induction false} TrimEndPadded(x: string, w: string)
    requires AllWhitespace(w)
    requires |x| > 0 ==> !IsJsWhitespace(x[|x| - 1])
    ensures TrimEnd(x + w) == x
    decreases |w|
  {
    if |w| > 0 {
      assert (x + w)[|x + w| - 1] == w[|w| - 1];
      assert (x + w)[..|x + w| - 1] == x + w[..|w| - 1];
      TrimEndPadded(x, w[..|w| - 1]);
    } else {
      assert x + w == x;
    }
  }

  /** Whitespace put around a text without outer whitespace is exactly what `trim` removes. */
  lemma TrimOfPadded(w1: string, core: string, w2: string)
    requires AllWhitespace(w1) && AllWhitespace(w2)
    requires |core| > 0 ==> !IsJsWhitespace(core[0]) && !IsJsWhitespace(core[|core| - 1])
    ensures Trim(w1 + core + w2) == core
  {
    if |core| == 0 {
      var s := w1 + core + w2;
      assert AllWhitespace(s) by {
        forall i | 0 <= i < |s| ensures IsJsWhitespace(s[i]) {
          if i >= |w1| { assert s[i] == w2[i - |w1|]; }
        }
      }
    } else {
      assert w1 + core + w2 == w1 + (core + w2);
      TrimStartPadded(w1, core + w2);
      TrimEndPadded(core, w2);
    }
  }

  /** Trimming text that has no outer whitespace leaves it unchanged, so `trim` is idempotent. */
  lemma TrimIdempotent(s: string)
    ensures Trim(Trim(s)) == Trim(s)
  {
    var t := Trim(s);
    assert TrimStart(t) == t;
    assert TrimEnd(t) == t;
  }

  predicate HasPrefix(s: string, p: string) {
    |p| <= |s| && s[..|p|] == p
  }

  /** `p` occurs in `s` starting at position `i`. */
  predicate OccursAt(s: string, p: string, i: int) {
    0 <= i && i + |p| <= |s| && s[i..i + |p|] == p
  }

  /** `s.includes(p)`: `p` occurs at some position of `s`. */
  predicate Includes(s: string, p: string) {
    exists i | 0 <= i <= |s| - |p| :: OccursAt(s, p, i)
  }

  predicate NoCommonChar(a: string, b: string) {
    forall i, j :: 0 <= i < |a| && 0 <= j < |b| ==> a[i] != b[j]
  }

  /**
   * `s.replace(new RegExp(p, 'g'), r)` for a literal pattern: a left-to-right scan that
   * replaces each non-overlapping occurrence of `p`.
   */
  function ReplaceAll(s: string, p: string, r: string): string
    requires |p| > 0
    decreases |s|
  {
    if |s| < |p| then s
    else if s[..|p|] == p then r + ReplaceAll(s[|p|..], p, r)
    else [s[0]] + ReplaceAll(s[1..], p, r)
  }

  /** Without any occurrence of the pattern, replacing leaves the text unchanged. */
  lemma {:induction false} ReplaceAllAbsent(s: string, p: string, r: string)
    requires |p| > 0
    requires !Includes(s, p)
    ensures ReplaceAll(s, p, r) == s
    decreases |s|
  {
    if |s| >= |p| {
      assert !OccursAt(s, p, 0);
      assert !Includes(s[1..], p) by {
        forall i | 0 <= i <= |s[1..]| - |p|
          ensures !OccursAt(s[1..], p, i)
        {
          assert s[1..][i..i + |p|] == s[i + 1..i + 1 + |p|];
          assert !OccursAt(s, p, i + 1);
        }
      }
      ReplaceAllAbsent(s[1..], p, r);
    }
  }

  /** Replacing in `a + rest` when no occurrence starts inside `a` leaves `a` as it is. */
  lemma {:induction false} ReplaceAllAfterPrefix(a: string, rest: string, p: string, r: string)
    requires |p| > 0
    requires forall i | 0 <= i < |a| :: !OccursAt(a + rest, p, i)
    ensures ReplaceAll(a + rest, p, r) == a + ReplaceAll(rest, p, r)
    decreases |a|
  {
    var s := a + rest;
    if |a| > 0 {
      if |s| < |p| {
        assert ReplaceAll(rest, p, r) == rest;
      } else {
        assert !OccursAt(s, p, 0);
        var t := a[1..] + rest;
        assert t == s[1..];
        forall i | 0 <= i < |a| - 1
          ensures !OccursAt(t, p, i)
        {
          assert !OccursAt(s, p, i + 1);
          if i + |p| <= |t| {
            assert t[i..i + |p|] == s[i + 1..i + 1 + |p|];
          }
        }
        ReplaceAllAfterPrefix(a[1..], rest, p, r);
        assert ReplaceAll(s, p, r) == [s[0]] + ReplaceAll(t, p, r);
        assert a == [a[0]] + a[1..];
      }
    } else {
      assert s == rest;
    }
  }

  /**
   * A text holding the pattern exactly once, at the end of `a`, has that one
   * occurrence replaced and everything around it kept.
   */
  lemma ReplaceAllOnce(a: string, p: string, b: string, r: string)
    requires |p| > 0
    requires forall i | 0 <= i < |a| :: !OccursAt(a + p + b, p, i)
    requires !Includes(b, p)
    ensures ReplaceAll(a + p + b, p, r) == a + r + b
  {
    var t := p + b;
    assert a + p + b == a + t;
    ReplaceAllAfterPrefix(a, t, p, r);
    ReplaceAllLeading(p, b, r);
  }

  lemma ReplaceAllLeading(p: string, b: string, r: string)
    requires |p| > 0
    requires !Includes(b, p)
    ensures ReplaceAll(p + b, p, r) == r + b
  {
    assert (p + b)[..|p|] == p && (p + b)[|p|..] == b;
    ReplaceAllAbsent(b, p, r);
  }

  lemma FirstCharOfPrefix(a: string, q: string)
    ensures HasPrefix(a, q) && |q| > 0 ==> q[0] == a[0]
  {
    if HasPrefix(a, q) && |q| > 0 {
      assert q[0] == a[..|q|][0];
    }
  }

  lemma ReplaceAllHead(s: string, p: string, r: string)
    ensures |p| > 0 && |r| > 0 && HasPrefix(s, p) ==> ReplaceAll(s, p, r)[0] == r[0]
  {
  }

  /**
   * A prefix of the replaced text made only of characters foreign to a non-empty
   * replacement was already a prefix of the original.
   */
  lemma {:induction false} ReplacePrefixPreserved(s: string, p: string, r: string, q: string)
    requires |p| > 0 && |r| > 0
    requires NoCommonChar(q, r)
    requires HasPrefix(ReplaceAll(s, p, r), q)
    ensures HasPrefix(s, q)
    decreases |s|
  {
    var out := ReplaceAll(s, p, r);
    if |q| == 0 {
    } else if |s| < |p| {
    } else if s[..|p|] == p {
      FirstCharOfPrefix(out, q);
      ReplaceAllHead(s, p, r);
      assert false;
    } else {
      assert out == [s[0]] + ReplaceAll(s[1..], p, r);
      var rest := ReplaceAll(s[1..], p, r);
      assert out[1..|q|] == rest[..|q| - 1];
      assert q[1..] == rest[..|q| - 1];
      ReplacePrefixPreserved(s[1..], p, r, q[1..]);
      assert q == [s[0]] + q[1..];
    }
  }

  /**
   * When the replacement is non-empty and shares no character with the pattern, no
   * occurrence of the pattern survives: every occurrence was replaced.
   */
  lemma {:induction false} ReplaceAllRemovesPattern(s: string, p: string, r: string)
    requires |p| > 0 && |r| > 0
    requires NoCommonChar(p, r)
    ensures !Includes(ReplaceAll(s, p, r), p)
    decreases |s|
  {
    var out := ReplaceAll(s, p, r);
    if |s| < |p| {
      assert out == s;
    } else if s[..|p|] == p {
      var rest := ReplaceAll(s[|p|..], p, r);
      assert out == r + rest;
      ReplaceAllRemovesPattern(s[|p|..], p, r);
      forall i | 0 <= i <= |out| - |p|
        ensures !OccursAt(out, p, i)
      {
        if i < |r| {
          assert out[i..i + |p|][0] == r[i];
        } else {
          assert out[i..i + |p|] == rest[i - |r|..i - |r| + |p|];
          assert !OccursAt(rest, p, i - |r|);
        }
      }
    } else {
      var rest := ReplaceAll(s[1..], p, r);
      assert out == [s[0]] + rest;
      ReplaceAllRemovesPattern(s[1..], p, r);
      forall i | 0 <= i <= |out| - |p|
        ensures !OccursAt(out, p, i)
      {
        if i == 0 {
          if out[..|p|] == p {
            assert HasPrefix(rest, p[1..]) by {
              assert rest[..|p| - 1] == out[1..|p|];
            }
            assert NoCommonChar(p[1..], r);
            ReplacePrefixPreserved(s[1..], p, r, p[1..]);
          }
        } else {
          assert out[i..i + |p|] == rest[i - 1..i - 1 + |p|];
          assert !OccursAt(rest, p, i - 1);
        }
      }
    }
  }

  /** `s.includes(c)` for a single character. */
  predicate Contains(s: string, c: char) {
    exists i :: 0 <= i < |s| && s[i] == c
  }

  /** The longest prefix of `s` without the character `c`. */
  function UpTo(s: string, c: char): (r: string)
    ensures |r| <= |s| && r == s[..|r|]
    ensures !Contains(r, c)
    ensures |r| < |s| ==> s[|r|] == c
    decreases |s|
  {
    if |s| == 0 || s[0] == c then "" else [s[0]] + UpTo(s[1..], c)
  }

  /** The prefix before the first `c` is `a` when `a` lacks `c` and is followed by `c` or the end. */
  lemma UpToNoChar(s: string, a: string, c: char)
    requires !Contains(a, c)
    requires s == a || (|s| > |a| && s[..|a|] == a && s[|a|] == c)
    ensures UpTo(s, c) == a
    decreases |s|
  {
    if |a| > 0 {
      assert s[0] == a[0];
      if s == a {
        UpToNoChar(s[1..], a[1..], c);
      } else {
        assert s[1..][..|a| - 1] == a[1..];
        UpToNoChar(s[1..], a[1..], c);
      }
    }
  }

  lemma NoCharConcat(a: string, b: string, c: char)
    requires !Contains(a, c) && !Contains(b, c)
    ensures !Contains(a + b, c)
  {
  }

  /**
   * One character of `toLowerCase()` as far as ASCII results go: `A`-`Z` and the
   * Kelvin sign (U+212A, lower-cased to `k`) map to ASCII letters; every other
   * character is left as it is. No other character lower-cases to an ASCII letter
   * except U+0130, whose lower-case form is two characters starting with `i`.
   */
  function LowerChar(c: char): (r: char)
    ensures 'a' <= r <= 'z' && r != 'i' ==> ('a' <= c <= 'z') || ('A' <= c <= 'Z') || c == 0x212A as char
  {
    if 'A' <= c <= 'Z' then (c as int + 32) as char
    else if c == 0x212A as char then 'k'
    else c
  }

  /** `s.toLowerCase()`, exact for comparisons against lower-case ASCII words without `i`. */
  function LowerCase(s: string): (r: string)
    ensures |r| == |s|
    ensures forall i :: 0 <= i < |s| ==> r[i] == LowerChar(s[i])
  {
    seq(|s|, i requires 0 <= i < |s| => LowerChar(s[i]))
  }
}

=== FILE: minigame.dfy ===
/**
 * `MiniGameLauncher`: per mini-game root, whether the game or its fallback is shown,
 * driven by the visitor's auth status, and the one-time start of the game.
 *
 * Roots and scale ports are identified by the objects they are (`Root`, `Port`). Finding
 * a root's mount and fallback, loading the game's module and running its initializer
 * are parameters; the loads the launcher starts are recorded. Each asynchronous
 * `renderGame` is taken to run to completion before the next call.
 */
module MiniGame {
  import opened Wrappers
  import opened Json
  import opened JsText

  type Root = nat
  type Port = nat

  predicate IsQuote(c: char) {
    c == '\'' || c == '"'
  }

  /** `s.replace(/^['"]+/, '')`: the longest suffix not starting with a quote. */
  function StripLeadingQuotes(s: string): (r: string)
    ensures |r| <= |s| && r == s[|s| - |r|..]
    ensures forall i :: 0 <= i < |s| - |r| ==> IsQuote(s[i])
    ensures |r| > 0 ==> !IsQuote(r[0])
    decreases |s|
  {
    if |s| > 0 && IsQuote(s[0]) then StripLeadingQuotes(s[1..]) else s
  }

  /** `s.replace(/['"]+$/, '')`: the longest prefix not ending with a quote. */
  function StripTrailingQuotes(s: string): (r: string)
    ensures |r| <= |s| && r == s[..|r|]
    ensures forall i :: |r| <= i < |s| ==> IsQuote(s[i])
    ensures |r| > 0 ==> !IsQuote(r[|r| - 1])
    decreases |s|
  {
    if |s| > 0 && IsQuote(s[|s| - 1]) then StripTrailingQuotes(s[..|s| - 1]) else s
  }

  /**
   * `normalizeRootId(rawId)`: `''` for a value that is not a string; otherwise trimmed,
   * then stripped of the quotes around it, so it neither starts nor ends with a quote.
   */
  function NormalizeRootId(raw: Option<Json>): (r: string)
    ensures !(raw.Some? && raw.value.JStr?) ==> r == ""
    ensures raw.Some? && raw.value.JStr? ==> var t := Trim(raw.value.s);
      exists a, b | 0 <= a <= b <= |t| :: r == t[a..b] && AllQuotes(t[..a]) && AllQuotes(t[b..])
    ensures |r| > 0 ==> !IsQuote(r[0]) && !IsQuote(r[|r| - 1])
  {
    if raw.Some? && raw.value.JStr? then
      var t := Trim(raw.value.s);
      var a := StripLeadingQuotes(t);
      var e := StripTrailingQuotes(a);
      QuotesCut(t, a, e);
      e
    else ""
  }

  predicate AllQuotes(s: string) {
    forall i :: 0 <= i < |s| ==> IsQuote(s[i])
  }

  /** The two cuts of quotes: `e` sits in `t` between two runs of quotes. */
  lemma QuotesCut(t: string, a: string, e: string)
    requires |a| <= |t| && a == t[|t| - |a|..] && forall i :: 0 <= i < |t| - |a| ==> IsQuote(t[i])
    requires |e| <= |a| && e == a[..|e|] && forall i :: |e| <= i < |a| ==> IsQuote(a[i])
    ensures exists lo, hi | 0 <= lo <= hi <= |t| :: e == t[lo..hi] && AllQuotes(t[..lo]) && AllQuotes(t[hi..])
  {
    var lo := |t| - |a|;
    assert e == t[lo..lo + |e|];
    var tail := t[lo + |e|..];
    forall i | 0 <= i < |tail| ensures IsQuote(tail[i]) {
      assert tail[i] == a[|e| + i];
    }
  }

  function Quotes(n: nat): (q: string)
    ensures |q| == n && forall i :: 0 <= i < n ==> q[i] == '"'
  {
    if n == 0 then "" else Quotes(n - 1) + "\""
  }

  /** An id quoted any number of times on either side (as a template may render it) comes back bare. */
  lemma QuotedIdUnwrapped(id: string, n: nat, m: nat)
    requires |id| > 0 && !IsQuote(id[0]) && !IsQuote(id[|id| - 1])
    requires !IsJsWhitespace(id[0]) && !IsJsWhitespace(id[|id| - 1])
    ensures NormalizeRootId(Some(JStr(Quotes(n) + id + Quotes(m)))) == id
  {
    var s := Quotes(n) + id + Quotes(m);
    QuotedNotTrimmed(id, n, m);
    LeadingQuotesStripped(id, n, m);
    StripTrailingIs(id + Quotes(m), m, id);
    StringRootId(s);
  }

  lemma QuotedNotTrimmed(id: string, n: nat, m: nat)
    requires |id| > 0 && !IsJsWhitespace(id[0]) && !IsJsWhitespace(id[|id| - 1])
    ensures Trim(Quotes(n) + id + Quotes(m)) == Quotes(n) + id + Quotes(m)
  {
    QuotedEnds(id, n, m);
    NotTrimmed(Quotes(n) + id + Quotes(m));
  }

  lemma LeadingQuotesStripped(id: string, n: nat, m: nat)
    requires |id| > 0 && !IsQuote(id[0])
    ensures StripLeadingQuotes(Quotes(n) + id + Quotes(m)) == id + Quotes(m)
  {
    Regroup(Quotes(n), id, Quotes(m));
    StripLeadingIs(Quotes(n) + id + Quotes(m), n, id + Quotes(m));
  }

  lemma StringRootId(t: string)
    ensures NormalizeRootId(Some(JStr(t))) == StripTrailingQuotes(StripLeadingQuotes(Trim(t)))
  {
  }

  lemma Regroup(a: string, b: string, c: string)
    ensures a + b + c == a + (b + c)
  {
  }

  lemma QuotedEnds(id: string, n: nat, m: nat)
    requires |id| > 0 && !IsJsWhitespace(id[0]) && !IsJsWhitespace(id[|id| - 1])
    ensures var s := Quotes(n) + id + Quotes(m);
      !IsJsWhitespace(s[0]) && !IsJsWhitespace(s[|s| - 1])
  {
    var s := Quotes(n) + id + Quotes(m);
    assert s[0] == if n > 0 then Quotes(n)[0] else id[0];
    if m > 0 {
      assert s[|s| - 1] == Quotes(m)[m - 1];
    } else {
      assert s[|s| - 1] == id[|id| - 1];
    }
  }

  /** Text with no whitespace at either end is left alone by `trim`. */
  lemma NotTrimmed(s: string)
    requires |s| > 0 && !IsJsWhitespace(s[0]) && !IsJsWhitespace(s[|s| - 1])
    ensures Trim(s) == s
  {
    assert TrimStart(s) == s;
    assert TrimEnd(s) == s;
  }

  lemma {:induction false} StripLeadingIs(s: string, n: nat, rest: string)
    requires s == Quotes(n) + rest && |rest| > 0 && !IsQuote(rest[0])
    ensures StripLeadingQuotes(s) == rest
  {
    if n == 0 {
      assert s == rest;
    } else {
      assert s[0] == '"';
      assert s[1..] == Quotes(n - 1) + rest;
      StripLeadingIs(s[1..], n - 1, rest);
    }
  }

  lemma {:induction false} StripTrailingIs(s: string, m: nat, rest: string)
    requires s == rest + Quotes(m) && |rest| > 0 && !IsQuote(rest[|rest| - 1])
    ensures StripTrailingQuotes(s) == rest
  {
    if m == 0 {
      assert s == rest;
    } else {
      assert s[|s| - 1] == '"';
      assert s[..|s| - 1] == rest + Quotes(m - 1);
      StripTrailingIs(s[..|s| - 1], m - 1, rest);
    }
  }

  /** The part of a registration the launcher acts on: the raw root id and the scale port (`None` when falsy). */
  datatype Config = Config(rootId: Option<Json>, scalePort: Option<Port>)

  /** What is shown for a root: nothing done yet, the fallback (mount hidden), or the game (fallback hidden). */
  datatype Display = Untouched | FallbackShown | GameShown

  datatype RootState = RootState(initialized: bool, config: Config, hasMount: bool, hasFallback: bool, subscription: Option<nat>)

  /** The auth visibility port: absent, or present with or without an `onChange` that returns an unsubscribe. */
  datatype AuthPort = NoAuthPort | AuthPort(canSubscribe: bool)

  datatype Launcher = Launcher(
    authPort: AuthPort,
    scalePort: Option<Port>,
    states: map<Root, RootState>,
    display: map<Root, Display>,
    nextSubscription: nat,
    unsubscribed: seq<nat>,
    loads: seq<Root>)

  function NewLauncher(authPort: AuthPort, scalePort: Option<Port>): (l: Launcher)
    ensures l.states == map[] && l.loads == [] && l.unsubscribed == []
  {
    Launcher(authPort, scalePort, map[], map[], 0, [], [])
  }

  /** How loading and starting the game went. */
  datatype GameLoad =
    | LoadThrew            // `loadScriptModule` rejected
    | NoModule             // it resolved to nothing
    | NoInitializer        // neither `default` nor `initEfbdPoll` is a function
    | InitializerThrew
    | Initialized(result: Json)

  /** `renderFallback(root)`: hides the mount and shows the fallback of a known root. */
  function RenderFallback(l: Launcher, root: Root): (r: Launcher)
    ensures root !in l.states ==> r == l
    ensures root in l.states ==> r == l.(display := l.display[root := FallbackShown])
  {
    if root !in l.states then l else l.(display := l.display[root := FallbackShown])
  }

  /**
   * `renderGame(root)`: nothing for an unknown, already started or mountless root;
   * otherwise loads the game and starts it, showing it and marking the root started
   * unless loading or starting fails or the initializer answers `false`.
   */
  function RenderGame(l: Launcher, root: Root, load: GameLoad): (r: Launcher)
    ensures root !in l.states || l.states[root].initialized || !l.states[root].hasMount ==> r == l
    ensures root in l.states && !l.states[root].initialized && l.states[root].hasMount ==>
      && r.loads == l.loads + [root]
      && root in r.states && root in r.display
      && (r.states[root].initialized <==> load.Initialized? && load.result != JBool(false))
      && (r.display[root] == GameShown <==> r.states[root].initialized)
      && r.states == l.states[root := r.states[root]]
      && r.states[root] == l.states[root].(initialized := r.states[root].initialized)
  {
    if root !in l.states || l.states[root].initialized || !l.states[root].hasMount then l
    else
      var started := l.(loads := l.loads + [root]);
      if load.Initialized? && load.result != JBool(false) then
        started.(states := l.states[root := l.states[root].(initialized := true)], display := l.display[root := GameShown])
      else RenderFallback(started, root)
  }

  /** `visibility?.status || 'pending'`. */
  function StatusOf(status: Option<Json>): Json {
    if TruthyOpt(status) then status.value else JStr("pending")
  }

  /**
   * `applyVisibility(root, visibility)`: the game for `authenticated`, the fallback for any
   * other status (a missing one reads as `pending`). Only the `authenticated` status loads
   * anything, and then at most this root once; the registrations are kept.
   */
  function ApplyVisibility(l: Launcher, root: Root, status: Option<Json>, load: GameLoad): (r: Launcher)
    ensures StatusOf(status) == JStr("authenticated") ==> r == RenderGame(l, root, load)
    ensures StatusOf(status) != JStr("authenticated") ==> r == RenderFallback(l, root)
    ensures r.loads == l.loads || (StatusOf(status) == JStr("authenticated") && r.loads == l.loads + [root])
    ensures r.states.Keys == l.states.Keys
    ensures StatusOf(status) != JStr("authenticated") ==>
      && r.states == l.states && r.loads == l.loads
      && (root in l.states ==> root in r.display && r.display[root] == FallbackShown)
  {
    if StatusOf(status) == JStr("authenticated") then RenderGame(l, root, load) else RenderFallback(l, root)
  }

  /** `bindAuth(root)`: applies the current snapshot's status, then subscribes to changes. */
  function BindAuth(l: Launcher, root: Root, status: Option<Json>, load: GameLoad): (r: Launcher)
    requires root in l.states
    ensures root in r.states
    ensures l.authPort.NoAuthPort? ==> r == RenderFallback(l, root)
    ensures l.authPort.AuthPort? && l.authPort.canSubscribe ==>
      r.states[root].subscription == Some(l.nextSubscription) && r.nextSubscription == l.nextSubscription + 1
    ensures l.authPort.AuthPort? ==> r.loads == ApplyVisibility(l, root, status, load).loads
    ensures l.authPort.AuthPort? ==>
      && r.display == ApplyVisibility(l, root, status, load).display
      && r.states[root].initialized == ApplyVisibility(l, root, status, load).states[root].initialized
  {
    if l.authPort.NoAuthPort? then RenderFallback(l, root)
    else
      var applied := ApplyVisibility(l, root, status, load);
      if !l.authPort.canSubscribe then applied
      else
        var s := applied.states[root].(subscription := Some(applied.nextSubscription));
        applied.(states := applied.states[root := s], nextSubscription := applied.nextSubscription + 1)
  }

  /**
   * `register(config)`: `root` is the element found for the config (`None` when there is
   * none), `hasMount`/`hasFallback` what its queries found, `status` the auth snapshot's
   * status. A previous registration of the same root is unsubscribed and replaced by a
   * fresh, not yet started one whose scale port falls back to the launcher's.
   */
  function Register(l: Launcher, config: Config, root: Option<Root>, hasMount: bool, hasFallback: bool,
                    status: Option<Json>, load: GameLoad): (r: Launcher)
    ensures root.None? ==> r == l
    ensures root.Some? ==> (
      && root.value in r.states
      && r.states[root.value].config == config.(scalePort := if config.scalePort.Some? then config.scalePort else l.scalePort))
  {
    if root.None? then l
    else
      var rt := root.value;
      var unsubscribed := if rt in l.states && l.states[rt].subscription.Some? then l.unsubscribed + [l.states[rt].subscription.value] else l.unsubscribed;
      var cfg := config.(scalePort := if config.scalePort.Some? then config.scalePort else l.scalePort);
      var registered := l.(states := l.states[rt := RootState(false, cfg, hasMount, hasFallback, None)], unsubscribed := unsubscribed);
      BindAuth(registered, rt, status, load)
  }

  /** A status change delivered to a root through the subscription `bindAuth` made. */
  function OnChange(l: Launcher, root: Root, status: Option<Json>, load: GameLoad): (r: Launcher)
    ensures !(root in l.states && l.states[root].subscription.Some?) ==> r == l
  {
    if root in l.states && l.states[root].subscription.Some? then ApplyVisibility(l, root, status, load) else l
  }

  /**
   * `setScalePort(scalePort)`: a falsy port changes nothing; otherwise it becomes the
   * launcher's port and replaces the port of every registration that had none or had the
   * previous one, leaving explicitly configured other ports alone.
   */
  function SetScalePort(l: Launcher, port: Option<Port>): (r: Launcher)
    ensures port.None? ==> r == l
    ensures port.Some? ==> r.scalePort == port && r.states.Keys == l.states.Keys
    ensures port.Some? ==> forall rt :: rt in l.states ==>
      r.states[rt].config.scalePort ==
        (if l.states[rt].config.scalePort.None? || l.states[rt].config.scalePort == l.scalePort then port
         else l.states[rt].config.scalePort)
  {
    if port.None? then l
    else
      var states := map rt | rt in l.states ::
        var s := l.states[rt];
        if s.config.scalePort.None? || s.config.scalePort == l.scalePort then s.(config := s.config.(scalePort := port)) else s;
      l.(scalePort := port, states := states)
  }

  /** Any status other than `authenticated` shows the fallback of a registered root and loads nothing. */
  lemma OnlyAuthenticatedLoads(l: Launcher, root: Root, status: Option<Json>, load: GameLoad)
    requires root in l.states && StatusOf(status) != JStr("authenticated")
    ensures var r := ApplyVisibility(l, root, status, load);
      r.loads == l.loads && r.display[root] == FallbackShown && r.states == l.states
  {
  }

  /**
   * After a completed start, later renders do nothing. Renders are taken to run one after
   * another, so this says nothing about two renders of one root in flight at once.
   */
  lemma StartsOnce(l: Launcher, root: Root, load: GameLoad, load2: GameLoad)
    requires root in l.states && l.states[root].hasMount && !l.states[root].initialized
    requires load.Initialized? && load.result != JBool(false)
    ensures var r := RenderGame(l, root, load);
      r.states[root].initialized && RenderGame(r, root, load2) == r
  {
  }

  /** A failed start leaves the root unstarted with its fallback shown, so a later status change tries again. */
  lemma FailureAllowsRetry(l: Launcher, root: Root, load: GameLoad)
    requires root in l.states && l.states[root].hasMount && !l.states[root].initialized
    requires !(load.Initialized? && load.result != JBool(false))
    ensures var r := RenderGame(l, root, load);
      !r.states[root].initialized && r.display[root] == FallbackShown && r.loads == l.loads + [root]
  {
  }

  /** Registering a root again unsubscribes its previous listener and starts from a not yet started state. */
  lemma ReRegisterResets(l: Launcher, config: Config, root: Root, hasMount: bool, hasFallback: bool, status: Option<Json>, load: GameLoad)
    requires root in l.states && l.states[root].subscription.Some?
    requires StatusOf(status) != JStr("authenticated")
    ensures var r := Register(l, config, Some(root), hasMount, hasFallback, status, load);
      && r.unsubscribed == l.unsubscribed + [l.states[root].subscription.value]
      && !r.states[root].initialized
      && r.loads == l.loads
  {
  }

  /** Switching to the same port twice is switching once. */
  lemma SetScalePortIdempotent(l: Launcher, port: Option<Port>)
    ensures SetScalePort(SetScalePort(l, port), port) == SetScalePort(l, port)
  {
    if port.Some? {
      var r := SetScalePort(l, port);
      var r2 := SetScalePort(r, port);
      assert r2.states == r.states;
    }
  }

  /**
   * A launcher without a signed-in visitor keeps the game unloaded: registering a root
   * with a mount while the snapshot says `unauthenticated` shows the fallback and loads nothing.
   */
  lemma UnauthenticatedRegistration(port: Option<Port>, config: Config, root: Root, load: GameLoad)
    ensures var l := NewLauncher(AuthPort(true), port);
      var r := Register(l, config, Some(root), true, true, Some(JStr("un" + "authenticated")), load);
      r.display[root] == FallbackShown && r.loads == [] && !r.states[root].initialized
  {
    assert "un" + "authenticated" != "authenticated";
  }

  /**
   * A pending registration whose subscription then reports `authenticated` loads the game once
   * and shows it when its initializer returns anything but `false`.
   */
  lemma AuthenticatedLater(port: Option<Port>, config: Config, root: Root, result: Json)
    requires result != JBool(false)
    ensures var l := NewLauncher(AuthPort(true), port);
      var r1 := Register(l, config, Some(root), true, true, Some(JStr("pending")), NoModule);
      var r2 := OnChange(r1, root, Some(JStr("authenticated")), Initialized(result));
      r2.display[root] == GameShown && r2.loads == [root] && r2.states[root].initialized
  {
    assert "pending" != "authenticated";
  }
}

=== FILE: modal.dfy ===
/**
 * The pieces of one modal dialog: its settings (`ModalEntity`), how they are read
 * from an element's `data-*` attributes (`ModalDomMapper`), the element's open state
 * (`ModalView`), and the pairing of the two that the modal services drive
 * (`ModalInstance`).
 *
 * The element itself is reduced to what the code looks at: whether there is one,
 * and whether it carries the `gm-modal--open` class when the view is built.
 */
module Modal {
  import opened Wrappers
  import opened JsText
  import Storage

  datatype ScrollBehavior = Free | Lock

  /** `ModalEntity` as its constructor leaves it. */
  datatype Entity = Entity(id: Option<string>, storageKey: string, auto: bool, closeOnOverlay: bool, scroll: ScrollBehavior)

  /** A constructor argument: missing, present but of the wrong class, or an instance of the expected class. */
  datatype Arg<T> = Absent | Foreign | Is(value: T)

  /** The scroll behaviour a `scrollBehavior` argument selects; `None` stands for a non-string. */
  function NormalizeScroll(given: Option<string>): ScrollBehavior {
    if given.Some? && LowerCase(given.value) == "lock" then Lock else Free
  }

  /**
   * Exactly the four-character spellings of `lock` in either case select locking
   * (the last letter may also be the Kelvin sign, which lower-cases to `k`).
   */
  lemma NormalizeScrollSpellings(s: string)
    ensures NormalizeScroll(Some(s)) == Lock <==>
      && |s| == 4
      && (s[0] == 'l' || s[0] == 'L')
      && (s[1] == 'o' || s[1] == 'O')
      && (s[2] == 'c' || s[2] == 'C')
      && (s[3] == 'k' || s[3] == 'K' || s[3] == 0x212A as char)
  {
    var lower := LowerCase(s);
    if |s| == 4 {
      assert lower == "lock" <==> lower[0] == 'l' && lower[1] == 'o' && lower[2] == 'c' && lower[3] == 'k';
    } else {
      assert |lower| != |"lock"|;
    }
  }

  /**
   * `new ModalEntity({...})`. `None` for `storageKey`, `auto` or `closeOnOverlay` means the
   * property was left out and takes its default (`''`, `false`, `true`).
   */
  function NewEntity(id: Option<string>, storageKey: Option<string>, auto: Option<bool>, closeOnOverlay: Option<bool>,
                     scrollBehavior: Option<string>): (e: Entity)
    ensures e.id == id
    ensures e.storageKey == storageKey.GetOr("") && e.auto == auto.GetOr(false) && e.closeOnOverlay == closeOnOverlay.GetOr(true)
    ensures e.scroll == NormalizeScroll(scrollBehavior)
  {
    Entity(id, storageKey.GetOr(""), auto.GetOr(false), closeOnOverlay.GetOr(true), NormalizeScroll(scrollBehavior))
  }

  /** A stored value counts when it is a non-empty string. */
  predicate StoredTruthy(v: Option<string>) {
    v.Some? && v.value != ""
  }

  /** `shouldAutoOpen(storage)`: only automatic modals open by themselves, and not once remembered. */
  function ShouldAutoOpen(e: Entity, storage: Option<Storage.Store>): bool {
    if !e.auto then false
    else if e.storageKey != "" && StoredTruthy(Storage.Read(storage, e.storageKey)) then false
    else true
  }

  /** `remember(storage)`: writes `hidden` under the storage key, when there is one. */
  function Remember(e: Entity, storage: Option<Storage.Store>): (r: Option<Storage.Store>)
    ensures e.storageKey == "" ==> r == storage
    ensures e.storageKey != "" && storage.Some? ==> Storage.Read(r, e.storageKey) == Some("hidden")
    ensures forall k :: k != e.storageKey ==> Storage.Read(r, k) == Storage.Read(storage, k)
  {
    if e.storageKey == "" then storage else Storage.Write(storage, e.storageKey, "hidden")
  }

  /** An automatic modal opens by itself until it has been remembered in storage, and never afterwards. */
  lemma AutoOpenUntilRemembered(e: Entity, storage: Option<Storage.Store>)
    requires e.storageKey != "" && storage.Some?
    ensures !ShouldAutoOpen(e, Remember(e, storage))
    ensures ShouldAutoOpen(e, storage) <==> e.auto && !StoredTruthy(Storage.Read(storage, e.storageKey))
  {
  }

  /** Without storage or a storage key, `remember` has no effect and the modal keeps opening by itself. */
  lemma RememberWithoutKey(e: Entity, storage: Option<Storage.Store>)
    requires e.storageKey == "" || storage.None?
    ensures ShouldAutoOpen(e, Remember(e, storage)) == e.auto
  {
  }

  function ShouldLockScroll(e: Entity): bool {
    e.scroll == Lock
  }

  /** An element's `data-*` attributes, by their `dataset` names. */
  type Dataset = map<string, string>

  function Attr(ds: Dataset, name: string): Option<string> {
    if name in ds then Some(ds[name]) else None
  }

  /** `ModalDomMapper.createEntity(element)`. */
  function CreateEntity(element: Option<Dataset>): (r: Option<Entity>)
    ensures r.None? <==> element.None?
  {
    if element.None? then None
    else
      var ds := element.value;
      var scroll := if Attr(ds, "modalScroll") == Some("lock") then "lock" else "free";
      var id := if StoredTruthy(Attr(ds, "modal")) then Some(ds["modal"]) else None;
      var key := if StoredTruthy(Attr(ds, "modalStorage")) then ds["modalStorage"] else "";
      Some(NewEntity(id, Some(key), Some(Attr(ds, "modalAuto") == Some("true")),
                     Some(Attr(ds, "modalCloseOnOverlay") != Some("false")), Some(scroll)))
  }

  /**
   * What an element's attributes mean for its modal: locking only for `data-modal-scroll="lock"`
   * exactly (the mapper does not lower-case), automatic only for `"true"`, closing on the
   * overlay unless `"false"`, and an empty or missing id or storage key read as absent.
   */
  lemma CreateEntityFields(ds: Dataset)
    ensures var e := CreateEntity(Some(ds)).value;
      && (e.scroll == Lock <==> Attr(ds, "modalScroll") == Some("lock"))
      && (e.auto <==> Attr(ds, "modalAuto") == Some("true"))
      && (e.closeOnOverlay <==> Attr(ds, "modalCloseOnOverlay") != Some("false"))
      && (e.id.None? <==> !StoredTruthy(Attr(ds, "modal")))
      && (e.id.Some? ==> e.id == Attr(ds, "modal"))
      && (e.storageKey == "" <==> !StoredTruthy(Attr(ds, "modalStorage")))
      && (e.storageKey != "" ==> Some(e.storageKey) == Attr(ds, "modalStorage"))
  {
    NormalizeScrollSpellings("lock");
    NormalizeScrollSpellings("free");
  }

  /** `ModalView`: whether it has an element, whether it is open, and whether an overlay click handler is installed. */
  datatype View = View(hasElement: bool, isOpen: bool, overlay: bool)

  /** The handler is only ever installed on an open view, and only an element can be open. */
  predicate ViewInv(v: View) {
    (v.overlay ==> v.isOpen) && (v.isOpen ==> v.hasElement)
  }

  /** `new ModalView(element)`: open exactly when the element already carries `gm-modal--open`. */
  function NewView(hasElement: bool, hasOpenClass: bool): (v: View)
    ensures ViewInv(v) && !v.overlay
    ensures v.isOpen <==> hasElement && hasOpenClass
  {
    View(hasElement, hasElement && hasOpenClass, false)
  }

  /** `view.open({ onOverlay })`: refuses without an element or when already open. */
  function ViewOpen(v: View, onOverlay: bool): (r: (bool, View))
    ensures r.0 <==> v.hasElement && !v.isOpen
    ensures r.0 ==> r.1.isOpen && r.1.hasElement == v.hasElement
    ensures !r.0 ==> r.1 == v
  {
    if !v.hasElement || v.isOpen then (false, v)
    else (true, v.(isOpen := true, overlay := if onOverlay then true else v.overlay))
  }

  /** `view.close()`: refuses unless open, and removes the overlay handler. */
  function ViewClose(v: View): (r: (bool, View))
    ensures r.0 <==> v.hasElement && v.isOpen
    ensures r.0 ==> !r.1.isOpen && !r.1.overlay && r.1.hasElement == v.hasElement
    ensures !r.0 ==> r.1 == v
  {
    if !v.hasElement || !v.isOpen then (false, v)
    else (true, v.(isOpen := false, overlay := false))
  }

  /** A click reaches the overlay callback only when one is installed and the click landed on the modal element itself. */
  predicate OverlayFires(v: View, targetIsElement: bool) {
    v.overlay && targetIsElement
  }

  /** Opening and closing keep the invariant; an opened view has a handler exactly when one was asked for. */
  lemma ViewTransitions(v: View, onOverlay: bool)
    requires ViewInv(v)
    ensures ViewInv(ViewOpen(v, onOverlay).1) && ViewInv(ViewClose(v).1)
    ensures ViewOpen(v, onOverlay).0 ==> (ViewOpen(v, onOverlay).1.overlay <==> onOverlay)
  {
  }

  /** Closing an opened view gives back a closed view without a handler, whatever the handler was. */
  lemma ViewOpenClose(v: View, onOverlay: bool)
    requires ViewInv(v) && v.hasElement && !v.isOpen
    ensures ViewClose(ViewOpen(v, onOverlay).1) == (true, v)
  {
  }

  /** `ModalInstance`: its entity and view, each kept only when it is of the right class. */
  datatype Instance = Instance(entity: Option<Entity>, view: Option<View>)

  function NewInstance(entity: Arg<Entity>, view: Arg<View>): (i: Instance)
    ensures i.entity.Some? <==> entity.Is?
    ensures i.view.Some? <==> view.Is?
    ensures entity.Is? ==> i.entity == Some(entity.value)
    ensures view.Is? ==> i.view == Some(view.value)
  {
    Instance(if entity.Is? then Some(entity.value) else None, if view.Is? then Some(view.value) else None)
  }

  /** `instance.id`: the entity's id, `null` without an entity. */
  function Id(i: Instance): (r: Option<string>)
    ensures i.entity.None? ==> r.None?
  {
    if i.entity.Some? then i.entity.value.id else None
  }

  /** `instance.open()`: opens the view, installing the overlay handler only when the modal closes on overlay clicks. */
  function InstanceOpen(i: Instance): (r: (bool, Instance))
    ensures i.entity.None? || i.view.None? ==> r == (false, i)
    ensures i.entity.Some? && i.view.Some? ==>
      r == (ViewOpen(i.view.value, i.entity.value.closeOnOverlay).0,
            i.(view := Some(ViewOpen(i.view.value, i.entity.value.closeOnOverlay).1)))
    ensures r.1.entity == i.entity && (r.1.view.Some? <==> i.view.Some?)
    ensures i.view.Some? && ViewInv(i.view.value) ==> ViewInv(r.1.view.value)
  {
    if i.entity.None? || i.view.None? then (false, i)
    else
      var (shown, view) := ViewOpen(i.view.value, i.entity.value.closeOnOverlay);
      (shown, i.(view := Some(view)))
  }

  /** What `instance.close(options)` reports, leaves of the instance, and leaves in storage. */
  datatype Closing = Closing(ok: bool, instance: Instance, storage: Option<Storage.Store>)

  /**
   * `instance.close({ remember })`: success when the view closed or was open, and only then,
   * if asked, the entity is remembered.
   */
  function InstanceClose(i: Instance, storage: Option<Storage.Store>, remember: bool): (r: Closing)
    ensures i.entity.None? || i.view.None? ==> r == Closing(false, i, storage)
    ensures i.entity.Some? && i.view.Some? ==> (r.ok <==> i.view.value.isOpen)
    ensures r.ok && remember ==> r.storage == Remember(i.entity.value, storage)
    ensures !(r.ok && remember) ==> r.storage == storage
    ensures r.instance.entity == i.entity && (r.instance.view.Some? <==> i.view.Some?)
    ensures i.view.Some? && ViewInv(i.view.value) ==> ViewInv(r.instance.view.value)
    ensures r.ok ==> r.instance.view.Some? && (ViewInv(i.view.value) ==> !r.instance.view.value.isOpen)
    ensures !r.ok ==> r.instance == i
  {
    if i.entity.None? || i.view.None? then Closing(false, i, storage)
    else
      var wasOpen := i.view.value.isOpen;
      var (closed, view) := ViewClose(i.view.value);
      var ok := closed || wasOpen;
      Closing(ok, i.(view := Some(view)), if ok && remember then Remember(i.entity.value, storage) else storage)
  }

  /** `instance.shouldLockScroll()`. */
  function InstanceLocksScroll(i: Instance): (r: bool)
    ensures r <==> i.entity.Some? && i.entity.value.scroll == Lock
  {
    i.entity.Some? && ShouldLockScroll(i.entity.value)
  }

  /** `instance.shouldAutoOpen()`. */
  function InstanceAutoOpens(i: Instance, storage: Option<Storage.Store>): (r: bool)
    ensures r <==> (i.entity.Some? && i.entity.value.auto
      && (i.entity.value.storageKey == "" || !StoredTruthy(Storage.Read(storage, i.entity.value.storageKey))))
  {
    i.entity.Some? && ShouldAutoOpen(i.entity.value, storage)
  }

  /**
   * An instance closed with `remember` set opens on its own again only when there was
   * nowhere to remember it: no storage key or no storage.
   */
  lemma InstanceAutoOpenUntilRemembered(i: Instance, storage: Option<Storage.Store>)
    requires InstanceClose(i, storage, true).ok
    ensures var c := InstanceClose(i, storage, true);
      InstanceAutoOpens(c.instance, c.storage) <==>
        i.entity.value.auto && (i.entity.value.storageKey == "" || storage.None?)
  {
    var e := i.entity.value;
    if e.storageKey != "" && storage.Some? {
      AutoOpenUntilRemembered(e, storage);
    } else {
      RememberWithoutKey(e, storage);
    }
  }

  /**
   * A well-formed instance opens exactly when its view is closed, and then reports a
   * successful close; `remember` is written only by that close.
   */
  lemma InstanceOpenThenClose(i: Instance, storage: Option<Storage.Store>, remember: bool)
    requires i.entity.Some? && i.view.Some? && ViewInv(i.view.value) && i.view.value.hasElement
    ensures InstanceOpen(i).0 <==> !i.view.value.isOpen
    ensures var c := InstanceClose(InstanceOpen(i).1, storage, remember);
      && c.ok
      && c.instance.view == Some(i.view.value.(isOpen := false, overlay := false))
      && (remember ==> c.storage == Remember(i.entity.value, storage))
  {
  }
}

=== FILE: modal_service.dfy ===
/**
 * The modal service of the theme's asset bundle: a registry of modal instances by
 * id, the active modal, and a resume stack of modals suspended by a `resume` open,
 * reopened in last-in first-out order when the modal above them closes.
 *
 * The scroll controller and the keyboard listener are outside the model; the calls
 * the service makes on them are recorded instead (`scrollCalls`, `keydownBound`).
 * Instances are identified by their id: the service only ever stores an instance
 * under its own id.
 */
module ModalService {
  import opened Wrappers
  import opened Modal
  import opened Seqs
  import Storage

  /** A call on the scroll controller, with the modal id as its context. */
  datatype ScrollCall = LockCall(context: string) | UnlockCall(context: string)

  datatype Service = Service(
    modals: map<string, Instance>,
    active: Option<string>,
    stack: seq<string>,
    storage: Option<Storage.Store>,
    hasScrollController: bool,
    scrollCalls: seq<ScrollCall>,
    hasEventTarget: bool,
    keydownBound: bool)

  /** The constructor: no modals, nothing active or suspended, no scroll calls and no keydown handler yet. */
  function NewService(storage: Option<Storage.Store>, hasEventTarget: bool, hasScrollController: bool): (st: Service)
    ensures Inv(st)
    ensures st.modals == map[] && st.active.None? && st.stack == [] && st.scrollCalls == [] && !st.keydownBound
    ensures st.storage == storage && st.hasEventTarget == hasEventTarget && st.hasScrollController == hasScrollController
  {
    Service(map[], None, [], storage, hasScrollController, [], hasEventTarget, false)
  }

  /**
   * The state the service keeps consistent: each instance is stored under its own, non-empty id
   * (so it has an entity); every view is well-formed; the resume stack has no
   * repeated id; and the active modal is registered with its view present and open.
   */
  ghost predicate Inv(st: Service) {
    && "" !in st.modals
    && (forall k :: k in st.modals ==>
          Id(st.modals[k]) == Some(k) && (st.modals[k].view.Some? ==> ViewInv(st.modals[k].view.value)))
    && NoDuplicates(st.stack)
    && (st.active.Some? ==>
          st.active.value in st.modals && st.modals[st.active.value].view.Some? && st.modals[st.active.value].view.value.isOpen)
  }

  /** `register({ entity, view })`: nothing without both; the instance is kept only when it has an id. */
  function Register(st: Service, entity: Arg<Entity>, view: Arg<View>): (r: (Service, Option<Instance>))
    ensures entity.Absent? || view.Absent? ==> r == (st, None)
    ensures !entity.Absent? && !view.Absent? ==> r.1 == Some(NewInstance(entity, view))
    ensures var id := Id(NewInstance(entity, view));
      r.0 == (if r.1.Some? && id.Some? && id.value != "" then st.(modals := st.modals[id.value := r.1.value]) else st)
  {
    if entity.Absent? || view.Absent? then (st, None)
    else
      var inst := NewInstance(entity, view);
      var id := Id(inst);
      if id.Some? && id.value != "" then (st.(modals := st.modals[id.value := inst]), Some(inst))
      else (st, Some(inst))
  }

  function LockScroll(st: Service, id: string): (r: Service)
    ensures r == st.(scrollCalls := r.scrollCalls)
  {
    if st.hasScrollController then st.(scrollCalls := st.scrollCalls + [LockCall(id)]) else st
  }

  function UnlockScroll(st: Service, id: string): (r: Service)
    ensures r == st.(scrollCalls := r.scrollCalls)
  {
    if st.hasScrollController then st.(scrollCalls := st.scrollCalls + [UnlockCall(id)]) else st
  }

  /**
   * The scroll calls opening (`LockCall`) or closing (`UnlockCall`) modal `id` makes: one for
   * a locking modal with a controller present. Both modal services share this rule.
   */
  function ScrollCallsIn(hasScrollController: bool, modals: map<string, Instance>, id: string, call: ScrollCall): seq<ScrollCall> {
    if hasScrollController && id in modals && InstanceLocksScroll(modals[id]) then [call] else []
  }

  function ScrollCalls(st: Service, id: string, call: ScrollCall): seq<ScrollCall> {
    ScrollCallsIn(st.hasScrollController, st.modals, id, call)
  }

  /** `_removeFromResumeStack(id)`: drops every copy of a non-empty id. */
  function RemoveFromStack(st: Service, id: string): (r: Service)
    ensures r == st.(stack := r.stack)
    ensures id != "" ==> r.stack == Without(st.stack, id)
    ensures id == "" ==> r.stack == st.stack
  {
    if id == "" || |st.stack| == 0 then st else st.(stack := Without(st.stack, id))
  }

  /** What the first half of `_closeInstance` leaves: the state, whether the close succeeded, and whether the modal was active. */
  datatype CloseStep = CloseStep(st: Service, closed: bool, wasActive: bool)

  /**
   * `_closeInstance` up to its resume step: close the instance, clear the active modal if
   * it was this one, and unlock the scroll for locking modals.
   */
  function CloseInstanceStep(st: Service, id: string, remember: bool): (r: CloseStep)
    requires id in st.modals
    ensures r.wasActive <==> st.active == Some(id)
    ensures !r.wasActive ==> r.st.active == st.active
    ensures r.st.stack == st.stack && r.st.modals.Keys == st.modals.Keys
    ensures r.st.modals == st.modals[id := r.st.modals[id]]
    ensures r.st.modals[id].entity == st.modals[id].entity && r.st.hasScrollController == st.hasScrollController
    ensures r.closed ==> r.st.scrollCalls == st.scrollCalls + ScrollCalls(st, id, UnlockCall(id))
    ensures !r.closed ==> r.st == st
  {
    var inst := st.modals[id];
    var wasActive := st.active == Some(id);
    var c := InstanceClose(inst, st.storage, remember);
    if !c.ok then CloseStep(st, false, wasActive)
    else
      var st1 := st.(modals := st.modals[id := c.instance], storage := c.storage);
      var st2 := if wasActive then st1.(active := None, keydownBound := if st1.hasEventTarget then false else st1.keydownBound) else st1;
      var st3 := if InstanceLocksScroll(inst) then UnlockScroll(st2, id) else st2;
      CloseStep(st3, true, wasActive)
  }

  /** Closing one instance keeps the service invariant. */
  lemma CloseInstanceStepInv(st: Service, id: string, remember: bool)
    requires id in st.modals && Inv(st)
    ensures Inv(CloseInstanceStep(st, id, remember).st)
  {
  }

  /**
   * `_closeInstance(instance, { remember, skipResume })`. A close that fails still counts
   * for a suspended, inactive modal, which is dropped from the stack. A successful close
   * of the active modal resumes the previous one; of any other modal, drops it from the stack.
   */
  function CloseInstance(st: Service, id: string, remember: bool, skipResume: bool): (r: (Service, bool))
    requires id in st.modals
    ensures r.0.modals.Keys == st.modals.Keys
    ensures |r.0.stack| <= |st.stack|
    ensures Inv(st) ==> Inv(r.0)
    decreases |st.stack|, 1
  {
    var wasSuspended := id in st.stack;
    var step := CloseInstanceStep(st, id, remember);
    assert Inv(st) ==> Inv(step.st) by {
      if Inv(st) { CloseInstanceStepInv(st, id, remember); }
    }
    if !step.closed then
      if !skipResume && !step.wasActive && wasSuspended then (RemoveFromStack(step.st, id), true)
      else (step.st, false)
    else if skipResume then (step.st, true)
    else if step.wasActive then (ResumePrevious(step.st, id), true)
    else (RemoveFromStack(step.st, id), true)
  }

  /**
   * What `_closeInstance` reports and where it goes next: a close counts when the instance
   * closed or, unless resuming is skipped, when it was suspended and not active. A refused
   * close changes nothing more; a closed active modal resumes the previous one; a closed or
   * suspended inactive one is dropped from the stack and nothing else changes.
   */
  lemma CloseInstanceOutcome(st: Service, id: string, remember: bool, skipResume: bool)
    requires id in st.modals
    ensures var r := CloseInstance(st, id, remember, skipResume);
      var step := CloseInstanceStep(st, id, remember);
      && (r.1 <==> step.closed || (!skipResume && !step.wasActive && id in st.stack))
      && (!r.1 || (step.closed && skipResume) ==> r.0 == step.st)
      && (step.closed && !skipResume && step.wasActive ==> r.0 == ResumePrevious(step.st, id))
      && (r.1 && !skipResume && !step.wasActive ==>
            r.0 == step.st.(stack := r.0.stack) && (id != "" ==> r.0.stack == Without(st.stack, id)))
  {
  }

  /** `close(id, { remember })`: an unknown id is dropped from the stack and reported as not closed. */
  function Close(st: Service, id: string, remember: bool): (r: (Service, bool))
    ensures id in st.modals ==> r.0.modals.Keys == st.modals.Keys
    ensures |r.0.stack| <= |st.stack|
    ensures Inv(st) ==> Inv(r.0)
    decreases |st.stack|, 2
  {
    if id !in st.modals then (RemoveFromStack(st, id), false)
    else CloseInstance(st, id, remember, false)
  }

  /**
   * `_resumePrevious(closedId)`: pops ids off the stack, skipping empty ones and the one
   * just closed, until one reopens or the stack is empty.
   */
  function ResumePrevious(st: Service, closedId: string): (r: Service)
    ensures r.modals.Keys == st.modals.Keys
    ensures |r.stack| <= |st.stack|
    ensures Inv(st) ==> Inv(r)
    decreases |st.stack|, 0
  {
    if |st.stack| == 0 then st
    else
      var previous := st.stack[|st.stack| - 1];
      var st1 := st.(stack := st.stack[..|st.stack| - 1]);
      if previous == "" || previous == closedId then ResumePrevious(st1, closedId)
      else
        var (st2, reopened) := OpenResumed(st1, previous);
        if reopened then st2 else ResumePrevious(st2, closedId)
  }

  /** The part of `open` shared by its two callers: open the instance and, on success, make it active. */
  function Activate(st: Service, id: string): (r: (Service, bool))
    requires id in st.modals
    ensures r.0.modals.Keys == st.modals.Keys && r.0.stack == st.stack
    ensures r.0.modals == st.modals[id := r.0.modals[id]]
    ensures r.0.modals[id].entity == st.modals[id].entity && r.0.hasScrollController == st.hasScrollController
    ensures r.1 ==> r.0.active == Some(id)
    ensures r.1 ==> r.0.scrollCalls == st.scrollCalls + ScrollCalls(st, id, LockCall(id))
    ensures !r.1 ==> r.0 == st
    ensures Inv(st) ==> Inv(r.0)
  {
    var inst := st.modals[id];
    var (shown, inst1) := InstanceOpen(inst);
    if !shown then (st, false)
    else
      var st1 := st.(modals := st.modals[id := inst1]);
      var st2 := if InstanceLocksScroll(inst1) then LockScroll(st1, id) else st1;
      (st2.(active := Some(id), keydownBound := if st2.hasEventTarget then true else st2.keydownBound), true)
  }

  /**
   * `open(id, { _fromResume: true })`, as `_resumePrevious` calls it: no `resume`, and an
   * unknown id leaves the stack alone.
   */
  function OpenResumed(st: Service, id: string): (r: (Service, bool))
    ensures r.0.modals.Keys == st.modals.Keys
    ensures |r.0.stack| <= |st.stack|
    ensures Inv(st) ==> Inv(r.0)
    decreases |st.stack|, 3
  {
    if id !in st.modals then (st, false)
    else if st.active == Some(id) then (st, true)
    else
      var st1 := if st.active.Some? then Close(st.(stack := []), st.active.value, false).0 else st;
      if id !in st1.modals then (st1, false)
      else Activate(st1, id)
  }

  /** `if (!stack.includes(a)) stack.push(a)`. */
  function PushOnce(s: seq<string>, a: string): (r: seq<string>)
    ensures a in r && (forall y :: y in r <==> y in s || y == a)
    ensures NoDuplicates(s) ==> NoDuplicates(r)
  {
    if a in s then s else s + [a]
  }

  /**
   * What `open` does to the modal already on screen before opening another: with
   * `resume`, suspends it on the stack and closes it without resuming anything;
   * otherwise empties the stack and closes it. With no active modal, an open that
   * is not a resume empties the stack.
   */
  function MakeRoom(st: Service, resume: bool): (r: Service)
    ensures r.modals.Keys == st.modals.Keys
    ensures Inv(st) ==> Inv(r)
  {
    if st.active.Some? then
      var a := st.active.value;
      if resume then
        var st1 := st.(stack := PushOnce(st.stack, a));
        if a in st.modals then CloseInstance(st1, a, false, true).0 else st1
      else Close(st.(stack := []), a, false).0
    else if !resume then st.(stack := [])
    else st
  }

  /**
   * `open(id, { resume })`. Opening the active modal changes nothing. Opening another
   * one first makes room for it. When a `resume` open fails, the previous modal is resumed.
   */
  function Open(st: Service, id: string, resume: bool): (r: (Service, bool))
    ensures Inv(st) ==> Inv(r.0)
  {
    if id !in st.modals then (RemoveFromStack(st, id), false)
    else if st.active == Some(id) then (st, true)
    else
      var st1 := MakeRoom(st, resume);
      var (st2, shown) := Activate(st1, id);
      if shown then (st2, true)
      else if resume then (ResumePrevious(st2, id), false)
      else (st2, false)
  }

  /** `handleKeydown(event)`: Escape closes the active modal. */
  function HandleKeydown(st: Service, key: string): (r: Service)
    ensures Inv(st) ==> Inv(r)
  {
    if key == "Escape" && st.active.Some? then Close(st, st.active.value, false).0 else st
  }

  /** `r` has the same modals, with the same entities, and the same scroll controller as `st`. */
  ghost predicate Kept(st: Service, r: Service) {
    && r.hasScrollController == st.hasScrollController
    && r.modals.Keys == st.modals.Keys
    && (forall k :: k in st.modals ==> r.modals[k].entity == st.modals[k].entity)
  }

  lemma KeptScrollCalls(st: Service, r: Service, id: string, call: ScrollCall)
    requires Kept(st, r)
    ensures ScrollCalls(r, id, call) == ScrollCalls(st, id, call)
  {
    if id in st.modals {
      assert InstanceLocksScroll(r.modals[id]) == InstanceLocksScroll(st.modals[id]);
    }
  }

  /** A registered modal that `open` can show: its view has an element and is closed. */
  predicate CanShow(st: Service, id: string) {
    id in st.modals && st.modals[id].view.Some? && st.modals[id].view.value.hasElement && !st.modals[id].view.value.isOpen
  }

  predicate IsOpen(st: Service, id: string) {
    id in st.modals && st.modals[id].view.Some? && st.modals[id].view.value.isOpen
  }

  /** Registering keeps the invariant, as long as the active modal is not replaced and the view is well-formed. */
  lemma RegisterKeepsInv(st: Service, entity: Arg<Entity>, view: Arg<View>)
    requires Inv(st)
    requires view.Is? ==> ViewInv(view.value)
    requires st.active.None? || Id(NewInstance(entity, view)) != st.active
    ensures Inv(Register(st, entity, view).0)
  {
  }

  /** Opening or closing an id that was never registered fails and drops the id from the resume stack. */
  lemma UnknownIdDropped(st: Service, id: string, resume: bool, remember: bool)
    requires id !in st.modals && id != ""
    ensures Open(st, id, resume) == (st.(stack := Without(st.stack, id)), false)
    ensures Close(st, id, remember) == (st.(stack := Without(st.stack, id)), false)
    ensures id !in Open(st, id, resume).0.stack
  {
  }

  /** Opening the modal that is already active reports success and changes nothing. */
  lemma OpenActiveUnchanged(st: Service, id: string, resume: bool)
    requires id in st.modals && st.active == Some(id)
    ensures Open(st, id, resume) == (st, true)
  {
  }

  /** Closing the active modal on an empty stack closes it and resumes nothing. */
  lemma CloseActiveOnEmptyStack(st: Service, id: string)
    requires Inv(st) && st.active == Some(id) && st.stack == []
    ensures var r := Close(st, id, false);
      && r.1 && r.0.active.None? && r.0.stack == [] && !IsOpen(r.0, id)
      && r.0.modals.Keys == st.modals.Keys
      && (forall k :: k in st.modals && k != id ==> r.0.modals[k] == st.modals[k])
  {
    var step := CloseInstanceStep(st, id, false);
    assert ViewInv(st.modals[id].view.value);
    assert step.closed && step.wasActive;
    assert step.st.active.None?;
    assert ResumePrevious(step.st, id) == step.st;
  }

  /** Opening another modal without `resume` closes the active one and empties the resume stack. */
  lemma OpenWithoutResumeClosesActive(st: Service, id: string, a: string)
    requires Inv(st) && id in st.modals && st.active == Some(a) && a != id
    ensures var r := Open(st, id, false);
      && r.0.stack == [] && !IsOpen(r.0, a)
      && (r.1 <==> CanShow(st, id))
      && (r.1 ==> r.0.active == Some(id) && IsOpen(r.0, id))
      && (!r.1 ==> r.0.active.None?)
  {
    CloseActiveOnEmptyStack(st.(stack := []), a);
    var st1 := MakeRoom(st, false);
    assert st1 == Close(st.(stack := []), a, false).0;
    assert CanShow(st1, id) <==> CanShow(st, id);
    var (st2, shown) := Activate(st1, id);
    assert shown <==> CanShow(st, id);
  }

  /**
   * Making room with `resume` suspends the active modal: it goes on the stack (once),
   * its view closes, nothing is resumed, and every other modal is left alone.
   */
  lemma SuspendActive(st: Service, a: string)
    requires Inv(st) && st.active == Some(a)
    ensures var r := MakeRoom(st, true);
      && r.stack == PushOnce(st.stack, a) && r.active.None? && CanShow(r, a)
      && r.scrollCalls == st.scrollCalls + ScrollCalls(st, a, UnlockCall(a))
      && Kept(st, r)
      && (forall k :: k in st.modals && k != a ==> r.modals[k] == st.modals[k])
  {
    var st1 := st.(stack := PushOnce(st.stack, a));
    assert ViewInv(st.modals[a].view.value);
    var step := CloseInstanceStep(st1, a, false);
    assert step.closed;
  }

  /**
   * A `resume` open of another modal suspends the active one on the stack and shows the
   * new one on top of it, without resuming anything in between.
   */
  lemma OpenResumeSuspendsActive(st: Service, id: string, a: string)
    requires Inv(st) && st.active == Some(a) && a != id && CanShow(st, id)
    ensures var r := Open(st, id, true);
      && r.1 && r.0.active == Some(id) && IsOpen(r.0, id)
      && r.0.stack == PushOnce(st.stack, a) && CanShow(r.0, a)
      && r.0.scrollCalls == st.scrollCalls + ScrollCalls(st, a, UnlockCall(a)) + ScrollCalls(st, id, LockCall(id))
      && Kept(st, r.0)
      && (forall k :: k in st.modals && k != a && k != id ==> r.0.modals[k] == st.modals[k])
  {
    SuspendActive(st, a);
    var st1 := MakeRoom(st, true);
    assert CanShow(st1, id);
    KeptScrollCalls(st, st1, id, LockCall(id));
  }

  /**
   * When a `resume` open cannot show its modal, the modal it suspended is shown again:
   * the stack and the active modal are as they were.
   */
  lemma FailedResumeRestoresActive(st: Service, id: string, a: string)
    requires Inv(st) && st.active == Some(a) && a != id && id in st.modals && !CanShow(st, id)
    requires a !in st.stack
    ensures var r := Open(st, id, true);
      && !r.1 && r.0.active == Some(a) && IsOpen(r.0, a) && r.0.stack == st.stack
  {
    SuspendActive(st, a);
    var st1 := MakeRoom(st, true);
    assert !CanShow(st1, id);
    assert Activate(st1, id) == (st1, false);
    assert st1.stack == st.stack + [a];
    var st2 := st1.(stack := st.stack);
    assert st1.stack[..|st1.stack| - 1] == st.stack;
    assert OpenResumed(st2, a) == Activate(st2, a);
    assert ResumePrevious(st1, id) == OpenResumed(st2, a).0;
  }

  /**
   * Closing the active modal shows the modal on top of the resume stack again, when
   * that one can be shown; it leaves the stack below it.
   */
  lemma CloseActiveResumesTop(st: Service, id: string, p: string)
    requires Inv(st) && st.active == Some(id) && |st.stack| > 0 && st.stack[|st.stack| - 1] == p
    requires p != id && CanShow(st, p)
    ensures var r := Close(st, id, false);
      && r.1 && r.0.active == Some(p) && IsOpen(r.0, p) && !IsOpen(r.0, id)
      && r.0.stack == st.stack[..|st.stack| - 1]
      && r.0.scrollCalls == st.scrollCalls + ScrollCalls(st, id, UnlockCall(id)) + ScrollCalls(st, p, LockCall(p))
      && Kept(st, r.0)
      && (forall k :: k in st.modals && k != id && k != p ==> r.0.modals[k] == st.modals[k])
  {
    var step := CloseInstanceStep(st, id, false);
    var st2 := step.st.(stack := st.stack[..|st.stack| - 1]);
    CloseActiveIsResume(st, id, p);
    var r := Activate(st2, p);
    assert Kept(st, st2);
    assert Kept(st2, r.0);
    KeptScrollCalls(st, st2, p, LockCall(p));
  }

  /** The step `CloseActiveResumesTop` rests on: the close is the instance close followed by opening `p`. */
  lemma CloseActiveIsResume(st: Service, id: string, p: string)
    requires Inv(st) && st.active == Some(id) && |st.stack| > 0 && st.stack[|st.stack| - 1] == p
    requires p != id && CanShow(st, p)
    ensures var step := CloseInstanceStep(st, id, false);
      var st2 := step.st.(stack := st.stack[..|st.stack| - 1]);
      && step.closed && step.st.active.None? && CanShow(st2, p) && !IsOpen(st2, id)
      && Activate(st2, p).1
      && Close(st, id, false) == (Activate(st2, p).0, true)
  {
    var step := CloseInstanceStep(st, id, false);
    assert ViewInv(st.modals[id].view.value);
    assert step.closed && step.wasActive && step.st.active.None?;
    assert CanShow(step.st, p) && !IsOpen(step.st, id);
    ResumeTopOpens(step.st, id, p);
    assert CloseInstance(st, id, false, false) == (ResumePrevious(step.st, id), true);
  }

  /** With nothing active, resuming pops the top of the stack and opens it when it can be shown. */
  lemma ResumeTopOpens(st: Service, closedId: string, p: string)
    requires Inv(st) && st.active.None? && |st.stack| > 0 && st.stack[|st.stack| - 1] == p
    requires p != closedId && CanShow(st, p)
    ensures var st2 := st.(stack := st.stack[..|st.stack| - 1]);
      Activate(st2, p).1 && ResumePrevious(st, closedId) == Activate(st2, p).0
  {
    var st2 := st.(stack := st.stack[..|st.stack| - 1]);
    assert p != "";
    assert OpenResumed(st2, p) == Activate(st2, p);
    assert Activate(st2, p).1;
  }

  /** Closing a suspended modal that is not active drops it from the resume stack, so it is never resumed. */
  lemma CloseSuspendedDropsIt(st: Service, id: string)
    requires Inv(st) && id in st.modals && st.active != Some(id) && id in st.stack
    ensures var r := Close(st, id, false);
      && r.1 && r.0.stack == Without(st.stack, id) && id !in r.0.stack && r.0.active == st.active
      && Kept(st, r.0)
      && (forall k :: k in st.modals && k != id ==> r.0.modals[k] == st.modals[k])
  {
    var step := CloseInstanceStep(st, id, false);
    assert id != "";
    assert CloseInstance(st, id, false, false) == (RemoveFromStack(step.st, id), true);
    assert Kept(st, step.st);
  }

  /** With nothing on screen, a plain open shows the modal and empties the resume stack. */
  lemma OpenWithNothingActive(st: Service, id: string)
    requires Inv(st) && st.active.None? && CanShow(st, id)
    ensures var r := Open(st, id, false);
      && r.1 && r.0.active == Some(id) && r.0.stack == []
      && r.0.modals == st.modals[id := r.0.modals[id]] && IsOpen(r.0, id)
      && r.0.scrollCalls == st.scrollCalls + ScrollCalls(st, id, LockCall(id))
      && Kept(st, r.0)
  {
  }

  /**
   * The opening shared by the service's resume tests: `a` opened, then `b` opened over it
   * with `resume`. `b` is on screen, `a` alone is suspended beneath it and can be shown
   * again, every other modal is as it was, and the scroll controller has seen the calls of
   * opening `a`, suspending it and opening `b`, in that order.
   */
  lemma SuspendedUnder(st: Service, a: string, b: string)
    requires Inv(st) && st.active.None? && CanShow(st, a) && CanShow(st, b) && a != b
    ensures var s1 := Open(st, a, false); var s2 := Open(s1.0, b, true);
      && s1.1 && s2.1 && Inv(s2.0)
      && s2.0.active == Some(b) && IsOpen(s2.0, b) && s2.0.stack == [a] && CanShow(s2.0, a)
      && s2.0.scrollCalls == st.scrollCalls + ScrollCalls(st, a, LockCall(a)) + ScrollCalls(st, a, UnlockCall(a))
           + ScrollCalls(st, b, LockCall(b))
      && Kept(st, s2.0)
      && (forall k :: k in st.modals && k != a && k != b ==> s2.0.modals[k] == st.modals[k])
  {
    OpenWithNothingActive(st, a);
    var s1 := Open(st, a, false).0;
    assert CanShow(s1, b);
    OpenResumeSuspendsActive(s1, b, a);
    KeptScrollCalls(st, s1, a, UnlockCall(a));
    KeptScrollCalls(st, s1, b, LockCall(b));
  }

  /**
   * The first resume scenario of the service's tests: `a` opened, `b` opened over it
   * with `resume`, `b` closed. `a` is shown again with the stack empty, and the scroll
   * controller sees, in order, the calls of opening `a`, suspending `a`, opening `b`,
   * closing `b` and reopening `a` — lock, unlock, lock when only `a` locks the scroll.
   */
  lemma ResumeAfterClose(st: Service, a: string, b: string)
    requires Inv(st) && st.active.None? && CanShow(st, a) && CanShow(st, b) && a != b
    ensures var s1 := Open(st, a, false); var s2 := Open(s1.0, b, true); var s3 := Close(s2.0, b, false);
      && s1.1 && s2.1 && s3.1
      && s3.0.active == Some(a) && IsOpen(s3.0, a) && !IsOpen(s3.0, b) && s3.0.stack == []
      && s3.0.scrollCalls == st.scrollCalls + ScrollCalls(st, a, LockCall(a)) + ScrollCalls(st, a, UnlockCall(a))
           + ScrollCalls(st, b, LockCall(b)) + ScrollCalls(st, b, UnlockCall(b)) + ScrollCalls(st, a, LockCall(a))
  {
    SuspendedUnder(st, a, b);
    var s2 := Open(Open(st, a, false).0, b, true).0;
    CloseActiveResumesTop(s2, b, a);
    KeptScrollCalls(st, s2, b, UnlockCall(b));
    KeptScrollCalls(st, s2, a, LockCall(a));
  }

  /** The scroll controller's view of that scenario when only `a` locks the scroll: lock, unlock, lock. */
  lemma ResumeAfterCloseScroll(st: Service, a: string, b: string)
    requires Inv(st) && st.active.None? && CanShow(st, a) && CanShow(st, b) && a != b
    requires st.hasScrollController && st.scrollCalls == []
    requires InstanceLocksScroll(st.modals[a]) && !InstanceLocksScroll(st.modals[b])
    ensures Close(Open(Open(st, a, false).0, b, true).0, b, false).0.scrollCalls == [LockCall(a), UnlockCall(a), LockCall(a)]
  {
    ResumeAfterClose(st, a, b);
    var calls := Close(Open(Open(st, a, false).0, b, true).0, b, false).0.scrollCalls;
    var la, ua, lb, ub := ScrollCalls(st, a, LockCall(a)), ScrollCalls(st, a, UnlockCall(a)), ScrollCalls(st, b, LockCall(b)), ScrollCalls(st, b, UnlockCall(b));
    assert calls == st.scrollCalls + la + ua + lb + ub + la;
    assert la == [LockCall(a)] && ua == [UnlockCall(a)] && lb == [] && ub == [];
    ThreeCalls(st.scrollCalls, la, ua, lb, ub);
  }

  lemma ThreeCalls(e: seq<ScrollCall>, la: seq<ScrollCall>, ua: seq<ScrollCall>, lb: seq<ScrollCall>, ub: seq<ScrollCall>)
    requires e == [] && |la| == 1 && |ua| == 1 && lb == [] && ub == []
    ensures e + la + ua + lb + ub + la == [la[0], ua[0], la[0]]
  {
  }

  /**
   * The second resume scenario: a modal closed while suspended under another is not
   * resumed when the one above it closes; nothing is left open.
   */
  lemma NoResumeAfterRemoval(st: Service, a: string, b: string)
    requires Inv(st) && st.active.None? && CanShow(st, a) && CanShow(st, b) && a != b
    ensures var s2 := Open(Open(st, a, false).0, b, true).0; var s3 := Close(s2, a, false); var s4 := Close(s3.0, b, false);
      && s3.1 && s4.1 && !IsOpen(s4.0, a) && !IsOpen(s4.0, b) && s4.0.active.None? && s4.0.stack == []
  {
    SuspendedUnder(st, a, b);
    var s2 := Open(Open(st, a, false).0, b, true).0;
    CloseSuspendedDropsIt(s2, a);
    var s3 := Close(s2, a, false).0;
    assert s3.stack == [];
    CloseActiveOnEmptyStack(s3, b);
  }

  /** Two nested `resume` opens over `a`: `c` on screen, `a` then `b` suspended beneath it. */
  lemma NestedOpens(st: Service, a: string, b: string, c: string)
    requires Inv(st) && st.active.None? && CanShow(st, a) && CanShow(st, b) && CanShow(st, c)
    requires a != b && b != c && a != c
    ensures var s3 := Open(Open(Open(st, a, false).0, b, true).0, c, true).0;
      && Inv(s3) && s3.stack == [a, b] && s3.active == Some(c) && IsOpen(s3, c)
      && CanShow(s3, a) && CanShow(s3, b)
  {
    SuspendedUnder(st, a, b);
    var s2 := Open(Open(st, a, false).0, b, true).0;
    assert CanShow(s2, c);
    OpenOverSuspended(s2, a, b, c);
  }

  /** A `resume` open of `c` over `b`, with `a` suspended beneath: `a` then `b` on the stack, `c` on screen. */
  lemma OpenOverSuspended(s2: Service, a: string, b: string, c: string)
    requires Inv(s2) && s2.active == Some(b) && s2.stack == [a] && CanShow(s2, a) && CanShow(s2, c)
    requires a != b && b != c && a != c
    ensures var s3 := Open(s2, c, true).0;
      && Inv(s3) && s3.stack == [a, b] && s3.active == Some(c) && IsOpen(s3, c)
      && CanShow(s3, a) && CanShow(s3, b)
  {
    OpenResumeSuspendsActive(s2, c, b);
    assert PushOnce([a], b) == [a, b];
  }

  /** Closing `c` after the nested opens shows `b` again and leaves `a` suspended, still showable. */
  lemma NestedFirstClose(st: Service, a: string, b: string, c: string)
    requires Inv(st) && st.active.None? && CanShow(st, a) && CanShow(st, b) && CanShow(st, c)
    requires a != b && b != c && a != c
    ensures var s4 := Close(Open(Open(Open(st, a, false).0, b, true).0, c, true).0, c, false).0;
      && Inv(s4) && s4.active == Some(b) && IsOpen(s4, b) && !IsOpen(s4, c) && s4.stack == [a] && CanShow(s4, a)
  {
    NestedOpens(st, a, b, c);
    CloseOverTwo(Open(Open(Open(st, a, false).0, b, true).0, c, true).0, a, b, c);
  }

  /** Closing the active `c` over the stack `[a, b]` shows `b` again and leaves `a` suspended. */
  lemma CloseOverTwo(s3: Service, a: string, b: string, c: string)
    requires Inv(s3) && s3.stack == [a, b] && s3.active == Some(c) && IsOpen(s3, c)
    requires CanShow(s3, a) && CanShow(s3, b) && a != b && b != c && a != c
    ensures var s4 := Close(s3, c, false).0;
      && Inv(s4) && s4.active == Some(b) && IsOpen(s4, b) && !IsOpen(s4, c) && s4.stack == [a] && CanShow(s4, a)
  {
    CloseActiveResumesTop(s3, c, b);
    assert s3.stack[..1] == [a];
  }

  /** The third resume scenario: nested `resume` opens unwind in last-in first-out order. */
  lemma NestedResume(st: Service, a: string, b: string, c: string)
    requires Inv(st) && st.active.None? && CanShow(st, a) && CanShow(st, b) && CanShow(st, c)
    requires a != b && b != c && a != c
    ensures var s3 := Open(Open(Open(st, a, false).0, b, true).0, c, true).0;
      var s4 := Close(s3, c, false).0; var s5 := Close(s4, b, false).0;
      && s4.active == Some(b) && IsOpen(s4, b) && !IsOpen(s4, c) && s4.stack == [a]
      && s5.active == Some(a) && IsOpen(s5, a) && !IsOpen(s5, b) && s5.stack == []
  {
    NestedFirstClose(st, a, b, c);
    var s4 := Close(Open(Open(Open(st, a, false).0, b, true).0, c, true).0, c, false).0;
    CloseActiveResumesTop(s4, b, a);
  }
}

=== FILE: poll.dfy ===
/**
 * The EFBD poll mini-game: the options it offers, whether it can start, and what a
 * submission does. The scale library's `isAxisCode` and `JSON.parse` of stringified
 * options are parameters; the form's DOM is reduced to its status line, its submit
 * button and the answer it records.
 */
module Poll {
  import opened Wrappers
  import opened Json

  datatype PollOption = PollOption(axis: string, caption: Json, i18nKey: Option<Json>)

  /** An entry `normalizeOptions` keeps: a truthy value whose `axis` is a string that is an axis code. */
  predicate Valid(option: Json, isAxisCode: string -> bool) {
    && Truthy(option)
    && Prop(Some(option), "axis").Some? && Prop(Some(option), "axis").value.JStr?
    && isAxisCode(Prop(Some(option), "axis").value.s)
  }

  /** The option an entry becomes: its axis, its `label || axis`, and its `i18nKey`. */
  function Entry(option: Json): (o: PollOption)
    requires Prop(Some(option), "axis").Some? && Prop(Some(option), "axis").value.JStr?
    ensures o.axis == Prop(Some(option), "axis").value.s
    ensures TruthyOpt(Prop(Some(option), "label")) ==> o.caption == Prop(Some(option), "label").value
    ensures !TruthyOpt(Prop(Some(option), "label")) ==> o.caption == JStr(o.axis)
    ensures o.i18nKey == Prop(Some(option), "i18nKey")
  {
    var axis := Prop(Some(option), "axis").value.s;
    var lbl := Prop(Some(option), "label");
    PollOption(axis, if TruthyOpt(lbl) then lbl.value else JStr(axis), Prop(Some(option), "i18nKey"))
  }

  /** The filter–map–filter chain over an array's entries, in order. */
  function Options(items: seq<Json>, isAxisCode: string -> bool): (r: seq<PollOption>)
    ensures |r| <= |items|
    ensures forall i :: 0 <= i < |r| ==> isAxisCode(r[i].axis)
    ensures (forall j :: 0 <= j < |items| ==> Valid(items[j], isAxisCode)) ==> |r| == |items|
    ensures (forall j :: 0 <= j < |items| ==> !Valid(items[j], isAxisCode)) ==> r == []
  {
    if |items| == 0 then []
    else
      var last := items[|items| - 1];
      Options(items[..|items| - 1], isAxisCode) + if Valid(last, isAxisCode) then [Entry(last)] else []
  }

  /** Normalizing a concatenation normalizes each part: entries are kept or dropped one by one, in order. */
  lemma {:induction false} OptionsConcat(a: seq<Json>, b: seq<Json>, isAxisCode: string -> bool)
    ensures Options(a + b, isAxisCode) == Options(a, isAxisCode) + Options(b, isAxisCode)
    decreases |b|
  {
    if |b| == 0 {
      assert a + b == a;
    } else {
      assert (a + b)[..|a + b| - 1] == a + b[..|b| - 1];
      OptionsConcat(a, b[..|b| - 1], isAxisCode);
    }
  }

  /** Each option comes from an entry of the input that is valid. */
  lemma {:induction false} OptionsFromValid(items: seq<Json>, isAxisCode: string -> bool, i: int)
    requires 0 <= i < |Options(items, isAxisCode)|
    ensures exists j :: 0 <= j < |items| && Valid(items[j], isAxisCode) && Options(items, isAxisCode)[i] == Entry(items[j])
    decreases |items|
  {
    var prefix := items[..|items| - 1];
    var last := items[|items| - 1];
    if i < |Options(prefix, isAxisCode)| {
      OptionsFromValid(prefix, isAxisCode, i);
      var j :| 0 <= j < |prefix| && Valid(prefix[j], isAxisCode) && Options(prefix, isAxisCode)[i] == Entry(prefix[j]);
      assert items[j] == prefix[j];
    } else {
      assert Options(items, isAxisCode)[i] == Entry(last);
    }
  }

  /** `normalizeOptions(options)`: anything that is not an array gives no options. */
  function NormalizeOptions(options: Option<Json>, isAxisCode: string -> bool): (r: seq<PollOption>)
    ensures !(options.Some? && options.value.JArr?) ==> r == []
    ensures options.Some? && options.value.JArr? ==> r == Options(options.value.items, isAxisCode)
  {
    if options.Some? && options.value.JArr? then Options(options.value.items, isAxisCode) else []
  }

  /** `options` as given, or parsed when it is a string; text that does not parse becomes `[]`. */
  function ResolveOptions(options: Option<Json>, parse: string -> Option<Json>): (r: Option<Json>)
    ensures !(options.Some? && options.value.JStr?) ==> r == options
    ensures options.Some? && options.value.JStr? && parse(options.value.s).None? ==> r == Some(JArr([]))
    ensures options.Some? && options.value.JStr? && parse(options.value.s).Some? ==> r == parse(options.value.s)
  {
    if options.Some? && options.value.JStr? then
      var parsed := parse(options.value.s);
      if parsed.Some? then parsed else Some(JArr([]))
    else options
  }

  /** The texts the poll shows: `{ ...defaultStrings, ...strings }`, every default being `''`. */
  function Text(strings: Option<Json>, key: string): Json {
    Prop(strings, key).GetOr(JStr(""))
  }

  /** The status line: hidden, or shown with a variant and a message. */
  datatype StatusLine = StatusLine(hidden: bool, variant: string, text: Json)

  /** `setStatus(message, variant)`: a falsy message hides the line and empties it, keeping the variant. */
  function SetStatus(line: StatusLine, message: Json, variant: string): (r: StatusLine)
    ensures !Truthy(message) ==> r == StatusLine(true, line.variant, JStr(""))
    ensures Truthy(message) ==> r == StatusLine(false, variant, message)
  {
    if !Truthy(message) then StatusLine(true, line.variant, JStr("")) else StatusLine(false, variant, message)
  }

  /** A started poll: its options, the texts and locale it uses, its status line and whether submit is disabled. */
  datatype Poll = Poll(options: seq<PollOption>, strings: Option<Json>, locale: Json, status: StatusLine, submitDisabled: bool)

  /**
   * `initEfbdPoll(...)`: `false` (here `None`) without a root and a mount, without a
   * `recordAnswer` function, without any valid option, or when no form can be created.
   */
  function Init(hasRoot: bool, hasMount: bool, hasRecordAnswer: bool, options: Option<Json>, strings: Option<Json>,
                locale: Json, canCreateForm: bool, parse: string -> Option<Json>, isAxisCode: string -> bool): (r: Option<Poll>)
    ensures r.Some? <==> (
      && hasRoot && hasMount && hasRecordAnswer && canCreateForm
      && |NormalizeOptions(ResolveOptions(options, parse), isAxisCode)| > 0)
    ensures r.Some? ==> (
      && r.value.options == NormalizeOptions(ResolveOptions(options, parse), isAxisCode)
      && r.value.status.hidden && !r.value.submitDisabled)
  {
    var resolved := ResolveOptions(options, parse);
    if !hasRoot || !hasMount || !hasRecordAnswer then None
    else
      var normalized := NormalizeOptions(resolved, isAxisCode);
      if |normalized| == 0 || !canCreateForm then None
      else Some(Poll(normalized, strings, locale, StatusLine(true, "info", JStr("")), false))
  }

  /** The answer handed to `scalePort.recordAnswer`. */
  datatype Answer = Answer(axis: string, value: int, source: string, answerKey: string, locale: Json, timestamp: string)

  /** How the awaited `recordAnswer` call ended: with a response (`None` for `undefined`) or by rejecting. */
  datatype Reply = Responded(response: Option<Json>) | Rejected

  /** `response?.status === 'ok' || response?.status === 'disabled'`. */
  predicate Accepted(response: Option<Json>) {
    Prop(response, "status") == Some(JStr("ok")) || Prop(response, "status") == Some(JStr("disabled"))
  }

  /**
   * The submit handler: `selected` is the checked radio's value, if any; `timestamp` is
   * `new Date().toISOString()`. Returns the poll afterwards and the answer recorded.
   */
  function Submit(p: Poll, selected: Option<string>, timestamp: string, reply: Reply, isAxisCode: string -> bool): (r: (Poll, Option<Answer>))
    ensures selected.None? ==> r == (p.(status := SetStatus(p.status, Text(p.strings, "required"), "error")), None)
    ensures selected.Some? && !isAxisCode(selected.value) ==> r == (p.(status := SetStatus(p.status, Text(p.strings, "error"), "error")), None)
    ensures r.1.Some? ==> (
      && selected.Some? && isAxisCode(selected.value)
      && r.1.value == Answer(selected.value, 1, "efbd-poll", selected.value, p.locale, timestamp))
    ensures selected.Some? && isAxisCode(selected.value) && reply.Responded? ==>
      && r.1.Some? && !r.0.submitDisabled
      && r.0.status == SetStatus(p.status, Text(p.strings, if Accepted(reply.response) then "success" else "error"),
                                 if Accepted(reply.response) then "success" else "error")
    ensures r.0.options == p.options
  {
    if selected.None? then (p.(status := SetStatus(p.status, Text(p.strings, "required"), "error")), None)
    else if !isAxisCode(selected.value) then (p.(status := SetStatus(p.status, Text(p.strings, "error"), "error")), None)
    else
      var axis := selected.value;
      var pending := p.(submitDisabled := true, status := SetStatus(p.status, JStr(""), "info"));
      var answer := Answer(axis, 1, "efbd-poll", axis, p.locale, timestamp);
      match reply
      case Rejected => (pending, Some(answer))
      case Responded(response) =>
        var status := if Accepted(response) then SetStatus(pending.status, Text(p.strings, "success"), "success")
          else SetStatus(pending.status, Text(p.strings, "error"), "error");
        (pending.(status := status, submitDisabled := false), Some(answer))
  }

  /** Submitting without a choice records nothing and leaves the button as it was. */
  lemma NoSelectionRecordsNothing(p: Poll, timestamp: string, reply: Reply, isAxisCode: string -> bool)
    ensures Submit(p, None, timestamp, reply, isAxisCode).1.None?
    ensures Submit(p, None, timestamp, reply, isAxisCode).0.submitDisabled == p.submitDisabled
  {
  }

  /**
   * When `recordAnswer` rejects, the handler stops at the `await`: the status line stays
   * cleared and the submit button stays disabled.
   */
  lemma RejectionLeavesSubmitDisabled(p: Poll, axis: string, timestamp: string, isAxisCode: string -> bool)
    requires isAxisCode(axis)
    ensures var r := Submit(p, Some(axis), timestamp, Rejected, isAxisCode);
      r.0.submitDisabled && r.0.status.hidden && r.1.Some?
  {
  }

  /** A stringified option list is read like the list itself. */
  lemma StringifiedOptions(options: Json, text: string, parse: string -> Option<Json>, isAxisCode: string -> bool)
    requires options.JArr? && parse(text) == Some(options)
    ensures NormalizeOptions(ResolveOptions(Some(JStr(text)), parse), isAxisCode)
      == NormalizeOptions(ResolveOptions(Some(options), parse), isAxisCode)
  {
  }
}

=== FILE: scroll_lock.dfy ===
/**
 * `DocumentScrollController`: the set of contexts holding the page's scroll lock, and
 * whether the lock class is on the target element. Without a target both operations
 * do nothing.
 */
module ScrollLock {
  import opened Wrappers

  datatype Controller = Controller(hasTarget: bool, contexts: set<string>, locked: bool)

  function NewController(hasTarget: bool): (c: Controller)
    ensures Consistent(c)
  {
    Controller(hasTarget, {}, false)
  }

  /** The class is on the target exactly while some context holds the lock. */
  predicate Consistent(c: Controller) {
    c.locked <==> |c.contexts| > 0
  }

  /** A context argument counts only when it is a non-empty string; `None` is any other falsy value. */
  predicate Given(context: Option<string>) {
    context.Some? && context.value != ""
  }

  /** `lock(context)`: adds a given context; the class is added once the set is non-empty. */
  function Lock(c: Controller, context: Option<string>): (r: Controller)
    ensures !c.hasTarget ==> r == c
    ensures c.hasTarget ==> r.contexts == c.contexts + (if Given(context) then {context.value} else {})
    ensures c.hasTarget && |r.contexts| > 0 ==> r.locked
    ensures |r.contexts| == 0 ==> r.locked == c.locked
    ensures r.hasTarget == c.hasTarget
  {
    if !c.hasTarget then c
    else
      var contexts := if Given(context) then c.contexts + {context.value} else c.contexts;
      c.(contexts := contexts, locked := if |contexts| > 0 then true else c.locked)
  }

  /** `unlock(context)`: removes a given context, or every context without one; the class goes once the set is empty. */
  function Unlock(c: Controller, context: Option<string>): (r: Controller)
    ensures !c.hasTarget ==> r == c
    ensures c.hasTarget ==> r.contexts == if Given(context) then c.contexts - {context.value} else {}
    ensures c.hasTarget && |r.contexts| == 0 ==> !r.locked
    ensures |r.contexts| > 0 ==> r.locked == c.locked
    ensures r.hasTarget == c.hasTarget
  {
    if !c.hasTarget then c
    else
      var contexts := if Given(context) then c.contexts - {context.value} else {};
      c.(contexts := contexts, locked := if |contexts| == 0 then false else c.locked)
  }

  /** Both operations keep the class in step with the context set. */
  lemma LockUnlockConsistent(c: Controller, context: Option<string>)
    requires Consistent(c)
    ensures Consistent(Lock(c, context)) && Consistent(Unlock(c, context))
  {
    if c.hasTarget && Given(context) {
      assert context.value in Lock(c, context).contexts;
    }
  }

  /** Locking twice with the same context is locking once. */
  lemma LockIdempotent(c: Controller, context: Option<string>)
    ensures Lock(Lock(c, context), context) == Lock(c, context)
  {
  }

  /** Each context is released by its own unlock: the page stays locked while another context holds it. */
  lemma OtherContextKeepsLock(c: Controller, x: string, y: string)
    requires Consistent(c) && c.hasTarget && x != "" && y != "" && x != y
    ensures var r := Unlock(Lock(Lock(c, Some(x)), Some(y)), Some(x));
      r.locked && y in r.contexts && x !in r.contexts
  {
    assert y in Unlock(Lock(Lock(c, Some(x)), Some(y)), Some(x)).contexts;
  }

  /** An unlock without a context releases every context and removes the class. */
  lemma UnlockAllReleases(c: Controller)
    requires c.hasTarget
    ensures var r := Unlock(c, None); r.contexts == {} && !r.locked && Consistent(r)
  {
  }

  /** A lock followed by the matching unlock on a free controller leaves it free again. */
  lemma LockThenUnlock(c: Controller, x: string)
    requires Consistent(c) && c.contexts == {} && x != ""
    ensures Unlock(Lock(c, Some(x)), Some(x)) == c
  {
    if c.hasTarget {
      assert Lock(c, Some(x)).contexts == {x};
      assert {x} - {x} == {};
    }
  }
}

=== FILE: seqs.dfy ===
/** Sequence helpers shared by the services that keep lists: the `filter` that drops one value. */
module Seqs {

  predicate NoDuplicates<T(==)>(s: seq<T>) {
    forall i, j :: 0 <= i < j < |s| ==> s[i] != s[j]
  }

  /** `s.filter((item) => item !== x)`. */
  function Without<T(==,!new)>(s: seq<T>, x: T): (r: seq<T>)
    ensures |r| <= |s|
    ensures forall y :: y in r <==> y in s && y != x
    ensures x !in s ==> r == s
    ensures NoDuplicates(s) ==> NoDuplicates(r)
  {
    if |s| == 0 then []
    else
      var r := Without(s[..|s| - 1], x) + (if s[|s| - 1] == x then [] else [s[|s| - 1]]);
      assert s == s[..|s| - 1] + [s[|s| - 1]];
      assert NoDuplicates(s) ==> s[|s| - 1] !in s[..|s| - 1];
      r
  }

  /** Filtering distributes over concatenation, so it keeps the order of what it keeps. */
  lemma {:induction false} WithoutConcat<T(!new)>(s: seq<T>, t: seq<T>, x: T)
    ensures Without(s + t, x) == Without(s, x) + Without(t, x)
    decreases |t|
  {
    if |t| == 0 {
      assert s + t == s;
    } else {
      assert (s + t)[..|s + t| - 1] == s + t[..|t| - 1];
      WithoutConcat(s, t[..|t| - 1], x);
    }
  }
}

=== FILE: session.dfy ===
/**
 * The edge worker's signed-cookie session codec and cookie store.
 *
 * A value is serialised (strings as they are, anything else through
 * `JSON.stringify`), UTF-8 encoded, written in the URL-safe base 64 alphabet
 * without padding (section 5 of RFC 4648), and followed by `.` and the
 * URL-safe base 64 text of an HMAC-SHA-256 tag (RFC 2104) over that text.
 * HMAC itself is a parameter of the model: only its output size is assumed.
 */
module Session {
  import opened Wrappers
  import opened Bytes
  import opened Json
  import Utf8
  import Base64
  import Decimal
  import opened JsText

  /** The key a `CryptoService` was built with, and the MAC it computes with it. */
  datatype Signer = Signer(secret: Option<string>, mac: (seq<byte>, seq<byte>) -> seq<byte>)

  /** HMAC-SHA-256 yields a 32-byte tag for every key and message. */
  ghost predicate HmacSha256Sized(mac: (seq<byte>, seq<byte>) -> seq<byte>) {
    forall key, msg :: |mac(key, msg)| == 32
  }

  predicate HasSecret(s: Signer) {
    s.secret.Some? && s.secret.value != ""
  }

  /** `CryptoService.sign`: `null` without a secret, else the URL-safe text of the tag. */
  function Sign(s: Signer, value: string): (r: Option<string>)
    ensures r.None? <==> !HasSecret(s)
    ensures r.Some? ==> Base64.AllUrl(r.value) && !Contains(r.value, '.')
  {
    if !HasSecret(s) then None
    else
      var tag := Base64.UrlEncode(s.mac(Utf8.Encode(s.secret.value), Utf8.Encode(value)));
      assert !Contains(tag, '.');
      Some(tag)
  }

  /** `const [encoded, signature] = token.split('.')`: the first two segments; the second is `undefined` without a `.`. */
  function SplitToken(token: string): (r: (string, Option<string>))
    ensures r.0 == UpTo(token, '.')
    ensures r.1.None? <==> !Contains(token, '.')
    ensures r.1.Some? ==> r.1.value == UpTo(token[|r.0| + 1..], '.')
  {
    var head := UpTo(token, '.');
    if |head| == |token| then
      assert token == head;
      (head, None)
    else (head, Some(UpTo(token[|head| + 1..], '.')))
  }

  /** A token assembled from two dot-free parts splits back into them. */
  lemma SplitJoin(a: string, b: string)
    requires !Contains(a, '.') && !Contains(b, '.')
    ensures SplitToken(a + "." + b) == (a, Some(b))
  {
    var t := a + "." + b;
    UpToNoChar(a + "." + b, a, '.');
    assert t[|a| + 1..] == b;
    UpToNoChar(b, b, '.');
    assert b + "" == b;
  }

  /** Bitwise exclusive or of two non-negative integers, bit by bit from the least significant. */
  function Xor(a: nat, b: nat): nat
    decreases a + b
  {
    if a == 0 && b == 0 then 0 else 2 * Xor(a / 2, b / 2) + (a % 2 + b % 2) % 2
  }

  /** Bitwise or of two non-negative integers. */
  function Or(a: nat, b: nat): nat
    decreases a + b
  {
    if a == 0 && b == 0 then 0 else 2 * Or(a / 2, b / 2) + (if a % 2 == 1 || b % 2 == 1 then 1 else 0)
  }

  lemma {:induction false} XorZero(a: nat, b: nat)
    ensures Xor(a, b) == 0 <==> a == b
    decreases a + b
  {
    if !(a == 0 && b == 0) {
      XorZero(a / 2, b / 2);
    }
  }

  lemma {:induction false} OrZero(a: nat, b: nat)
    ensures Or(a, b) == 0 <==> a == 0 && b == 0
    decreases a + b
  {
    if !(a == 0 && b == 0) {
      OrZero(a / 2, b / 2);
    }
  }

  /** The bits in which two character codes differ. */
  function CodeDiff(x: char, y: char): (d: nat)
    ensures d == 0 <==> x == y
  {
    XorZero(x as int, y as int);
    Xor(x as int, y as int)
  }

  /** `mismatch |= a.charCodeAt(i) ^ b.charCodeAt(i)` accumulated over the first `n` positions. */
  function Mismatch(a: string, b: string, n: nat): nat
    requires n <= |a| && n <= |b|
  {
    if n == 0 then 0 else Or(Mismatch(a, b, n - 1), CodeDiff(a[n - 1], b[n - 1]))
  }

  /** No bit is set in the accumulator exactly when the first `n` characters agree. */
  lemma {:induction false} MismatchZero(a: string, b: string, n: nat)
    requires n <= |a| && n <= |b|
    ensures Mismatch(a, b, n) == 0 <==> a[..n] == b[..n]
  {
    if n > 0 {
      MismatchZero(a, b, n - 1);
      OrZero(Mismatch(a, b, n - 1), CodeDiff(a[n - 1], b[n - 1]));
      PrefixStep(a, b, n);
    }
  }

  lemma PrefixStep(a: string, b: string, n: nat)
    requires 0 < n <= |a| && n <= |b|
    ensures a[..n] == b[..n] <==> a[..n - 1] == b[..n - 1] && a[n - 1] == b[n - 1]
  {
    assert a[..n] == a[..n - 1] + [a[n - 1]];
    assert b[..n] == b[..n - 1] + [b[n - 1]];
    if a[..n] == b[..n] {
      assert a[..n - 1] == a[..n][..n - 1];
      assert b[..n - 1] == b[..n][..n - 1];
      assert a[n - 1] == a[..n][n - 1];
    }
  }

  /**
   * `timingSafeEqual`: different lengths are unequal at once; otherwise every
   * position is visited and the differing bits are or-ed together.
   */
  function TimingSafeEqual(a: string, b: string): (r: bool)
    ensures r <==> a == b
  {
    if |a| != |b| then false
    else
      MismatchZero(a, b, |a|);
      assert a[..|a|] == a && b[..|b|] == b;
      Mismatch(a, b, |a|) == 0
  }

  /** The same comparison as a loop, as the worker runs it. */
  method TimingSafeEqualLoop(a: string, b: string) returns (r: bool)
    ensures r <==> a == b
  {
    if |a| != |b| {
      return false;
    }
    var mismatch: nat := 0;
    var i := 0;
    while i < |a|
      invariant 0 <= i <= |a|
      invariant mismatch == Mismatch(a, b, i)
    {
      mismatch := Or(mismatch, CodeDiff(a[i], b[i]));
      i := i + 1;
    }
    MismatchZero(a, b, |a|);
    assert a[..|a|] == a && b[..|b|] == b;
    r := mismatch == 0;
  }

  datatype SessionError =
    | SigningKeyMissing   // "Session signing key is missing"
    | InvalidTokenFormat  // "Invalid token format"
    | SignatureMismatch   // "Token signature mismatch"
    | InvalidEncoding     // `atob` rejects the payload text
    | ProfileMissing      // reading a property of `null`/`undefined`

  const StateKey: string := "discord_oauth_state"
  const SessionKey: string := "interdead_session"
  const DefaultStateTtl: int := 600
  const DefaultSessionTtl: int := 60 * 60 * 24 * 30

  /** A `CookieSessionStore`: the request's cookies and the `Set-Cookie` directives queued so far. */
  datatype Store = Store(
    signer: Signer,
    codec: JsonCodec,
    cookies: map<string, string>,
    pending: seq<string>,
    stateTtl: int,
    sessionTtl: int)

  /** The constructor: a copy of the incoming cookies, an empty queue, the TTL options or their defaults. */
  function NewStore(secret: Option<string>, mac: (seq<byte>, seq<byte>) -> seq<byte>, codec: JsonCodec,
                    cookies: map<string, string>, stateTtl: Option<int>, sessionTtl: Option<int>): (r: Store)
    ensures r.cookies == cookies && r.pending == []
    ensures r.stateTtl == (if stateTtl.Some? then stateTtl.value else 600)
    ensures r.sessionTtl == (if sessionTtl.Some? then sessionTtl.value else 2592000)
  {
    Store(Signer(secret, mac), codec, cookies, [], stateTtl.GetOr(DefaultStateTtl), sessionTtl.GetOr(DefaultSessionTtl))
  }

  const CookieAttributes: string := ";" + " Path=/; HttpOnly; Secure; SameSite=Lax; Max-Age="

  /**
   * `buildCookie`: one `Set-Cookie` value (section 4.1 of RFC 6265). It starts with the
   * cookie's name and `=`, and a name without `=` and a value without `;` read back from it,
   * together with its `Max-Age`.
   */
  function BuildCookie(name: string, value: string, maxAge: int): (r: string)
    ensures |r| > |name| && r[..|name|] == name && r[|name|] == '='
    ensures !Contains(name, '=') && !Contains(value, ';') ==> ParseCookie(r) == Some((name, value, maxAge))
  {
    var rest := value + CookieAttributes + Decimal.IntToString(maxAge);
    assert !Contains(name, '=') && !Contains(value, ';') ==> ParseCookie(name + "=" + rest) == Some((name, value, maxAge)) by {
      if !Contains(name, '=') && !Contains(value, ';') {
        DirectiveReadsBack(name, value, maxAge, rest);
      }
    }
    name + "=" + rest
  }

  /** Reads a directive back into its name, value and `Max-Age`. */
  function ParseCookie(d: string): Option<(string, string, int)> {
    var name := UpTo(d, '=');
    if |name| == |d| then None
    else
      match ParseValue(d[|name| + 1..])
      case None => None
      case Some((value, age)) => Some((name, value, age))
  }

  function ParseValue(rest: string): Option<(string, int)> {
    var value := UpTo(rest, ';');
    match ParseMaxAge(rest[|value|..])
    case None => None
    case Some(age) => Some((value, age))
  }

  function ParseMaxAge(tail: string): Option<int> {
    if |tail| < |CookieAttributes| || tail[..|CookieAttributes|] != CookieAttributes then None
    else Decimal.ParseInt(tail[|CookieAttributes|..])
  }

  lemma AttributesStart()
    ensures |CookieAttributes| > 0 && CookieAttributes[0] == ';'
  {
  }

  lemma ParseMaxAgeRoundTrip(maxAge: int)
    ensures ParseMaxAge(CookieAttributes + Decimal.IntToString(maxAge)) == Some(maxAge)
  {
    var t := CookieAttributes + Decimal.IntToString(maxAge);
    assert t[..|CookieAttributes|] == CookieAttributes;
    assert t[|CookieAttributes|..] == Decimal.IntToString(maxAge);
    Decimal.IntToStringRoundTrip(maxAge);
  }

  lemma ParseValueRoundTrip(value: string, maxAge: int)
    requires !Contains(value, ';')
    ensures ParseValue(value + CookieAttributes + Decimal.IntToString(maxAge)) == Some((value, maxAge))
  {
    var tail := CookieAttributes + Decimal.IntToString(maxAge);
    var rest := value + tail;
    assert value + CookieAttributes + Decimal.IntToString(maxAge) == rest;
    AttributesStart();
    assert rest[|value|] == ';';
    assert rest[..|value|] == value;
    UpToNoChar(rest, value, ';');
    assert rest[|value|..] == tail;
    ParseMaxAgeRoundTrip(maxAge);
  }

  /** The directive text says what it was built from. */
  lemma DirectiveReadsBack(name: string, value: string, maxAge: int, rest: string)
    requires !Contains(name, '=') && !Contains(value, ';')
    requires rest == value + CookieAttributes + Decimal.IntToString(maxAge)
    ensures ParseCookie(name + "=" + rest) == Some((name, value, maxAge))
  {
    var d := name + "=" + rest;
    assert d[|name|] == '=' && d[..|name|] == name;
    UpToNoChar(d, name, '=');
    assert d[|name| + 1..] == rest;
    ParseValueRoundTrip(value, maxAge);
  }

  /** What `encode` serialises: a string as it is, anything else through `JSON.stringify`. */
  function Serialize(codec: JsonCodec, v: Json): string {
    if v.JStr? then v.s else codec.stringify(v)
  }

  /** `base64UrlEncode`: UTF-8, then URL-safe base 64 without padding. */
  function EncodeText(s: string): (r: string)
    ensures Base64.AllUrl(r) && !Contains(r, '.')
    ensures |r| == 0 <==> |s| == 0
  {
    var r := Base64.UrlEncode(Utf8.Encode(s));
    assert |s| > 0 ==> |Utf8.Encode(s)| > 0 by {
      if |s| > 0 {
        assert Utf8.Encode(s) == Utf8.EncodeChar(s[0]) + Utf8.Encode(s[1..]);
      }
    }
    r
  }

  /** `base64UrlDecode`: `None` where `atob` throws; the bytes then go through `new TextDecoder().decode`. */
  function DecodeText(s: string): Option<string> {
    match Base64.UrlDecode(s)
    case None => None
    case Some(bytes) => Some(Utf8.Decode(bytes))
  }

  lemma DecodeEncodeText(s: string)
    requires |s| == 0 || s[0] != Utf8.ByteOrderMark
    ensures DecodeText(EncodeText(s)) == Some(s)
  {
    Base64.UrlRoundTrip(Utf8.Encode(s));
    Utf8.DecodeEncode(s);
  }

  /** `encode`: the payload text, a dot and its signature; fails without a signing key. */
  function Encode(st: Store, v: Json): (r: Result<string, SessionError>)
    ensures r.Err? <==> Sign(st.signer, EncodeText(Serialize(st.codec, v))).None? ||
                        Sign(st.signer, EncodeText(Serialize(st.codec, v))).value == ""
    ensures r.Err? ==> r.error == SigningKeyMissing
    ensures r.Ok? ==> SplitToken(r.value) == (EncodeText(Serialize(st.codec, v)), Sign(st.signer, EncodeText(Serialize(st.codec, v))))
    ensures r.Ok? ==> |r.value| == |EncodeText(Serialize(st.codec, v))| + 1 + |Sign(st.signer, EncodeText(Serialize(st.codec, v))).value|
  {
    var encoded := EncodeText(Serialize(st.codec, v));
    var signature := Sign(st.signer, encoded);
    if signature.None? || signature.value == "" then Err(SigningKeyMissing)
    else
      SplitJoin(encoded, signature.value);
      Ok(encoded + "." + signature.value)
  }

  /** The payload of a verified token: its text, parsed as JSON where `JSON.parse` accepts it. */
  function Payload(codec: JsonCodec, encoded: string): (r: Result<Json, SessionError>)
    ensures r.Err? <==> DecodeText(encoded).None?
    ensures r.Err? ==> r.error == InvalidEncoding
    ensures r.Ok? && codec.parse(DecodeText(encoded).value).None? ==> r.value == JStr(DecodeText(encoded).value)
    ensures r.Ok? && codec.parse(DecodeText(encoded).value).Some? ==> r.value == codec.parse(DecodeText(encoded).value).value
  {
    match DecodeText(encoded)
    case None => Err(InvalidEncoding)
    case Some(text) =>
      match codec.parse(text)
      case Some(v) => Ok(v)
      case None => Ok(JStr(text))
  }

  /** Both segments are present and non-empty. */
  predicate WellFormedToken(token: string) {
    var (encoded, signature) := SplitToken(token);
    encoded != "" && signature.Some? && signature.value != ""
  }

  /**
   * `decode`: the first two segments must both be non-empty, the signature must equal
   * the one recomputed over the first, and the payload must be valid base 64; the text
   * is then `JSON.parse`d, falling back to the text itself when that throws.
   */
  function Decode(st: Store, token: string): (r: Result<Json, SessionError>)
    ensures r == Err(InvalidTokenFormat) <==> !WellFormedToken(token)
    ensures r == Err(SignatureMismatch) <==>
      WellFormedToken(token) && Sign(st.signer, SplitToken(token).0) != SplitToken(token).1
    ensures r.Ok? ==> Sign(st.signer, SplitToken(token).0) == SplitToken(token).1
  {
    var (encoded, signature) := SplitToken(token);
    if encoded == "" || signature.None? || signature.value == "" then Err(InvalidTokenFormat)
    else
      var expected := Sign(st.signer, encoded);
      if expected.None? || expected.value == "" || !TimingSafeEqual(expected.value, signature.value) then Err(SignatureMismatch)
      else Payload(st.codec, encoded)
  }

  /** Without a signing key nothing decodes. */
  lemma DecodeWithoutSecret(st: Store, token: string)
    requires !HasSecret(st.signer)
    ensures Decode(st, token).Err?
  {
  }

  /** Without a signing key nothing encodes. */
  lemma EncodeWithoutSecret(st: Store, v: Json)
    requires !HasSecret(st.signer)
    ensures Encode(st, v) == Err(SigningKeyMissing)
  {
  }

  /** A signing key is set and the MAC gives 32-byte tags: the store signs every text it encodes. */
  ghost predicate Keyed(st: Store) {
    HasSecret(st.signer) && HmacSha256Sized(st.signer.mac)
  }

  /** A keyed store whose JSON obeys the round-trip law: what it stores reads back. */
  ghost predicate Sound(st: Store) {
    Keyed(st) && Lawful(st.codec)
  }

  lemma SignNonEmpty(st: Store, value: string)
    requires Keyed(st)
    ensures Sign(st.signer, value).Some? && Sign(st.signer, value).value != ""
  {
    var tag := st.signer.mac(Utf8.Encode(st.signer.secret.value), Utf8.Encode(value));
    assert |tag| == 32;
    assert |Base64.EncodeBody(tag)| > 0;
  }

  /** Decoding a token the store issued for a payload text yields that text, parsed if it parses. */
  lemma DecodeOwnToken(st: Store, v: Json)
    requires Keyed(st)
    requires Serialize(st.codec, v) != ""
    requires Serialize(st.codec, v)[0] != Utf8.ByteOrderMark
    ensures Encode(st, v).Ok?
    ensures Decode(st, Encode(st, v).value) ==
      (match st.codec.parse(Serialize(st.codec, v))
       case Some(w) => Ok(w)
       case None => Ok(JStr(Serialize(st.codec, v))))
  {
    var text := Serialize(st.codec, v);
    var encoded := EncodeText(text);
    SignNonEmpty(st, encoded);
    DecodeEncodeText(text);
  }

  /** Every well-formed non-string value survives `encode` then `decode`. */
  lemma EncodeDecodeValue(st: Store, v: Json)
    requires Sound(st)
    requires WellFormed(v) && !v.JStr?
    ensures Encode(st, v).Ok? && Decode(st, Encode(st, v).value) == Ok(v)
  {
    assert st.codec.parse(st.codec.stringify(v)) == Some(v);
    DecodeOwnToken(st, v);
  }

  /** A non-empty string that is not JSON text and does not start with U+FEFF survives the round trip. */
  lemma EncodeDecodeString(st: Store, s: string)
    requires Keyed(st)
    requires s != "" && s[0] != Utf8.ByteOrderMark
    requires st.codec.parse(s).None?
    ensures Encode(st, JStr(s)).Ok? && Decode(st, Encode(st, JStr(s)).value) == Ok(JStr(s))
  {
    DecodeOwnToken(st, JStr(s));
  }

  /** A string that is itself JSON text comes back as the value it denotes, not as the string. */
  lemma EncodeDecodeJsonText(st: Store, s: string, w: Json)
    requires Keyed(st)
    requires s != "" && s[0] != Utf8.ByteOrderMark
    requires st.codec.parse(s) == Some(w)
    ensures Decode(st, Encode(st, JStr(s)).value) == Ok(w)
  {
    DecodeOwnToken(st, JStr(s));
  }

  /** The empty string encodes to a token with an empty first segment, which `decode` refuses. */
  lemma EncodeDecodeEmptyString(st: Store)
    requires Keyed(st)
    ensures Encode(st, JStr("")).Ok?
    ensures Decode(st, Encode(st, JStr("")).value) == Err(InvalidTokenFormat)
  {
    SignNonEmpty(st, EncodeText(""));
  }

  /** A token whose payload was altered is refused unless the altered payload's signature is the same tag. */
  lemma TamperedPayloadRejected(st: Store, encoded: string, signature: string)
    requires !Contains(encoded, '.') && !Contains(signature, '.')
    requires Sign(st.signer, encoded) != Some(signature)
    ensures Decode(st, encoded + "." + signature).Err?
  {
    SplitJoin(encoded, signature);
  }

  /** `storeAndEncode`: on success the cookie map holds the token and exactly one directive is queued. */
  function StoreAndEncode(st: Store, key: string, v: Json, ttl: int): (r: Result<(Store, string), SessionError>)
    ensures r.Err? <==> Encode(st, v).Err?
    ensures r.Ok? ==>
      && r.value.1 == Encode(st, v).value
      && r.value.0.cookies == st.cookies[key := r.value.1]
      && r.value.0.pending == st.pending + [BuildCookie(key, r.value.1, ttl)]
      && r.value.0.signer == st.signer && r.value.0.codec == st.codec
      && r.value.0.stateTtl == st.stateTtl && r.value.0.sessionTtl == st.sessionTtl
  {
    var encoded :- Encode(st, v);
    Ok((st.(cookies := st.cookies[key := encoded], pending := st.pending + [BuildCookie(key, encoded, ttl)]), encoded))
  }

  /** `set`: stores the value under `key` with the state lifetime. */
  function Set(st: Store, key: string, v: Json): (r: Result<Store, SessionError>)
    ensures r.Ok? <==> StoreAndEncode(st, key, v, st.stateTtl).Ok?
    ensures r.Ok? ==> r.value == StoreAndEncode(st, key, v, st.stateTtl).value.0
  {
    var (st', _) :- StoreAndEncode(st, key, v, st.stateTtl);
    Ok(st')
  }

  /** `get`: `undefined` for a missing or empty cookie and for any token that fails to decode. */
  function Get(st: Store, key: string): (r: Option<Json>)
    ensures r.Some? <==> key in st.cookies && st.cookies[key] != "" && Decode(st, st.cookies[key]).Ok?
    ensures r.Some? ==> Decode(st, st.cookies[key]) == Ok(r.value)
  {
    if key !in st.cookies || st.cookies[key] == "" then None
    else
      match Decode(st, st.cookies[key])
      case Ok(v) => Some(v)
      case Err(_) => None
  }

  /** `delete`: the cookie is dropped and a `deleted` directive with `Max-Age=0` is queued. */
  function Delete(st: Store, key: string): (r: Store)
    ensures key !in r.cookies
    ensures forall k :: k != key ==> (k in r.cookies <==> k in st.cookies)
    ensures forall k :: k in r.cookies ==> r.cookies[k] == st.cookies[k]
    ensures r.pending == st.pending + [BuildCookie(key, "deleted", 0)]
  {
    st.(cookies := st.cookies - {key}, pending := st.pending + [BuildCookie(key, "deleted", 0)])
  }

  function GetRaw(st: Store, key: string): (r: Option<string>)
    ensures r.Some? <==> key in st.cookies
    ensures r.Some? ==> r.value == st.cookies[key]
  {
    if key in st.cookies then Some(st.cookies[key]) else None
  }

  /** `readSession`: the session cookie's value, when it is present, non-empty and carries a valid signature. */
  function ReadSession(st: Store): (r: Option<Json>)
    ensures r.Some? <==> SessionKey in st.cookies && st.cookies[SessionKey] != "" && Decode(st, st.cookies[SessionKey]).Ok?
    ensures r.Some? ==> Decode(st, st.cookies[SessionKey]) == Ok(r.value)
  {
    Get(st, SessionKey)
  }

  /** `collectCookies`: a copy of the queued directives, oldest first; reading cookies never queues one. */
  function CollectCookies(st: Store): (r: seq<string>)
    ensures |r| == |st.pending| && forall i :: 0 <= i < |r| ==> r[i] == st.pending[i]
  {
    st.pending
  }

  /** The object `issueSession` stores: `profileId` and `displayName` when defined, then `issuedAt`. */
  function SessionPayload(profile: Json, now: int): (r: Json)
    ensures r.JObj?
    ensures Lookup(r.fields, "issuedAt") == Some(JNum(now))
    ensures Lookup(r.fields, "profileId") == Prop(Some(profile), "profileId")
    ensures Lookup(r.fields, "displayName") == Prop(Some(profile), "displayName")
    ensures forall i :: 0 <= i < |r.fields| ==> r.fields[i].0 in PayloadKeys
    ensures DistinctKeys(r.fields)
  {
    JObj(PayloadFields(Prop(Some(profile), "profileId"), Prop(Some(profile), "displayName"), now))
  }

  function PayloadFields(id: Option<Json>, name: Option<Json>, now: int): (fields: seq<(string, Json)>)
    ensures Lookup(fields, "issuedAt") == Some(JNum(now))
    ensures Lookup(fields, "profileId") == id
    ensures Lookup(fields, "displayName") == name
    ensures forall i :: 0 <= i < |fields| ==> fields[i].0 in PayloadKeys
    ensures DistinctKeys(fields)
  {
    PayloadKeysDistinct();
    var issued := ("issuedAt", JNum(now));
    var fields :=
      if id.Some? && name.Some? then [("profileId", id.value), ("displayName", name.value), issued]
      else if id.Some? then [("profileId", id.value), issued]
      else if name.Some? then [("displayName", name.value), issued]
      else [issued];
    assert DistinctKeys(fields);
    forall i | 0 <= i < |fields|
      ensures Lookup(fields, fields[i].0) == Some(fields[i].1)
    {
      LookupDistinct(fields, i);
    }
    assert fields[|fields| - 1] == issued;
    fields
  }

  const PayloadKeys: set<string> := {"profileId", "displayName", "issuedAt"}

  lemma PayloadKeysDistinct()
    ensures "profileId" != "displayName" && "profileId" != "issuedAt" && "displayName" != "issuedAt"
  {
    assert |"profileId"| == 9 && |"displayName"| == 11 && |"issuedAt"| == 8;
  }

  /** `issueSession`: stores the payload under the session key with the session lifetime; `now` is `Date.now()`. */
  function IssueSession(st: Store, profile: Option<Json>, now: int): (r: Result<(Store, string), SessionError>)
    ensures Nullish(profile) ==> r == Err(ProfileMissing)
    ensures !Nullish(profile) ==> r == StoreAndEncode(st, SessionKey, SessionPayload(profile.value, now), st.sessionTtl)
  {
    if Nullish(profile) then Err(ProfileMissing)
    else StoreAndEncode(st, SessionKey, SessionPayload(profile.value, now), st.sessionTtl)
  }

  /** A value stored under a key is what `get` returns for it afterwards. */
  lemma StoreThenGet(st: Store, key: string, v: Json, ttl: int)
    requires Sound(st)
    requires WellFormed(v) && !v.JStr?
    ensures StoreAndEncode(st, key, v, ttl).Ok?
    ensures Get(StoreAndEncode(st, key, v, ttl).value.0, key) == Some(v)
  {
    EncodeDecodeValue(st, v);
    var token := Encode(st, v).value;
    var st' := StoreAndEncode(st, key, v, ttl).value.0;
    assert st'.cookies[key] == token;
    assert token != "" by {
      assert WellFormedToken(token);
    }
    assert Decode(st', token) == Decode(st, token);
  }

  /** A value `set` under a key is what `get` returns for it afterwards. */
  lemma SetThenGet(st: Store, key: string, v: Json)
    requires Sound(st)
    requires WellFormed(v) && !v.JStr?
    ensures Set(st, key, v).Ok?
    ensures Get(Set(st, key, v).value, key) == Some(v)
  {
    StoreThenGet(st, key, v, st.stateTtl);
  }

  /** After `delete` the key reads as `undefined`. */
  lemma DeleteThenGet(st: Store, key: string)
    ensures Get(Delete(st, key), key).None?
    ensures GetRaw(Delete(st, key), key).None?
  {
  }

  /** No payload key is an array index, so the payload's keys are in enumeration order. */
  lemma PayloadKeyOrder(profile: Json, now: int)
    ensures InJsKeyOrder(SessionPayload(profile, now).fields)
  {
    var fields := SessionPayload(profile, now).fields;
    forall j | 0 <= j < |fields|
      ensures !IsArrayIndex(fields[j].0)
    {
      var k := fields[j].0;
      assert k in PayloadKeys;
      assert k[0] in {'p', 'd', 'i'};
      NotArrayIndex(k);
    }
  }

  lemma PayloadWellFormed(profile: Json, now: int)
    requires WellFormed(profile)
    requires -MaxSafeInteger <= now <= MaxSafeInteger
    ensures WellFormed(SessionPayload(profile, now))
  {
    var fields := SessionPayload(profile, now).fields;
    PayloadKeyOrder(profile, now);
    forall i | 0 <= i < |fields|
      ensures WellFormed(fields[i].1)
    {
      var k := fields[i].0;
      LookupDistinct(fields, i);
      if k != "issuedAt" {
        PropWellFormed(profile, k);
      }
    }
  }

  /**
   * After `issueSession` the raw session cookie is the issued token and `readSession`
   * returns the stored payload; exactly one directive with the session lifetime is queued.
   */
  lemma IssueThenRead(st: Store, profile: Json, now: int)
    requires Sound(st)
    requires WellFormed(profile) && profile != JNull
    requires -MaxSafeInteger <= now <= MaxSafeInteger
    ensures IssueSession(st, Some(profile), now).Ok?
    ensures GetRaw(IssueSession(st, Some(profile), now).value.0, SessionKey) == Some(IssueSession(st, Some(profile), now).value.1)
    ensures ReadSession(IssueSession(st, Some(profile), now).value.0) == Some(SessionPayload(profile, now))
    ensures CollectCookies(IssueSession(st, Some(profile), now).value.0) ==
      st.pending + [BuildCookie(SessionKey, IssueSession(st, Some(profile), now).value.1, st.sessionTtl)]
  {
    var payload := SessionPayload(profile, now);
    PayloadWellFormed(profile, now);
    StoreThenGet(st, SessionKey, payload, st.sessionTtl);
    assert IssueSession(st, Some(profile), now) == StoreAndEncode(st, SessionKey, payload, st.sessionTtl);
  }

  /** `set`, `issueSession` and `delete` each queue exactly one directive; reads queue none. */
  lemma OneCookiePerMutation(st: Store, key: string, v: Json, profile: Option<Json>, now: int)
    ensures Set(st, key, v).Ok? ==> |CollectCookies(Set(st, key, v).value)| == |st.pending| + 1
    ensures Set(st, key, v).Err? ==> Encode(st, v) == Err(SigningKeyMissing)
    ensures IssueSession(st, profile, now).Ok? ==> |IssueSession(st, profile, now).value.0.pending| == |st.pending| + 1
    ensures |Delete(st, key).pending| == |st.pending| + 1
  {
  }
}

=== FILE: slider_dom_mapper.dfy ===
/**
 * `SliderDomMapper`: slides read from the slide elements' `data-*` attributes, and the
 * element kept for each slide so that its count can be written back.
 *
 * A slide is referred to by the position at which the mapper created it (the code keys
 * a `Map` by the entity object). `Number(text)` is a parameter: `None` for a text that
 * does not convert to a finite number.
 */
module SliderDomMapper {
  import opened Wrappers
  import opened SliderModel
  import Decimal

  /** An element: its `dataset` and its `id` property, `None` when the object has none (a DOM element always has one). */
  datatype Element = Element(dataset: map<string, string>, id: Option<string>)

  datatype Mapper = Mapper(elements: seq<Element>, collection: seq<Slide>)

  /** `Array.from(elements).filter(Boolean)`: `None` is a falsy entry. */
  function Present(xs: seq<Option<Element>>): (r: seq<Element>)
    ensures |r| <= |xs|
    ensures forall e :: e in r <==> Some(e) in xs
  {
    if |xs| == 0 then []
    else Present(xs[..|xs| - 1]) + (if xs[|xs| - 1].Some? then [xs[|xs| - 1].value] else [])
  }

  /**
   * The filter works entry by entry: it distributes over concatenation, keeps a present
   * element and drops a missing one, so order and repeats survive.
   */
  lemma {:induction false} PresentConcat(a: seq<Option<Element>>, b: seq<Option<Element>>)
    ensures Present(a + b) == Present(a) + Present(b)
    ensures forall e :: Present([Some(e)]) == [e]
    ensures Present([None]) == []
    decreases |b|
  {
    if |b| == 0 {
      assert a + b == a;
    } else {
      assert (a + b)[..|a + b| - 1] == a + b[..|b| - 1];
      PresentConcat(a, b[..|b| - 1]);
    }
    forall e ensures Present([Some(e)]) == [e] {
      assert [Some(e)][..0] == [];
    }
    var none: seq<Option<Element>> := [None];
    assert none[..0] == [];
  }

  /** `Number(dataset[name])`: `undefined` gives `NaN`. */
  function DatasetNumber(e: Element, name: string, toNumber: string -> Option<real>): Option<real> {
    if name in e.dataset then toNumber(e.dataset[name]) else None
  }

  /** `dataset.slideId ?? element.id ?? 'slide-<index>'`: only a missing value falls through, an empty one does not. */
  function SlideId(e: Element, index: nat): (r: string)
    ensures "slideId" in e.dataset ==> r == e.dataset["slideId"]
    ensures "slideId" !in e.dataset && e.id.Some? ==> r == e.id.value
    ensures "slideId" !in e.dataset && e.id.None? ==> r == "slide-" + Decimal.NatToString(index)
  {
    if "slideId" in e.dataset then e.dataset["slideId"]
    else if e.id.Some? then e.id.value
    else "slide-" + Decimal.NatToString(index)
  }

  /** `createEntity(element, index)`. */
  function CreateEntity(e: Element, index: nat, toNumber: string -> Option<real>): (s: Slide)
    ensures s.id == Some(SlideId(e, index))
    ensures s.order == DatasetNumber(e, "index", toNumber).GetOr((index + 1) as real)
    ensures s.mediums.Some? <==> DatasetNumber(e, "mediums", toNumber).Some? && DatasetNumber(e, "mediums", toNumber).value > 0.0
    ensures s.mediums.Some? ==> s.mediums.value == Trunc(DatasetNumber(e, "mediums", toNumber).value)
  {
    var raw := DatasetNumber(e, "mediums", toNumber);
    var order := DatasetNumber(e, "index", toNumber);
    NewSlide(Some(SlideId(e, index)), if raw.Some? then raw else Some(0.0), Some(order.GetOr((index + 1) as real)))
  }

  /** `new SliderDomMapper(elements)`: one slide per present element, in order. */
  function NewMapper(xs: seq<Option<Element>>, toNumber: string -> Option<real>): (m: Mapper)
    ensures m.elements == Present(xs) && |m.collection| == |m.elements|
    ensures forall i :: 0 <= i < |m.collection| ==> m.collection[i] == CreateEntity(m.elements[i], i, toNumber)
  {
    var elements := Present(xs);
    Mapper(elements, seq(|elements|, i requires 0 <= i < |elements| => CreateEntity(elements[i], i, toNumber)))
  }

  /** `getElement(entity)`: the element of a slide this mapper created, `null` for any other. */
  function GetElement(m: Mapper, slide: nat): (r: Option<Element>)
    ensures r.Some? <==> slide < |m.elements|
  {
    if slide < |m.elements| then Some(m.elements[slide]) else None
  }

  /**
   * `updateElementMediums(entity)`: writes the count of `entity` to its element's
   * `data-mediums`, or removes the attribute when the slide has no count.
   */
  function UpdateElementMediums(m: Mapper, slide: nat, entity: Slide): (r: Mapper)
    ensures slide >= |m.elements| ==> r == m
    ensures |r.elements| == |m.elements| && r.collection == m.collection
    ensures forall i :: 0 <= i < |m.elements| && i != slide ==> r.elements[i] == m.elements[i]
    ensures slide < |m.elements| ==> r.elements[slide].id == m.elements[slide].id
  {
    if slide >= |m.elements| then m
    else
      var e := m.elements[slide];
      var ds := if HasMediums(entity) then e.dataset["mediums" := Decimal.NatToString(entity.mediums.value)]
        else e.dataset - {"mediums"};
      m.(elements := m.elements[slide := e.(dataset := ds)])
  }

  /** What the updated element carries reads back, through `Number`, as the slide's count. */
  lemma UpdateThenRead(m: Mapper, slide: nat, entity: Slide)
    requires slide < |m.elements|
    ensures var e := UpdateElementMediums(m, slide, entity).elements[slide];
      && ("mediums" in e.dataset <==> HasMediums(entity))
      && (HasMediums(entity) ==> Decimal.DigitsValue(e.dataset["mediums"]) == entity.mediums.value)
      && (forall k :: k in e.dataset && k != "mediums" ==> k in m.elements[slide].dataset && e.dataset[k] == m.elements[slide].dataset[k])
  {
    if HasMediums(entity) {
      Decimal.NatToStringRoundTrip(entity.mediums.value);
    }
  }

  /** Slides of elements with neither a `data-slide-id` nor an `id` get distinct ids by position. */
  lemma FallbackIdsDistinct(e: Element, f: Element, i: nat, j: nat)
    requires "slideId" !in e.dataset && e.id.None? && "slideId" !in f.dataset && f.id.None?
    ensures SlideId(e, i) == SlideId(f, j) ==> i == j
  {
    if SlideId(e, i) == SlideId(f, j) {
      var p := "slide-";
      assert SlideId(e, i)[|p|..] == Decimal.NatToString(i);
      assert SlideId(f, j)[|p|..] == Decimal.NatToString(j);
      Decimal.NatToStringInjective(i, j);
    }
  }
}

=== FILE: slider_model.dfy ===
/**
 * The slider's domain: one slide (`SlideEntity`) with its optional count of mediums and
 * its order, and the ordered collection of slides (`SliderCollection`).
 *
 * JavaScript numbers reach the model as reals, after the conversion the code applies
 * (`Number(value)` or `Number.isFinite(value) ? value : ...`); `None` stands for a value
 * that is not a finite number.
 */
module SliderModel {
  import opened Wrappers
  import opened JsText
  import Decimal

  /** `SlideEntity`: `mediums` is `Math.trunc` of a positive input, so it may be `0`. */
  datatype Slide = Slide(id: Option<string>, order: real, mediums: Option<int>)

  /** `Math.trunc(x)` for a non-negative `x`. */
  function Trunc(x: real): (n: int)
    requires x >= 0.0
    ensures n >= 0 && n as real <= x < n as real + 1.0
  {
    x.Floor
  }

  /** `setMediums(value)`: the truncated value when `Number(value)` is finite and positive, `null` otherwise. */
  function SetMediums(s: Slide, value: Option<real>): (r: Slide)
    ensures r.id == s.id && r.order == s.order
    ensures r.mediums.Some? <==> value.Some? && value.value > 0.0
    ensures r.mediums.Some? ==> r.mediums.value as real <= value.value < r.mediums.value as real + 1.0
  {
    if value.None? || value.value <= 0.0 then s.(mediums := None)
    else s.(mediums := Some(Trunc(value.value)))
  }

  /** `new SlideEntity({ id, mediums, order })`: a non-finite order becomes `0`. */
  function NewSlide(id: Option<string>, mediums: Option<real>, order: Option<real>): (s: Slide)
    ensures s.id == id && s.order == order.GetOr(0.0)
    ensures s == SetMediums(Slide(id, order.GetOr(0.0), None), mediums)
  {
    SetMediums(Slide(id, order.GetOr(0.0), None), mediums)
  }

  /** `hasMediums()`: a positive count is present. */
  predicate HasMediums(s: Slide) {
    s.mediums.Some? && s.mediums.value > 0
  }

  /** A slide has a count exactly when it was given a value of at least one. */
  lemma HasMediumsAfterSet(s: Slide, value: Option<real>)
    ensures HasMediums(SetMediums(s, value)) <==> value.Some? && value.value >= 1.0
  {
  }

  /** `getMediumsOr(fallback)`: the count, else a finite fallback, else `0`. */
  function MediumsOr(s: Slide, fallback: Option<real>): (r: real)
    ensures HasMediums(s) ==> r == s.mediums.value as real
    ensures !HasMediums(s) ==> r == fallback.GetOr(0.0)
  {
    if HasMediums(s) then s.mediums.value as real else fallback.GetOr(0.0)
  }

  /** `getDisplayCount()`: `+` and the count, or nothing without one. */
  function DisplayCount(s: Slide): (r: string)
    ensures r == "" <==> !HasMediums(s)
    ensures HasMediums(s) ==> r[0] == '+' && Decimal.AllDigits(r[1..]) && Decimal.DigitsValue(r[1..]) == s.mediums.value
  {
    if !HasMediums(s) then ""
    else
      Decimal.NatToStringRoundTrip(s.mediums.value);
      "+" + Decimal.NatToString(s.mediums.value)
  }

  /** The placeholder a scoreboard template may carry. */
  const CountPlaceholder: string := "__" + "COUNT" + "__"

  /** The separator of base text and count: a space, an em dash and a space. */
  const Separator: string := [' ', 0x2014 as char, ' ']

  /**
   * `getAnnouncement({ baseText, template })`: a template with the placeholder gets every
   * occurrence replaced by the count (or `0`); otherwise the base text and the display
   * count, whichever are non-empty, joined by the separator.
   */
  function Announcement(s: Slide, baseText: string, template: string): (r: string)
    ensures Includes(template, CountPlaceholder) ==> !Includes(r, CountPlaceholder)
    ensures !Includes(template, CountPlaceholder) ==> (r == "" <==> baseText == "" && !HasMediums(s))
    ensures !Includes(template, CountPlaceholder) && !HasMediums(s) ==> r == baseText
    ensures !Includes(template, CountPlaceholder) && baseText == "" ==> r == DisplayCount(s)
  {
    var count := CountText(s);
    if Includes(template, CountPlaceholder) then
      CountTextForeign(count);
      ReplaceAllRemovesPattern(template, CountPlaceholder, count);
      ReplaceAll(template, CountPlaceholder, count)
    else
      var decorated := if HasMediums(s) then "+" + count else "";
      if baseText == "" && decorated == "" then ""
      else if baseText == "" then decorated
      else if decorated == "" then baseText
      else baseText + Separator + decorated
  }

  /** The count a template receives: the decimal digits of the count, or `0` without one. */
  function CountText(s: Slide): (r: string)
    ensures Decimal.AllDigits(r) && |r| >= 1
    ensures Decimal.DigitsValue(r) == if HasMediums(s) then s.mediums.value else 0
  {
    if HasMediums(s) then
      Decimal.NatToStringRoundTrip(s.mediums.value);
      Decimal.NatToString(s.mediums.value)
    else
      assert Decimal.DigitsValue("0") == Decimal.DigitsValue("") * 10 + Decimal.DigitValue('0');
      "0"
  }

  /**
   * A template holding the placeholder once, as `a + placeholder + b`, announces `a`,
   * the count and `b`, whatever the base text.
   */
  lemma AnnouncementFillsPlaceholder(s: Slide, baseText: string, a: string, b: string)
    requires forall i | 0 <= i < |a| :: !OccursAt(a + CountPlaceholder + b, CountPlaceholder, i)
    requires !Includes(b, CountPlaceholder)
    ensures Announcement(s, baseText, a + CountPlaceholder + b) == a + CountText(s) + b
  {
    var template := a + CountPlaceholder + b;
    assert template[|a|..|a| + |CountPlaceholder|] == CountPlaceholder;
    assert OccursAt(template, CountPlaceholder, |a|);
    ReplaceAllOnce(a, CountPlaceholder, b, CountText(s));
  }

  /** Digits share no character with the placeholder, so a filled-in template carries none. */
  lemma CountTextForeign(count: string)
    requires Decimal.AllDigits(count)
    ensures NoCommonChar(CountPlaceholder, count)
  {
    forall i, j | 0 <= i < |CountPlaceholder| && 0 <= j < |count|
      ensures CountPlaceholder[i] != count[j]
    {
      assert Decimal.IsDigit(count[j]);
      assert CountPlaceholder[i] == '_' || 'A' <= CountPlaceholder[i] <= 'Z';
    }
  }

  /** With both parts present, the announcement is the base text, the separator and the display count. */
  lemma AnnouncementJoined(s: Slide, baseText: string, template: string)
    requires !Includes(template, CountPlaceholder) && baseText != "" && HasMediums(s)
    ensures Announcement(s, baseText, template) == baseText + Separator + DisplayCount(s)
  {
  }

  // ---- SliderCollection ----

  /** An element given to the collection: a slide already, or a plain object read field by field. */
  datatype Item = Entity(slide: Slide) | Plain(id: Option<string>, mediums: Option<real>, order: Option<real>)

  /** `new SliderCollection(items)`: slides are kept; plain objects become slides, ordered by position when they carry no order. */
  function FromItems(items: seq<Item>): (r: seq<Slide>)
    ensures |r| == |items|
    ensures forall i :: 0 <= i < |items| && items[i].Entity? ==> r[i] == items[i].slide
    ensures forall i :: 0 <= i < |items| && items[i].Plain? ==>
      r[i].id == items[i].id && r[i].order == items[i].order.GetOr((i + 1) as real)
      && r[i] == SetMediums(r[i], items[i].mediums)
  {
    seq(|items|, i requires 0 <= i < |items| =>
      match items[i]
      case Entity(s) => s
      case Plain(id, mediums, order) => NewSlide(id, mediums, Some(order.GetOr((i + 1) as real))))
  }

  /** `get(index)`: the slide at an index within range, `null` elsewhere. */
  function Get(slides: seq<Slide>, index: int): (r: Option<Slide>)
    ensures r.Some? <==> 0 <= index < |slides|
    ensures r.Some? ==> r.value == slides[index]
  {
    if 0 <= index < |slides| then Some(slides[index]) else None
  }

  /** The sort key: the count when there is one, the order otherwise. */
  function Key(s: Slide): real {
    if HasMediums(s) then s.mediums.value as real else s.order
  }

  predicate Sorted(slides: seq<Slide>) {
    forall i, j :: 0 <= i < j < |slides| ==> Key(slides[i]) <= Key(slides[j])
  }

  /** The slides of `slides` with key `k`, in order. */
  function WithKey(slides: seq<Slide>, k: real): seq<Slide> {
    if |slides| == 0 then []
    else WithKey(slides[..|slides| - 1], k) + (if Key(slides[|slides| - 1]) == k then [slides[|slides| - 1]] else [])
  }

  /** Inserts `x` after every slide whose key is not greater than its own. */
  function Insert(sorted: seq<Slide>, x: Slide): (r: seq<Slide>)
    decreases |sorted|
  {
    if |sorted| == 0 || Key(sorted[|sorted| - 1]) <= Key(x) then sorted + [x]
    else Insert(sorted[..|sorted| - 1], x) + [sorted[|sorted| - 1]]
  }

  /**
   * `sortByMediums()`: `Array.prototype.sort` with the comparator `aKey - bKey`, which is
   * stable, as an insertion sort.
   */
  function SortByMediums(slides: seq<Slide>): (r: seq<Slide>)
    decreases |slides|
  {
    if |slides| == 0 then [] else Insert(SortByMediums(slides[..|slides| - 1]), slides[|slides| - 1])
  }

  lemma {:induction false} InsertPerm(sorted: seq<Slide>, x: Slide)
    ensures multiset(Insert(sorted, x)) == multiset(sorted) + multiset{x}
    decreases |sorted|
  {
    if |sorted| > 0 && Key(sorted[|sorted| - 1]) > Key(x) {
      var init := sorted[..|sorted| - 1];
      InsertPerm(init, x);
      assert sorted == init + [sorted[|sorted| - 1]];
    }
  }

  /** Inserting a slide keyed at most `b` among slides keyed at most `b` keeps every key at most `b`. */
  lemma {:induction false} InsertBounded(sorted: seq<Slide>, x: Slide, b: real)
    requires forall i :: 0 <= i < |sorted| ==> Key(sorted[i]) <= b
    requires Key(x) <= b
    ensures forall i :: 0 <= i < |Insert(sorted, x)| ==> Key(Insert(sorted, x)[i]) <= b
    decreases |sorted|
  {
    if |sorted| > 0 && Key(sorted[|sorted| - 1]) > Key(x) {
      InsertBounded(sorted[..|sorted| - 1], x, b);
    }
  }

  lemma {:induction false} InsertSorted(sorted: seq<Slide>, x: Slide)
    requires Sorted(sorted)
    ensures Sorted(Insert(sorted, x))
    decreases |sorted|
  {
    if |sorted| > 0 && Key(sorted[|sorted| - 1]) > Key(x) {
      var init := sorted[..|sorted| - 1];
      var last := sorted[|sorted| - 1];
      InsertSorted(init, x);
      InsertBounded(init, x, Key(last));
      assert Insert(sorted, x) == Insert(init, x) + [last];
    }
  }

  /** The result of `sortByMediums` holds exactly the slides it was given. */
  lemma {:induction false} SortByMediumsPerm(slides: seq<Slide>)
    ensures multiset(SortByMediums(slides)) == multiset(slides)
    decreases |slides|
  {
    if |slides| > 0 {
      var init := slides[..|slides| - 1];
      var last := slides[|slides| - 1];
      SortByMediumsPerm(init);
      InsertPerm(SortByMediums(init), last);
      assert SortByMediums(slides) == Insert(SortByMediums(init), last);
      assert slides == init + [last];
      assert multiset(slides) == multiset(init) + multiset{last};
    }
  }

  /** The result of `sortByMediums` is ordered by key. */
  lemma {:induction false} SortByMediumsSorted(slides: seq<Slide>)
    ensures Sorted(SortByMediums(slides))
    decreases |slides|
  {
    if |slides| > 0 {
      var init := slides[..|slides| - 1];
      SortByMediumsSorted(init);
      InsertSorted(SortByMediums(init), slides[|slides| - 1]);
    }
  }

  /** The result of `sortByMediums` is ordered by key and holds exactly the same slides. */
  lemma SortByMediumsCorrect(slides: seq<Slide>)
    ensures Sorted(SortByMediums(slides))
    ensures multiset(SortByMediums(slides)) == multiset(slides)
  {
    SortByMediumsSorted(slides);
    SortByMediumsPerm(slides);
  }

  lemma {:induction false} InsertWithKey(sorted: seq<Slide>, x: Slide, k: real)
    requires Sorted(sorted)
    ensures WithKey(Insert(sorted, x), k) == WithKey(sorted, k) + (if Key(x) == k then [x] else [])
    decreases |sorted|
  {
    if |sorted| == 0 || Key(sorted[|sorted| - 1]) <= Key(x) {
      assert (sorted + [x])[..|sorted|] == sorted;
    } else {
      var init := sorted[..|sorted| - 1];
      var last := sorted[|sorted| - 1];
      assert Sorted(init);
      InsertWithKey(init, x, k);
      var ins := Insert(init, x);
      assert (ins + [last])[..|ins|] == ins;
      if Key(x) == k && Key(last) == k {
        assert false;
      }
    }
  }

  /** The sort is stable: the slides sharing a key keep their relative order. */
  lemma {:induction false} SortByMediumsStable(slides: seq<Slide>, k: real)
    ensures WithKey(SortByMediums(slides), k) == WithKey(slides, k)
    decreases |slides|
  {
    if |slides| > 0 {
      var init := slides[..|slides| - 1];
      SortByMediumsStable(init, k);
      SortByMediumsSorted(init);
      InsertWithKey(SortByMediums(init), slides[|slides| - 1], k);
    }
  }

  /** `normalizeMediums()`: a slide without a count is given its position plus one. */
  function NormalizeMediums(slides: seq<Slide>): (r: seq<Slide>)
    ensures |r| == |slides|
    ensures forall i :: 0 <= i < |r| ==> HasMediums(r[i])
    ensures forall i :: 0 <= i < |r| && HasMediums(slides[i]) ==> r[i] == slides[i]
    ensures forall i :: 0 <= i < |r| && !HasMediums(slides[i]) ==>
      r[i] == slides[i].(mediums := Some(i + 1))
  {
    seq(|slides|, i requires 0 <= i < |slides| =>
      if HasMediums(slides[i]) then slides[i] else SetMediums(slides[i], Some((i + 1) as real)))
  }

  /** Normalizing twice changes nothing more. */
  lemma NormalizeIdempotent(slides: seq<Slide>)
    ensures NormalizeMediums(NormalizeMediums(slides)) == NormalizeMediums(slides)
  {
  }

  /** After normalizing, the fallback of `getMediumsOr` is never used. */
  lemma NormalizedIgnoresFallback(slides: seq<Slide>, i: int, fallback: Option<real>)
    requires 0 <= i < |slides|
    ensures MediumsOr(NormalizeMediums(slides)[i], fallback) == NormalizeMediums(slides)[i].mediums.value as real
  {
  }
}

=== FILE: slider_service.dfy ===
/**
 * `SliderService`: the current slide index over a collection and what it asks the view
 * to show. The view is reduced to what it is told: the index to move to and, when the
 * slide at that index exists, the scoreboard contents with the animation flag.
 */
module SliderService {
  import opened Wrappers
  import opened SliderModel

  datatype Scoreboard = Scoreboard(baseText: string, displayCount: string, announcement: string, animate: bool)

  /** The view calls of one render: `setTransform`/`setActiveDot` with the index, then the scoreboard update. */
  datatype Render = Render(index: int, scoreboard: Option<Scoreboard>)

  /** `collection` is `None` for a missing collection; `hasView` is false when the view is not a `SliderViewPort`. */
  datatype Slider = Slider(collection: Option<seq<Slide>>, hasView: bool, index: int, baseText: string, template: string)

  function NewSlider(collection: Option<seq<Slide>>, hasView: bool): (sl: Slider)
    ensures sl.index == 0
  {
    Slider(collection, hasView, 0, "", "")
  }

  /** `a % b` as JavaScript computes it for a positive `b`: the remainder takes the sign of `a`. */
  function JsRem(a: int, b: int): (r: int)
    requires b > 0
    ensures a >= 0 ==> r == a % b
    ensures a < 0 ==> r == -((-a) % b)
    ensures -b < r < b
  {
    if a >= 0 then a % b else -((-a) % b)
  }

  predicate Active(sl: Slider) {
    sl.collection.Some? && |sl.collection.value| > 0 && sl.hasView
  }

  /** `updateScoreboard(animate)`: nothing when no slide sits at the current index. */
  function UpdateScoreboard(sl: Slider, animate: bool): (r: Option<Scoreboard>)
    requires sl.collection.Some?
    ensures r.Some? <==> 0 <= sl.index < |sl.collection.value|
    ensures r.Some? ==> var s := sl.collection.value[sl.index];
      r.value.displayCount == DisplayCount(s) && r.value.animate == animate
      && r.value.announcement == Announcement(s, sl.baseText, sl.template) && r.value.baseText == sl.baseText
  {
    var slide := Get(sl.collection.value, sl.index);
    if slide.None? then None
    else Some(Scoreboard(sl.baseText, DisplayCount(slide.value), Announcement(slide.value, sl.baseText, sl.template), animate))
  }

  /**
   * `init()`: with a ready view and a non-empty collection, sorts and then normalizes the
   * slides, reads the scoreboard texts from the view, and renders the current index
   * without animation. `viewReady` is the view's `isReady()`; `baseText` and `template`
   * are what its getters return.
   */
  function Init(sl: Slider, viewReady: bool, baseText: string, template: string): (r: (Slider, Option<Render>))
    ensures !(sl.hasView && viewReady && Active(sl)) ==> r == (sl, None)
    ensures sl.hasView && viewReady && Active(sl) ==>
      && r.0 == sl.(collection := r.0.collection, baseText := baseText, template := template)
      && r.0.collection == Some(NormalizeMediums(SortByMediums(sl.collection.value)))
      && r.1 == Some(Render(sl.index, UpdateScoreboard(r.0, false)))
  {
    if !(sl.hasView && viewReady) || sl.collection.None? || |sl.collection.value| == 0 then (sl, None)
    else
      var sl1 := sl.(collection := Some(NormalizeMediums(SortByMediums(sl.collection.value))), baseText := baseText, template := template);
      (sl1, Some(Render(sl1.index, UpdateScoreboard(sl1, false))))
  }

  /** After `init`, the slides are the given ones, ordered by key before the counts were filled in, and all carry a count. */
  lemma InitArrangesSlides(sl: Slider, baseText: string, template: string)
    requires Active(sl)
    ensures var c := Init(sl, true, baseText, template).0.collection.value;
      && |c| == |sl.collection.value|
      && (forall i :: 0 <= i < |c| ==> HasMediums(c[i]))
      && exists sorted :: Sorted(sorted) && multiset(sorted) == multiset(sl.collection.value) && c == NormalizeMediums(sorted)
  {
    SortByMediumsCorrect(sl.collection.value);
    var sorted := SortByMediums(sl.collection.value);
    assert Sorted(sorted) && multiset(sorted) == multiset(sl.collection.value);
    assert |sorted| == |multiset(sorted)| == |sl.collection.value|;
  }

  /** A new slider's `init` shows the first slide, without animation. */
  lemma InitStartsAtFirst(c: seq<Slide>, baseText: string, template: string)
    requires |c| > 0
    ensures var r := Init(NewSlider(Some(c), true), true, baseText, template);
      r.1.Some? && r.1.value.index == 0 && r.1.value.scoreboard.Some? && !r.1.value.scoreboard.value.animate
  {
    SortByMediumsCorrect(c);
    assert |SortByMediums(c)| == |multiset(SortByMediums(c))| == |c|;
  }

  /** `go(target)`: moves to `(target + length) % length` and animates on a forward step. */
  function Go(sl: Slider, target: int): (r: (Slider, Option<Render>))
    ensures !Active(sl) ==> r == (sl, None)
    ensures Active(sl) ==> var len := |sl.collection.value|;
      && r.0 == sl.(index := JsRem(target + len, len))
      && r.1.Some? && r.1.value.index == r.0.index
  {
    if !Active(sl) then (sl, None)
    else
      var len := |sl.collection.value|;
      var sl1 := sl.(index := JsRem(target + len, len));
      (sl1, Some(Render(sl1.index, UpdateScoreboard(sl1, Animates(sl.index, target, len)))))
  }

  /** `go` animates a step one slide forward, or from the last slide past the end, unless it stays put. */
  function Animates(previous: int, target: int, len: int): bool {
    var forwardStep := previous + 1;
    var wrappedForward := previous == len - 1 && target >= len;
    var isForward := target == forwardStep || wrappedForward;
    isForward && target != previous
  }

  /** The previous-slide and swipe-right handlers; the wrapping step is spelled out for the remainder. */
  function Prev(sl: Slider): (r: (Slider, Option<Render>))
    ensures Active(sl) && sl.index == 0 ==> r.0.index == |sl.collection.value| - 1
  {
    if Active(sl) && sl.index == 0 then
      ModOnce(|sl.collection.value| - 1, |sl.collection.value|);
      Go(sl, -1)
    else Go(sl, sl.index - 1)
  }

  /** The next-slide and swipe-left handlers; the wrapping step is spelled out for the remainder. */
  function Next(sl: Slider): (r: (Slider, Option<Render>))
    ensures Active(sl) && sl.index == |sl.collection.value| - 1 ==> r.0.index == 0
  {
    if Active(sl) && sl.index == |sl.collection.value| - 1 then
      ModOnce(2 * |sl.collection.value|, |sl.collection.value|);
      Go(sl, |sl.collection.value|)
    else Go(sl, sl.index + 1)
  }

  /** For `0 <= a <= 2 * len`, reducing modulo `len` subtracts `len` at most twice. */
  lemma ModOnce(a: int, len: int)
    requires len > 0 && 0 <= a <= 2 * len
    ensures a % len == if a < len then a else if a < 2 * len then a - len else 0
  {
    if a == 2 * len {
      assert a == len * 2 + 0;
    } else if a >= len {
      assert a == len + (a - len);
    }
  }

  /** Whenever the target is at least minus the length, the index is `(target + length) % length`, a valid slide index. */
  lemma GoIndexInRange(sl: Slider, target: int)
    requires Active(sl) && target >= -|sl.collection.value|
    ensures var len := |sl.collection.value|; var r := Go(sl, target);
      && r.0.index == (target + len) % len
      && 0 <= r.0.index < len
      && r.1.value.scoreboard.Some?
  {
  }

  /**
   * A target below minus the length leaves an index of zero or below: JavaScript's remainder
   * keeps the sign of the negative sum. No slide sits at a negative index, so the scoreboard
   * is then not updated.
   */
  lemma GoFarBelow(sl: Slider, target: int)
    requires Active(sl) && target < -|sl.collection.value|
    ensures var r := Go(sl, target); r.0.index <= 0 && (r.0.index < 0 ==> r.1.value.scoreboard.None?)
  {
  }

  /**
   * The scoreboard animates exactly on a forward step: to the next index, or from the last
   * slide to a target at or past the length. The `target !== previous` test never fails then.
   */
  lemma AnimatesOnForwardStep(sl: Slider, target: int)
    requires Active(sl) && target >= -|sl.collection.value|
    ensures var len := |sl.collection.value|; var r := Go(sl, target);
      r.1.value.scoreboard.value.animate <==> target == sl.index + 1 || (sl.index == len - 1 && target >= len)
  {
  }

  /** Stepping backwards never animates. */
  lemma PrevDoesNotAnimate(sl: Slider)
    requires Active(sl) && 0 <= sl.index < |sl.collection.value|
    ensures !Prev(sl).1.value.scoreboard.value.animate
  {
  }

  /** Stepping forwards always animates, including the wrap from the last slide to the first. */
  lemma NextAnimates(sl: Slider)
    requires Active(sl) && 0 <= sl.index < |sl.collection.value|
    ensures Next(sl).1.value.scoreboard.value.animate
  {
  }

  /** `next` moves one slide on, from the last slide back to the first. */
  lemma NextIndex(sl: Slider)
    requires Active(sl) && 0 <= sl.index < |sl.collection.value|
    ensures Next(sl).0 == sl.(index := if sl.index + 1 < |sl.collection.value| then sl.index + 1 else 0)
  {
    ModOnce(sl.index + 1 + |sl.collection.value|, |sl.collection.value|);
  }

  /** `prev` moves one slide back, from the first slide to the last. */
  lemma PrevIndex(sl: Slider)
    requires Active(sl) && 0 <= sl.index < |sl.collection.value|
    ensures Prev(sl).0 == sl.(index := if sl.index > 0 then sl.index - 1 else |sl.collection.value| - 1)
  {
    ModOnce(sl.index - 1 + |sl.collection.value|, |sl.collection.value|);
  }

  /** `next` and `prev` undo each other. */
  lemma NextPrevInverse(sl: Slider)
    requires Active(sl) && 0 <= sl.index < |sl.collection.value|
    ensures Prev(Next(sl).0).0 == sl && Next(Prev(sl).0).0 == sl
  {
    NextIndex(sl);
    PrevIndex(sl);
    PrevIndex(Next(sl).0);
    NextIndex(Prev(sl).0);
  }
}

=== FILE: static_modal_service.dfy ===
/**
 * The modal service of the theme's static bundle: a registry of modal instances by id
 * and the active modal, with no resume stack. Opening a modal closes the one on
 * screen; Escape closes the active modal.
 *
 * As in the resume-capable service, the scroll controller and the keyboard listener
 * are outside the model and the calls made on them are recorded.
 */
module StaticModalService {
  import opened Wrappers
  import opened Modal
  import Storage
  import ModalService

  type ScrollCall = ModalService.ScrollCall

  datatype Service = Service(
    modals: map<string, Instance>,
    active: Option<string>,
    storage: Option<Storage.Store>,
    hasScrollController: bool,
    scrollCalls: seq<ScrollCall>,
    hasEventTarget: bool,
    keydownBound: bool)

  /** The constructor: no modals, nothing active, no scroll calls and no keydown handler yet. */
  function NewService(storage: Option<Storage.Store>, hasEventTarget: bool, hasScrollController: bool): (st: Service)
    ensures Inv(st)
    ensures st.modals == map[] && st.active.None? && st.scrollCalls == [] && !st.keydownBound
    ensures st.storage == storage && st.hasEventTarget == hasEventTarget && st.hasScrollController == hasScrollController
  {
    Service(map[], None, storage, hasScrollController, [], hasEventTarget, false)
  }

  /** Each instance is stored under its own non-empty id, views are well-formed, and the active modal is on screen. */
  ghost predicate Inv(st: Service) {
    && "" !in st.modals
    && (forall k :: k in st.modals ==>
          Id(st.modals[k]) == Some(k) && (st.modals[k].view.Some? ==> ViewInv(st.modals[k].view.value)))
    && (st.active.Some? ==>
          st.active.value in st.modals && st.modals[st.active.value].view.Some? && st.modals[st.active.value].view.value.isOpen)
  }

  predicate CanShow(st: Service, id: string) {
    id in st.modals && st.modals[id].entity.Some? && st.modals[id].view.Some?
    && st.modals[id].view.value.hasElement && !st.modals[id].view.value.isOpen
  }

  predicate IsOpen(st: Service, id: string) {
    id in st.modals && st.modals[id].view.Some? && st.modals[id].view.value.isOpen
  }

  function ScrollCalls(st: Service, id: string, call: ScrollCall): seq<ScrollCall> {
    ModalService.ScrollCallsIn(st.hasScrollController, st.modals, id, call)
  }

  /** `register({ entity, view })`: `null` without both; the instance is kept only when it has an id. */
  function Register(st: Service, entity: Arg<Entity>, view: Arg<View>): (r: (Service, Option<Instance>))
    ensures entity.Absent? || view.Absent? ==> r == (st, None)
    ensures !entity.Absent? && !view.Absent? ==> r.1 == Some(NewInstance(entity, view))
    ensures r.0.modals.Keys <= st.modals.Keys + {Id(NewInstance(entity, view)).GetOr("")}
    ensures forall k :: k in r.0.modals ==> k in st.modals || r.0.modals[k] == r.1.value
    ensures r.0 == st.(modals := r.0.modals)
  {
    if entity.Absent? || view.Absent? then (st, None)
    else
      var inst := NewInstance(entity, view);
      var id := Id(inst);
      if id.Some? && id.value != "" then (st.(modals := st.modals[id.value := inst]), Some(inst))
      else (st, Some(inst))
  }

  /** `close(id, { remember })`. An unknown id changes nothing. */
  function Close(st: Service, id: string, remember: bool): (r: Service)
    ensures id !in st.modals ==> r == st
    ensures id in st.modals ==> id in r.modals && r.modals == st.modals[id := r.modals[id]] && r.modals[id].entity == st.modals[id].entity
    ensures r.active != st.active ==> st.active == Some(id) && r.active.None?
    ensures r.hasScrollController == st.hasScrollController
    ensures Inv(st) ==> Inv(r)
  {
    if id !in st.modals then st
    else
      var inst := st.modals[id];
      var c := InstanceClose(inst, st.storage, remember);
      var st1 := st.(modals := st.modals[id := c.instance], storage := c.storage);
      var st2 := if c.ok && st.active == Some(id)
        then st1.(active := None, keydownBound := if st1.hasEventTarget then false else st1.keydownBound)
        else st1;
      if c.ok && InstanceLocksScroll(inst) && st2.hasScrollController
      then st2.(scrollCalls := st2.scrollCalls + [ModalService.UnlockCall(id)])
      else st2
  }

  /** `open(id)`: an unknown id changes nothing; another active modal is closed first. */
  function Open(st: Service, id: string): (r: Service)
    ensures id !in st.modals ==> r == st
    ensures r.modals.Keys == st.modals.Keys
    ensures Inv(st) ==> Inv(r)
  {
    if id !in st.modals then st
    else
      var st1 := if st.active.Some? && st.active.value != id then Close(st, st.active.value, false) else st;
      Show(st1, id)
  }

  /** The second half of `open`: open the instance and, when it opened, lock the scroll and make it active. */
  function Show(st: Service, id: string): (r: Service)
    requires id in st.modals
    ensures r.modals.Keys == st.modals.Keys && r.modals == st.modals[id := r.modals[id]]
    ensures r.modals[id].entity == st.modals[id].entity
    ensures CanShow(st, id) ==> r.active == Some(id) && IsOpen(r, id)
    ensures CanShow(st, id) ==> r.scrollCalls == st.scrollCalls + ScrollCalls(st, id, ModalService.LockCall(id))
    ensures !CanShow(st, id) && (st.modals[id].view.Some? ==> ViewInv(st.modals[id].view.value)) ==> r == st
    ensures Inv(st) && (st.active.None? || st.active == Some(id)) ==> Inv(r)
  {
    var (shown, inst1) := InstanceOpen(st.modals[id]);
    if !shown then st
    else
      var st1 := st.(modals := st.modals[id := inst1]);
      var st2 := if InstanceLocksScroll(inst1) && st1.hasScrollController
        then st1.(scrollCalls := st1.scrollCalls + [ModalService.LockCall(id)])
        else st1;
      st2.(active := Some(id), keydownBound := if st2.hasEventTarget then true else st2.keydownBound)
  }

  /** `handleKeydown(event)`: Escape closes the active modal; every other key is ignored. */
  function HandleKeydown(st: Service, key: string): (r: Service)
    ensures key != "Escape" || st.active.None? ==> r == st
    ensures Inv(st) ==> Inv(r)
  {
    if key == "Escape" && st.active.Some? then Close(st, st.active.value, false) else st
  }

  /** Registering an instance whose id is not the active modal's keeps the invariant. */
  lemma RegisterKeepsInv(st: Service, entity: Arg<Entity>, view: Arg<View>)
    requires Inv(st)
    requires view.Is? ==> ViewInv(view.value)
    requires st.active.None? || Id(NewInstance(entity, view)) != st.active
    ensures Inv(Register(st, entity, view).0)
  {
  }

  /**
   * Closing a modal that is on screen closes it, clears the active modal exactly when it
   * was this one, and makes an unlock call for a locking modal.
   */
  lemma CloseOpenModal(st: Service, id: string, remember: bool)
    requires Inv(st) && IsOpen(st, id)
    ensures var r := Close(st, id, remember);
      && !IsOpen(r, id)
      && r.active == (if st.active == Some(id) then None else st.active)
      && r.scrollCalls == st.scrollCalls + ScrollCalls(st, id, ModalService.UnlockCall(id))
      && (remember ==> r.storage == Remember(st.modals[id].entity.value, st.storage))
      && (!remember ==> r.storage == st.storage)
  {
    assert st.modals[id].entity.Some? by {
      assert Id(st.modals[id]) == Some(id);
    }
  }

  /** Closing a modal that is not on screen changes nothing. */
  lemma CloseClosedModal(st: Service, id: string, remember: bool)
    requires Inv(st) && !IsOpen(st, id)
    ensures Close(st, id, remember) == st
  {
    if id in st.modals {
      var c := InstanceClose(st.modals[id], st.storage, remember);
      assert !c.ok;
      assert st.modals[id := c.instance] == st.modals;
    }
  }

  /**
   * Opening a modal other than the active one closes the active one first; the new one
   * becomes active exactly when it can be shown, and otherwise nothing is active.
   */
  lemma OpenSwitches(st: Service, id: string, a: string)
    requires Inv(st) && id in st.modals && st.active == Some(a) && a != id
    ensures var r := Open(st, id);
      && !IsOpen(r, a)
      && (CanShow(st, id) ==>
            r.active == Some(id) && IsOpen(r, id)
            && r.scrollCalls == st.scrollCalls + ScrollCalls(st, a, ModalService.UnlockCall(a)) + ScrollCalls(st, id, ModalService.LockCall(id)))
      && (!CanShow(st, id) ==> r.active.None?)
  {
    CloseOpenModal(st, a, false);
    var st1 := Close(st, a, false);
    assert CanShow(st1, id) <==> CanShow(st, id);
    assert ScrollCalls(st1, id, ModalService.LockCall(id)) == ScrollCalls(st, id, ModalService.LockCall(id));
  }

  /** With nothing active, an open shows the modal when it can, and otherwise changes nothing. */
  lemma OpenFromIdle(st: Service, id: string)
    requires Inv(st) && st.active.None? && id in st.modals
    ensures var r := Open(st, id);
      && (CanShow(st, id) ==>
            r.active == Some(id) && IsOpen(r, id) && r.scrollCalls == st.scrollCalls + ScrollCalls(st, id, ModalService.LockCall(id)))
      && (!CanShow(st, id) ==> r == st)
  {
  }

  /** Opening the active modal changes nothing: its view is already open. */
  lemma OpenActiveUnchanged(st: Service, id: string)
    requires Inv(st) && st.active == Some(id)
    ensures Open(st, id) == st
  {
  }

  /** Escape closes the active modal and leaves nothing active. */
  lemma EscapeClosesActive(st: Service, a: string)
    requires Inv(st) && st.active == Some(a)
    ensures var r := HandleKeydown(st, "Escape");
      r.active.None? && !IsOpen(r, a) && r.scrollCalls == st.scrollCalls + ScrollCalls(st, a, ModalService.UnlockCall(a))
  {
    CloseOpenModal(st, a, false);
  }
}

=== FILE: storage.dfy ===
/**
 * The key/value storage port (`get`/`set`) the modal and age-mode services
 * persist to, as a map. A service may be built without storage, in which case
 * every read answers `null` and every write is dropped.
 */
module Storage {
  import opened Wrappers

  type Store = map<string, string>

  /** `storage?.get(key)`: the stored text, `None` without storage or without the key. */
  function Read(s: Option<Store>, key: string): (r: Option<string>)
    ensures r.Some? <==> s.Some? && key in s.value
    ensures r.Some? ==> r.value == s.value[key]
  {
    if s.Some? && key in s.value then Some(s.value[key]) else None
  }

  /** `storage?.set(key, value)`. */
  function Write(s: Option<Store>, key: string, value: string): (r: Option<Store>)
    ensures r.Some? <==> s.Some?
    ensures r.Some? ==> Read(r, key) == Some(value)
    ensures forall k :: k != key ==> Read(r, k) == Read(s, k)
  {
    if s.Some? then Some(s.value[key := value]) else None
  }
}

=== FILE: utf8.dfy ===
/**
 * UTF-8 as used by `TextEncoder` and `new TextDecoder()`: the encoder of
 * section 3 of RFC 3629, and the WHATWG Encoding Standard's UTF-8 decoder
 * (each maximal ill-formed subpart becomes U+FFFD) with its default
 * byte-order-mark removal.  Dafny strings are sequences of Unicode scalar
 * values, so every string is well formed.
 */
module Utf8 {
  import opened Bytes

  const Replacement: char := 0xFFFD as char
  const ByteOrderMark: char := 0xFEFF as char

  predicate IsContinuation(b: byte) {
    0x80 <= b <= 0xBF
  }

  /** The one to four bytes of a scalar value (section 3 of RFC 3629). */
  function EncodeChar(c: char): (r: seq<byte>)
    ensures 1 <= |r| <= 4
    ensures (c as int < 0x80) <==> |r| == 1
  {
    var cp := c as int;
    if cp < 0x80 then [cp]
    else if cp < 0x800 then [0xC0 + cp / 64, 0x80 + cp % 64]
    else if cp < 0x10000 then [0xE0 + cp / 4096, 0x80 + (cp / 64) % 64, 0x80 + cp % 64]
    else [0xF0 + cp / 262144, 0x80 + (cp / 4096) % 64, 0x80 + (cp / 64) % 64, 0x80 + cp % 64]
  }

  /** `TextEncoder.encode`. */
  function Encode(s: string): (r: seq<byte>)
    ensures |r| >= |s|
  {
    if |s| == 0 then [] else EncodeChar(s[0]) + Encode(s[1..])
  }

  /**
   * One step of the WHATWG UTF-8 decoder: the next code point and how many bytes it
   * consumed.  On an error the offending byte is not consumed (it is reprocessed), and
   * a truncated sequence at the end of input consumes the rest.
   */
  function DecodeOne(b: seq<byte>): (r: (char, nat))
    requires |b| > 0
    ensures 1 <= r.1 <= |b|
  {
    var b0: int := b[0];
    var b1: int := if |b| > 1 then b[1] else 0;
    var b2: int := if |b| > 2 then b[2] else 0;
    var b3: int := if |b| > 3 then b[3] else 0;
    if b0 < 0x80 then (b0 as char, 1)
    else if 0xC2 <= b0 <= 0xDF then
      if |b| < 2 || !IsContinuation(b1) then (Replacement, 1)
      else (((b0 - 0xC0) * 64 + (b1 - 0x80)) as char, 2)
    else if 0xE0 <= b0 <= 0xEF then
      var lower := if b0 == 0xE0 then 0xA0 else 0x80;
      var upper := if b0 == 0xED then 0x9F else 0xBF;
      if |b| < 2 || !(lower <= b1 <= upper) then (Replacement, 1)
      else if |b| < 3 then (Replacement, 2)
      else if !IsContinuation(b2) then (Replacement, 2)
      else (((b0 - 0xE0) * 4096 + (b1 - 0x80) * 64 + (b2 - 0x80)) as char, 3)
    else if 0xF0 <= b0 <= 0xF4 then
      var lower := if b0 == 0xF0 then 0x90 else 0x80;
      var upper := if b0 == 0xF4 then 0x8F else 0xBF;
      if |b| < 2 || !(lower <= b1 <= upper) then (Replacement, 1)
      else if |b| < 3 then (Replacement, 2)
      else if !IsContinuation(b2) then (Replacement, 2)
      else if |b| < 4 then (Replacement, 3)
      else if !IsContinuation(b3) then (Replacement, 3)
      else (((b0 - 0xF0) * 262144 + (b1 - 0x80) * 4096 + (b2 - 0x80) * 64 + (b3 - 0x80)) as char, 4)
    else (Replacement, 1)
  }

  /** The decoder run over a whole byte sequence, without byte-order-mark handling. */
  function DecodeStream(b: seq<byte>): string
    decreases |b|
  {
    if |b| == 0 then ""
    else
      var (c, n) := DecodeOne(b);
      [c] + DecodeStream(b[n..])
  }

  /** `new TextDecoder().decode(b)`: a leading U+FEFF of the output is dropped. */
  function Decode(b: seq<byte>): string {
    var s := DecodeStream(b);
    if |s| > 0 && s[0] == ByteOrderMark then s[1..] else s
  }

  lemma DecodeOneTwoBytes(c: char, rest: seq<byte>)
    requires 0x80 <= c as int < 0x800
    ensures DecodeOne(EncodeChar(c) + rest) == (c, 2)
  {
    var cp := c as int;
    var e := EncodeChar(c);
    assert e == [0xC0 + cp / 64, 0x80 + cp % 64];
    var b := e + rest;
    assert b[0] == 0xC0 + cp / 64 && b[1] == 0x80 + cp % 64;
    assert 0xC2 <= b[0] <= 0xDF;
    assert ((b[0] as int - 0xC0) * 64 + (b[1] as int - 0x80)) == cp;
  }

  lemma DecodeOneThreeBytes(c: char, rest: seq<byte>)
    requires 0x800 <= c as int < 0x10000
    ensures DecodeOne(EncodeChar(c) + rest) == (c, 3)
  {
    var cp := c as int;
    var e := EncodeChar(c);
    assert e == [0xE0 + cp / 4096, 0x80 + (cp / 64) % 64, 0x80 + cp % 64];
    var b := e + rest;
    var b0: int := b[0];
    var b1: int := b[1];
    var b2: int := b[2];
    assert b0 == 0xE0 + cp / 4096 && b1 == 0x80 + (cp / 64) % 64 && b2 == 0x80 + cp % 64;
    assert b0 == 0xE0 ==> b1 >= 0xA0;
    assert b0 == 0xED ==> b1 <= 0x9F;
    assert (cp / 4096) * 4096 + ((cp / 64) % 64) * 64 + cp % 64 == cp;
    assert (b0 - 0xE0) * 4096 + (b1 - 0x80) * 64 + (b2 - 0x80) == cp;
  }

  lemma DecodeOneFourBytes(c: char, rest: seq<byte>)
    requires 0x10000 <= c as int
    ensures DecodeOne(EncodeChar(c) + rest) == (c, 4)
  {
    var cp := c as int;
    var e := EncodeChar(c);
    assert e == [0xF0 + cp / 262144, 0x80 + (cp / 4096) % 64, 0x80 + (cp / 64) % 64, 0x80 + cp % 64];
    var b := e + rest;
    var b0: int := b[0];
    var b1: int := b[1];
    var b2: int := b[2];
    var b3: int := b[3];
    assert b0 == 0xF0 + cp / 262144 && b1 == 0x80 + (cp / 4096) % 64;
    assert b2 == 0x80 + (cp / 64) % 64 && b3 == 0x80 + cp % 64;
    FourDigits(cp);
    assert b0 == 0xF0 ==> b1 >= 0x90;
    assert b0 == 0xF4 ==> b1 <= 0x8F;
    assert (b0 - 0xF0) * 262144 + (b1 - 0x80) * 4096 + (b2 - 0x80) * 64 + (b3 - 0x80) == cp;
  }

  /** A supplementary code point split into the 3-, 6-, 6- and 6-bit groups of its four-byte form. */
  lemma FourDigits(cp: int)
    requires 0x10000 <= cp < 0x110000
    ensures (cp / 262144) * 262144 + ((cp / 4096) % 64) * 4096 + ((cp / 64) % 64) * 64 + cp % 64 == cp
    ensures cp / 262144 == 0 ==> (cp / 4096) % 64 >= 0x10
    ensures cp / 262144 == 4 ==> (cp / 4096) % 64 <= 0x0F
  {
    assert cp == (cp / 64) * 64 + cp % 64;
    assert cp / 64 == (cp / 4096) * 64 + (cp / 64) % 64;
    assert cp / 4096 == (cp / 262144) * 64 + (cp / 4096) % 64;
  }

  /** The decoder reads back exactly the character an encoded prefix came from. */
  lemma DecodeOneEncodeChar(c: char, rest: seq<byte>)
    ensures DecodeOne(EncodeChar(c) + rest) == (c, |EncodeChar(c)|)
  {
    var cp := c as int;
    if cp < 0x80 {
      assert (EncodeChar(c) + rest)[0] == cp;
    } else if cp < 0x800 {
      DecodeOneTwoBytes(c, rest);
    } else if cp < 0x10000 {
      DecodeOneThreeBytes(c, rest);
    } else {
      DecodeOneFourBytes(c, rest);
    }
  }

  /** Decoding the encoder's output gives back the string (UTF-8 round trip). */
  lemma {:induction false} DecodeStreamEncode(s: string)
    ensures DecodeStream(Encode(s)) == s
    decreases |s|
  {
    if |s| > 0 {
      var e := EncodeChar(s[0]);
      assert Encode(s) == e + Encode(s[1..]);
      DecodeOneEncodeChar(s[0], Encode(s[1..]));
      assert (e + Encode(s[1..]))[|e|..] == Encode(s[1..]);
      DecodeStreamEncode(s[1..]);
    }
  }

  /** `TextDecoder` inverts `TextEncoder` on every string that does not begin with U+FEFF. */
  lemma DecodeEncode(s: string)
    requires |s| == 0 || s[0] != ByteOrderMark
    ensures Decode(Encode(s)) == s
  {
    DecodeStreamEncode(s);
  }

  /** A leading U+FEFF is lost: the round trip fails for exactly those strings. */
  lemma DecodeEncodeLeadingMark(s: string)
    requires |s| > 0 && s[0] == ByteOrderMark
    ensures Decode(Encode(s)) == s[1..]
  {
    DecodeStreamEncode(s);
  }
}

=== FILE: worker.dfy ===
/**
 * The edge worker's router and its two controllers: the Discord OAuth 2.0
 * authorization-code start and callback (section 4.1 of RFC 6749) and the
 * EFBD trigger endpoint.
 *
 * A request arrives already split into method, path, query text and the result of
 * `request.json()`. The Discord profile lookup is a parameter: the worker's own
 * implementation is a stub, modelled as `StubProfile`. Database writes are returned
 * as a list instead of being performed.
 */
module Worker {
  import opened Wrappers
  import opened Json
  import FormUrlEncoded

  /** The bindings the worker reads: the Discord client id and redirect URI, and whether a database is bound. */
  datatype Env = Env(clientId: Option<string>, redirectUri: Option<string>, hasDb: bool)

  /** `verb` is the HTTP method. */
  datatype Request = Request(verb: string, path: string, query: string, body: Option<Json>)

  datatype Response =
    | Text(status: int, text: string)
    | Redirect(location: string)   // status 302
    | JsonBody(value: Json)        // status 200
    | Thrown(error: string)        // the handler threw instead of answering

  /**
   * The URL parser `Response.redirect` applies to its argument: `new URL(s)` without a base
   * URL, giving the serialized URL, or `None` where the constructor throws a `TypeError`.
   */
  type UrlParser = string -> Option<string>

  /** A parser that, having no base URL, rejects every path-absolute reference such as `/` or `/x`. */
  ghost predicate RejectsRelative(parseUrl: UrlParser) {
    forall s :: |s| > 0 && s[0] == '/' ==> parseUrl(s).None?
  }

  /** A row written through the database binding. */
  datatype DbWrite =
    | IdentityLink(id: Json, username: Option<Json>)
    | ScaleRow(axis: Option<Json>, score: Json, source: Json)

  /** A string binding that is present and non-empty. */
  predicate Given(s: Option<string>) {
    s.Some? && s.value != ""
  }

  const AuthorizeEndpoint: string := "https://discord.com/api/oauth2/authorize"

  /** The authorization request's query parameters, in the order they are set. */
  function StartParams(clientId: string, redirectUri: string, origin: Option<string>): (ps: FormUrlEncoded.Params)
    ensures !Given(origin) ==> ps == [("client_id", clientId), ("response_type", "code"), ("scope", "identify"), ("redirect_uri", redirectUri)]
    ensures Given(origin) ==> ps == [("client_id", clientId), ("response_type", "code"), ("scope", "identify"), ("redirect_uri", redirectUri), ("state", origin.value)]
  {
    ParamNamesDistinct();
    var p1 := FormUrlEncoded.Set([], "client_id", clientId);
    FormUrlEncoded.SetFresh([], "client_id", clientId);
    var p2 := FormUrlEncoded.Set(p1, "response_type", "code");
    FormUrlEncoded.SetFresh(p1, "response_type", "code");
    var p3 := FormUrlEncoded.Set(p2, "scope", "identify");
    FormUrlEncoded.SetFresh(p2, "scope", "identify");
    var p4 := FormUrlEncoded.Set(p3, "redirect_uri", redirectUri);
    FormUrlEncoded.SetFresh(p3, "redirect_uri", redirectUri);
    if Given(origin) then
      FormUrlEncoded.SetFresh(p4, "state", origin.value);
      FormUrlEncoded.Set(p4, "state", origin.value)
    else p4
  }

  lemma ParamNamesDistinct()
    ensures "client_id" != "response_type" && "client_id" != "scope" && "client_id" != "redirect_uri"
    ensures "response_type" != "scope" && "response_type" != "redirect_uri" && "scope" != "redirect_uri"
    ensures "state" != "client_id" && "state" != "response_type" && "state" != "scope" && "state" != "redirect_uri"
  {
    assert |"client_id"| == 9 && |"response_type"| == 13 && |"scope"| == 5 && |"redirect_uri"| == 12;
    assert "scope"[1] == 'c' && "state"[1] == 't';
  }

  /** `buildStartRedirect`: 500 without credentials, otherwise a 302 to Discord's authorization endpoint. */
  function BuildStartRedirect(env: Env, origin: Option<string>): (r: Response)
    ensures r.Text? <==> !Given(env.clientId) || !Given(env.redirectUri)
    ensures r.Text? ==> r.status == 500
    ensures r.Redirect? ==>
      r.location == AuthorizeEndpoint + "?" + FormUrlEncoded.Serialize(StartParams(env.clientId.value, env.redirectUri.value, origin))
  {
    if !Given(env.clientId) || !Given(env.redirectUri) then Text(500, "Missing Discord credentials")
    else Redirect(AuthorizeEndpoint + "?" + FormUrlEncoded.Serialize(StartParams(env.clientId.value, env.redirectUri.value, origin)))
  }

  /**
   * What Discord reads from the authorization URL: the client id, `response_type=code`,
   * `scope=identify`, the redirect URI, and `state` exactly when an origin was given.
   */
  lemma StartRedirectQuery(env: Env, origin: Option<string>)
    requires Given(env.clientId) && Given(env.redirectUri)
    ensures var q := FormUrlEncoded.Serialize(StartParams(env.clientId.value, env.redirectUri.value, origin));
      var ps := FormUrlEncoded.Parse(q);
      && BuildStartRedirect(env, origin) == Redirect(AuthorizeEndpoint + "?" + q)
      && FormUrlEncoded.Get(ps, "client_id") == env.clientId
      && FormUrlEncoded.Get(ps, "response_type") == Some("code")
      && FormUrlEncoded.Get(ps, "scope") == Some("identify")
      && FormUrlEncoded.Get(ps, "redirect_uri") == env.redirectUri
      && FormUrlEncoded.Get(ps, "state") == (if Given(origin) then origin else None)
  {
    FormUrlEncoded.ParseSerialize(StartParams(env.clientId.value, env.redirectUri.value, origin));
    StartParamsLookup(env.clientId.value, env.redirectUri.value, origin);
  }

  lemma StartParamsLookup(clientId: string, redirectUri: string, origin: Option<string>)
    ensures var ps := StartParams(clientId, redirectUri, origin);
      && FormUrlEncoded.Get(ps, "client_id") == Some(clientId)
      && FormUrlEncoded.Get(ps, "response_type") == Some("code")
      && FormUrlEncoded.Get(ps, "scope") == Some("identify")
      && FormUrlEncoded.Get(ps, "redirect_uri") == Some(redirectUri)
      && FormUrlEncoded.Get(ps, "state") == (if Given(origin) then origin else None)
  {
    var ps := StartParams(clientId, redirectUri, origin);
    ParamNamesDistinct();
    var tail := ps[1..][1..][1..][1..];
    assert tail == (if Given(origin) then [("state", origin.value)] else []);
    GetSkip(ps, "scope");
    GetSkip(ps[1..], "scope");
    GetSkip(ps, "redirect_uri");
    GetSkip(ps[1..], "redirect_uri");
    GetSkip(ps[1..][1..], "redirect_uri");
    GetSkip(ps, "state");
    GetSkip(ps[1..], "state");
    GetSkip(ps[1..][1..], "state");
    GetSkip(ps[1..][1..][1..], "state");
  }

  /** `get` passes over a first pair with another name. */
  lemma GetSkip(ps: FormUrlEncoded.Params, name: string)
    requires |ps| > 0 && ps[0].0 != name
    ensures FormUrlEncoded.Get(ps, name) == FormUrlEncoded.Get(ps[1..], name)
  {
  }

  /** `fetchDiscordProfile` as the worker implements it: a fixed profile for any non-empty code. */
  function StubProfile(code: string): (p: Option<Json>)
    ensures p.Some? <==> code != ""
    ensures p.Some? ==> Prop(p, "id") == Some(JStr("discord-user"))
  {
    if code == "" then None
    else
      var p := Some(JObj([("id", JStr("discord-user")), ("username", JStr("interdead")), ("code", JStr(code))]));
      assert Prop(p, "id") == Some(JStr("discord-user"));
      p
  }

  /** `persistProfile`: the session token, and the identity row written when a database and an id are present. */
  function PersistProfile(env: Env, profile: Json): (r: (string, seq<DbWrite>))
    ensures TruthyOpt(Prop(Some(profile), "id")) ==> r.0 == "session-" + ToText(Prop(Some(profile), "id").value)
    ensures !TruthyOpt(Prop(Some(profile), "id")) ==> r.0 == "session-anon"
    ensures |r.1| <= 1
    ensures |r.1| == 1 <==> env.hasDb && TruthyOpt(Prop(Some(profile), "id"))
    ensures |r.1| == 1 ==> r.1[0] == IdentityLink(Prop(Some(profile), "id").value, Prop(Some(profile), "username"))
  {
    var id := Prop(Some(profile), "id");
    var writes := if env.hasDb && TruthyOpt(id) then [IdentityLink(id.value, Prop(Some(profile), "username"))] else [];
    ("session-" + (if TruthyOpt(id) then ToText(id.value) else "anon"), writes)
  }

  /** `url.searchParams.get('state') || '/'`. */
  function CallbackTarget(ps: FormUrlEncoded.Params): (t: string)
    ensures Given(FormUrlEncoded.Get(ps, "state")) ==> t == FormUrlEncoded.Get(ps, "state").value
    ensures !Given(FormUrlEncoded.Get(ps, "state")) ==> t == "/"
  {
    var state := FormUrlEncoded.Get(ps, "state");
    if Given(state) then state.value else "/"
  }

  /**
   * `handleCallback`: 400 without a code, 502 when no profile is found; otherwise the
   * profile is persisted and `Response.redirect` is called on the target followed by
   * `#session=` and the token. That call parses its argument: it answers with a 302 to the
   * serialized URL, or throws when the text is not an absolute URL.
   */
  function HandleCallback(env: Env, query: string, lookup: string -> Option<Json>, parseUrl: UrlParser): (r: (Response, seq<DbWrite>))
    ensures var ps := FormUrlEncoded.Parse(query);
      var code := FormUrlEncoded.Get(ps, "code");
      && (!Given(code) <==> r.0 == Text(400, "Missing code"))
      && (Given(code) && !TruthyOpt(lookup(code.value)) <==> r.0 == Text(502, "Unable to link Discord"))
      && (r.0.Text? ==> r.1 == [])
      && (Given(code) && TruthyOpt(lookup(code.value)) ==>
            var persisted := PersistProfile(env, lookup(code.value).value);
            var location := CallbackTarget(ps) + "#session=" + persisted.0;
            && r.1 == persisted.1
            && (r.0.Thrown? <==> parseUrl(location).None?)
            && (r.0.Redirect? <==> parseUrl(location).Some?)
            && (r.0.Redirect? ==> Some(r.0.location) == parseUrl(location)))
    ensures !r.0.JsonBody?
  {
    var ps := FormUrlEncoded.Parse(query);
    var code := FormUrlEncoded.Get(ps, "code");
    if !Given(code) then (Text(400, "Missing code"), [])
    else
      var profile := lookup(code.value);
      if !TruthyOpt(profile) then (Text(502, "Unable to link Discord"), [])
      else
        var (token, writes) := PersistProfile(env, profile.value);
        var parsed := parseUrl(CallbackTarget(ps) + "#session=" + token);
        (if parsed.Some? then Redirect(parsed.value) else Thrown("Invalid URL"), writes)
  }

  /** Without a code the answer is 400 whatever the profile lookup would return: the lookup is never consulted. */
  lemma CallbackMissingCodeFirst(env: Env, query: string, lookup1: string -> Option<Json>, lookup2: string -> Option<Json>, parseUrl: UrlParser)
    requires !Given(FormUrlEncoded.Get(FormUrlEncoded.Parse(query), "code"))
    ensures HandleCallback(env, query, lookup1, parseUrl) == HandleCallback(env, query, lookup2, parseUrl) == (Text(400, "Missing code"), [])
  {
  }

  /**
   * A linked profile sends the user to a target that has no base URL to resolve against:
   * when that target is `/` (no `state`) or any other path, the redirect throws after the
   * identity row has been written.
   */
  lemma RelativeTargetThrows(env: Env, query: string, lookup: string -> Option<Json>, parseUrl: UrlParser)
    requires RejectsRelative(parseUrl)
    requires Given(FormUrlEncoded.Get(FormUrlEncoded.Parse(query), "code"))
    requires TruthyOpt(lookup(FormUrlEncoded.Get(FormUrlEncoded.Parse(query), "code").value))
    requires var t := CallbackTarget(FormUrlEncoded.Parse(query)); |t| > 0 && t[0] == '/'
    ensures var profile := lookup(FormUrlEncoded.Get(FormUrlEncoded.Parse(query), "code").value).value;
      HandleCallback(env, query, lookup, parseUrl) == (Thrown("Invalid URL"), PersistProfile(env, profile).1)
  {
    var ps := FormUrlEncoded.Parse(query);
    var profile := lookup(FormUrlEncoded.Get(ps, "code").value).value;
    var location := CallbackTarget(ps) + "#session=" + PersistProfile(env, profile).0;
    assert location[0] == '/';
    assert parseUrl(location).None?;
  }

  /** A callback without `state` always lands on the default target `/`, which the redirect cannot parse. */
  lemma CallbackWithoutStateThrows(env: Env, code: string, parseUrl: UrlParser)
    requires RejectsRelative(parseUrl) && code != ""
    ensures HandleCallback(env, FormUrlEncoded.Serialize([("code", code)]), StubProfile, parseUrl).0 == Thrown("Invalid URL")
  {
    var ps := [("code", code)];
    FormUrlEncoded.ParseSerialize(ps);
    assert "code" != "state" by {
      assert |"code"| == 4 && |"state"| == 5;
    }
    assert FormUrlEncoded.Get(ps, "state") == None;
    assert CallbackTarget(ps) == "/";
    RelativeTargetThrows(env, FormUrlEncoded.Serialize(ps), StubProfile, parseUrl);
  }

  /** A linked profile whose target and token are known is sent to that target, parsed, with the token in the fragment. */
  lemma CallbackTo(env: Env, query: string, lookup: string -> Option<Json>, parseUrl: UrlParser, target: string, token: string)
    requires Given(FormUrlEncoded.Get(FormUrlEncoded.Parse(query), "code"))
    requires TruthyOpt(lookup(FormUrlEncoded.Get(FormUrlEncoded.Parse(query), "code").value))
    requires CallbackTarget(FormUrlEncoded.Parse(query)) == target
    requires PersistProfile(env, lookup(FormUrlEncoded.Get(FormUrlEncoded.Parse(query), "code").value).value).0 == token
    ensures var location := target + "#session=" + token;
      var back := HandleCallback(env, query, lookup, parseUrl).0;
      && (parseUrl(location).Some? ==> back == Redirect(parseUrl(location).value))
      && (parseUrl(location).None? ==> back == Thrown("Invalid URL"))
  {
  }

  /** What the callback reads from a query carrying a code and a `state`. */
  lemma StubQuery(code: string, origin: string)
    requires code != "" && origin != ""
    ensures var ps := FormUrlEncoded.Parse(FormUrlEncoded.Serialize([("code", code), ("state", origin)]));
      FormUrlEncoded.Get(ps, "code") == Some(code) && CallbackTarget(ps) == origin
  {
    var ps := [("code", code), ("state", origin)];
    FormUrlEncoded.ParseSerialize(ps);
    assert "code" != "state" by {
      assert |"code"| == 4 && |"state"| == 5;
    }
    GetSkip(ps, "state");
    assert FormUrlEncoded.Get(ps, "state") == Some(origin);
  }

  /** The stub's profile is persisted under the token `session-discord-user`. */
  lemma StubToken(env: Env, code: string)
    requires code != ""
    ensures TruthyOpt(StubProfile(code)) && PersistProfile(env, StubProfile(code).value).0 == "session-" + "discord-user"
  {
    var p := StubProfile(code);
    assert Prop(p, "id") == Some(JStr("discord-user"));
    assert ToText(JStr("discord-user")) == "discord-user";
  }

  /** With the stub lookup, a callback carrying a code and an origin sends the user to the parsed origin with the stub's token. */
  lemma CallbackWithStub(env: Env, code: string, origin: string, parseUrl: UrlParser)
    requires code != "" && origin != ""
    ensures var location := origin + "#session=" + ("session-" + "discord-user");
      var back := HandleCallback(env, FormUrlEncoded.Serialize([("code", code), ("state", origin)]), StubProfile, parseUrl).0;
      && (parseUrl(location).Some? ==> back == Redirect(parseUrl(location).value))
      && (parseUrl(location).None? ==> back == Thrown("Invalid URL"))
  {
    StubQuery(code, origin);
    StubToken(env, code);
    CallbackTo(env, FormUrlEncoded.Serialize([("code", code), ("state", origin)]), StubProfile, parseUrl, origin, "session-" + "discord-user");
  }

  /**
   * The OAuth round trip with the worker's stub lookup. The origin handed to the start route
   * travels as `state` in the authorization URL; Discord calls back with a code and that
   * `state`; the user is sent to the origin carrying the token `session-discord-user` in
   * the fragment, or the handler throws when that text is not an absolute URL.
   */
  lemma OAuthRoundTrip(env: Env, origin: string, code: string, parseUrl: UrlParser)
    requires Given(env.clientId) && Given(env.redirectUri) && origin != "" && code != ""
    ensures var start := BuildStartRedirect(env, Some(origin));
      && start.Redirect? && |start.location| > |AuthorizeEndpoint|
      && var state := FormUrlEncoded.Get(FormUrlEncoded.Parse(start.location[|AuthorizeEndpoint| + 1..]), "state");
      && state == Some(origin)
      && var back := HandleCallback(env, FormUrlEncoded.Serialize([("code", code), ("state", state.value)]), StubProfile, parseUrl).0;
      && var location := origin + "#session=" + ("session-" + "discord-user");
      && (parseUrl(location).Some? ==> back == Redirect(parseUrl(location).value))
      && (parseUrl(location).None? ==> back == Thrown("Invalid URL"))
  {
    StartRedirectQuery(env, Some(origin));
    var q := FormUrlEncoded.Serialize(StartParams(env.clientId.value, env.redirectUri.value, Some(origin)));
    var loc := AuthorizeEndpoint + "?" + q;
    assert loc[|AuthorizeEndpoint| + 1..] == q;
    CallbackWithStub(env, code, origin, parseUrl);
  }

  /** `persistTrigger`: one score row when a database is bound; `value ?? 0` and `source || 'site'`. */
  function PersistTrigger(env: Env, trigger: Json): (w: seq<DbWrite>)
    ensures |w| == (if env.hasDb then 1 else 0)
    ensures env.hasDb ==> w[0].ScaleRow? && w[0].axis == Prop(Some(trigger), "axis")
    ensures env.hasDb && Nullish(Prop(Some(trigger), "value")) ==> w[0].score == JNum(0)
    ensures env.hasDb && !Nullish(Prop(Some(trigger), "value")) ==> w[0].score == Prop(Some(trigger), "value").value
    ensures env.hasDb && !TruthyOpt(Prop(Some(trigger), "source")) ==> w[0].source == JStr("site")
    ensures env.hasDb && TruthyOpt(Prop(Some(trigger), "source")) ==> w[0].source == Prop(Some(trigger), "source").value
  {
    if !env.hasDb then []
    else
      var value := Prop(Some(trigger), "value");
      var source := Prop(Some(trigger), "source");
      [ScaleRow(Prop(Some(trigger), "axis"),
                if Nullish(value) then JNum(0) else value.value,
                if TruthyOpt(source) then source.value else JStr("site"))]
  }

  /**
   * `handleTrigger`: `body` is what `request.json()` resolved to (`None` when it rejected,
   * which the worker turns into `null`). 400 unless the trigger has a truthy `axis`;
   * otherwise the trigger is persisted and echoed back as accepted.
   */
  function HandleTrigger(env: Env, body: Option<Json>): (r: (Response, seq<DbWrite>))
    ensures var axis := Prop(Some(body.GetOr(JNull)), "axis");
      && (r.0 == Text(400, "Invalid trigger") <==> !TruthyOpt(axis))
      && (!TruthyOpt(axis) ==> r.1 == [])
      && (TruthyOpt(axis) ==>
            r.0 == JsonBody(JObj([("status", JStr("accepted")), ("trigger", body.value)]))
            && r.1 == PersistTrigger(env, body.value))
  {
    var trigger := body.GetOr(JNull);
    if !TruthyOpt(Prop(Some(trigger), "axis")) then (Text(400, "Invalid trigger"), [])
    else (JsonBody(JObj([("status", JStr("accepted")), ("trigger", trigger)])), PersistTrigger(env, trigger))
  }

  /** The three routes: exact method and path, anything else is 404. */
  function Fetch(env: Env, req: Request, lookup: string -> Option<Json>, parseUrl: UrlParser): (r: (Response, seq<DbWrite>))
    ensures req.verb == "GET" && req.path == "/auth/discord/start" ==>
      r == (BuildStartRedirect(env, FormUrlEncoded.Get(FormUrlEncoded.Parse(req.query), "state")), [])
    ensures req.verb == "GET" && req.path == "/auth/discord/callback" ==> r == HandleCallback(env, req.query, lookup, parseUrl)
    ensures req.verb == "POST" && req.path == "/efbd/trigger" ==> r == HandleTrigger(env, req.body)
    ensures !IsRoute(req) ==> r == (Text(404, "Not found"), [])
    ensures r.1 != [] ==> req.path == "/auth/discord/callback" || req.path == "/efbd/trigger"
  {
    if req.verb == "GET" && req.path == "/auth/discord/start" then
      (BuildStartRedirect(env, FormUrlEncoded.Get(FormUrlEncoded.Parse(req.query), "state")), [])
    else if req.verb == "GET" && req.path == "/auth/discord/callback" then
      HandleCallback(env, req.query, lookup, parseUrl)
    else if req.verb == "POST" && req.path == "/efbd/trigger" then
      HandleTrigger(env, req.body)
    else (Text(404, "Not found"), [])
  }

  predicate IsRoute(req: Request) {
    || (req.verb == "GET" && req.path == "/auth/discord/start")
    || (req.verb == "GET" && req.path == "/auth/discord/callback")
    || (req.verb == "POST" && req.path == "/efbd/trigger")
  }

  /** A request is answered 404 exactly when it matches none of the three routes, and then nothing is written. */
  lemma RouterNotFound(env: Env, req: Request, lookup: string -> Option<Json>, parseUrl: UrlParser)
    ensures Fetch(env, req, lookup, parseUrl).0 == Text(404, "Not found") <==> !IsRoute(req)
    ensures !IsRoute(req) ==> Fetch(env, req, lookup, parseUrl).1 == []
  {
  }
}

=== FILE: wrappers.dfy ===
/** Failure-carrying datatypes shared by every module of the model. */
module Wrappers {

  /** A value that may be absent: JavaScript's `null`/`undefined` versus a present value. */
  datatype Option<+T> = None | Some(value: T) {

    /** The carried value, or `default` when absent. */
    function GetOr(default: T): T {
      match this
      case Some(v) => v
      case None => default
    }
  }

  /** The outcome of an operation that may throw: `Ok(v)` or the error it throws. */
  datatype Result<+T, +E> = Ok(value: T) | Err(error: E) {

    predicate IsFailure() {
      Err?
    }

    function PropagateFailure<U>(): Result<U, E>
      requires Err?
    {
      Err(error)
    }

    function Extract(): T
      requires Ok?
    {
      value
    }
  }
}

/** Bytes as they appear in `Uint8Array`s. */
module Bytes {

  type byte = b: int | 0 <= b < 256
}
